=== FILE: README.md ===
# meta-ads-dash in Dafny

A Dafny model of the pure logic of meta-ads-dash, a Next.js dashboard for Meta (Facebook/Instagram) ad accounts. The model covers:

- how Graph API insight rows become result counts, cost per result, breakdown tables, top-ad rankings, daily trends and manager tables (`lib/meta-api.ts`);
- the aggregation of stored insight rows into headline metrics, top ads and a per-day chart (`lib/dashboard.ts`);
- the two server actions behind the diagnostics view (`app/actions/getDiagnosticoData.ts`, `app/actions/getItemDailyTrend.ts`);
- the reporting periods (`lib/periods.ts`) and the display classifiers (`lib/formatters.ts`);
- the request gate (`middleware.ts`);
- the state and derived values of the dashboard components: tables, the detail modal, the draggable layout, the diagnostics, distribution and trend tabs, the top bar and the KPI cards.

Everything that talks to the network, the database, the clock or the browser becomes a parameter:

- parsed response rows;
- the token validator;
- `today` and the first day of its month;
- whether storage held a layout;
- the outcome of a request.

Each operation is a pure function, or a method when it has a loop. Its contract says what the source promises. The contract, or a lemma about the operation, relates the result to a partner: an inverse, a reference definition (such as `Common.Selects`, the positions `filter` keeps), or an invariant. JavaScript's `Map` insertion order is modelled once, by `Grouping.GroupBy` in `grouping.dfy`. JavaScript's stable comparator sort is modelled once, by `Sorting.Sort` in `sorting.dfy`.

Files, by area:

| file | models |
|---|---|
| `common.dfy` | optional values, sums, filters |
| `text.dfy` | string helpers |
| `sorting.dfy` | stable sort |
| `grouping.dfy` | group by key |
| `meta_actions.dfy` | result counts and cost per result |
| `meta_rows.dfy` | response-row mappers and the error classifier |
| `meta_breakdown.dfy` | breakdown tables |
| `meta_manager.dfy` | manager tables |
| `dashboard.dfy` | `lib/dashboard.ts` |
| `diagnostico.dfy` | the diagnostics data |
| `item_daily_trend.dfy` | the daily series of one diagnostic item |
| `periods.dfy` | reporting periods |
| `formatters.dfy` | display classifiers |
| `middleware.dfy` | the request gate |
| `tables.dfy` | the two data tables |
| `entity_detail_modal.dfy` | the detail modal |
| `dashboard_grid.dfy` | the draggable layout |
| `tab_diagnostico.dfy` | the diagnostics tab and block |
| `tab_distribuicao.dfy` | the distribution tab |
| `tendencia.dfy` | the trend tab |
| `top_bar.dfy` | the top bar |
| `campaign_metrics_row.dfy` | the campaign KPI row |
| `creative_card.dfy` | the creative card |

## Model

| member | source | states |
|---|---|---|
| MetaActions.SumActions | lib/meta-api.ts:787-794 | the sum is 0 when no action has a listed type, and is non-negative when every value is |
| MetaActions.SumActionsIsSum | lib/meta-api.ts:787-794 | `sumActions` equals the plain sum of each action's contribution: its value when its type is listed, else 0 |
| MetaActions.SumActionsPermutation | lib/meta-api.ts:787-794 | the order in which the API lists the actions never changes a counter |
| MetaActions.CountResults | lib/meta-api.ts:244-248 | leads, messages and purchases are the sums over the three fixed type lists |
| MetaActions.PrimaryResults | lib/meta-api.ts:251 | the primary result is one of the three counters. Leads win when non-zero, then messages. It is 0 exactly when all three are 0 |
| MetaActions.CostPerResult | lib/meta-api.ts:252 | with results, cost times results gives back the spend. Without results the cost is 0. The cost is never negative for a non-negative spend |
| MetaActions.NormalizeAccountId | lib/meta-api.ts:218-220 | the id always ends up with the `act_` prefix. An already prefixed id is unchanged, any other gets the prefix once |
| MetaActions.NormalizeAccountIdIdempotent | lib/meta-api.ts:218-220 | normalising twice is normalising once |
| MetaActions.FindFirst | lib/meta-api.ts:1100-1104 | `find` returns the first matching position, or none when nothing matches |
| MetaActions.ExtractLeads | lib/meta-api.ts:1097-1107 | absent actions, or no lead-typed action, give 0. Otherwise the value of the first lead-typed action |
| MetaActions.ExtractCostPerLead | lib/meta-api.ts:1112-1124 | absent costs, or no lead-typed entry, give 0. Otherwise the value of the first lead-typed cost entry |
| MetaActions.ExtractLeadsAgreesWithSum | lib/meta-api.ts:1097-1107 | when at most one action is lead-typed, `extractLeads` and the lead counter of `sumActions` agree |
| MetaRows.Summarize | lib/meta-api.ts:243-267 | a present insight row keeps its spend and raw actions and gets the three counters. Its cost per result satisfies cost times primary results equals spend |
| MetaRows.AccountLevelSummary | lib/meta-api.ts:231-267 | no first insight row gives the all-zero summary. Otherwise the summary of the first row |
| MetaRows.ZeroSummaryHasNoResults | lib/meta-api.ts:232-240 | the all-zero summary reports no results and no cost |
| MetaRows.ToCampaignSummary | lib/meta-api.ts:305-332 | a campaign row keeps its id and gets the summary of its insight. A missing name becomes `Campanha sem nome` and a missing status the empty string |
| MetaRows.CampaignLevel | lib/meta-api.ts:303-335 | one summary per row. The output is a permutation of the mapped rows, ordered by spend, largest first |
| MetaRows.StatusOf | lib/meta-api.ts:415 | the batch-fetched status of the ad when known, else `ACTIVE` |
| MetaRows.ToAdSummary | lib/meta-api.ts:403-424 | an ad row keeps id and spend and takes its status from the status map. It keeps a present name, and a missing one becomes `Anúncio sem nome`. Campaign and ad set ids and names are the row's, or empty when missing. Results are the primary counter and cpl is their cost |
| MetaRows.AdLevel | lib/meta-api.ts:379-425 | every kept ad has positive spend and a status from the map. Every row with spend is kept |
| MetaRows.AdLevelSelects | lib/meta-api.ts:403-425 | the ads are the summaries of exactly the rows with spend, each once, in row order |
| MetaRows.ToTopAd | lib/meta-api.ts:647-666 | the image URL is present exactly when the thumbnail map has the ad, and is that thumbnail. It keeps a present name, and a missing one becomes `Anúncio sem nome`. Ctr, reach and impressions are copied. Results and cost per result come from the actions |
| MetaRows.TopAds | lib/meta-api.ts:624-668 | only ads with at least one result are kept, and every such row is kept |
| MetaRows.TopAdsSelects | lib/meta-api.ts:647-668 | the top ads are the mappings of exactly the rows with results, each once, in row order |
| MetaRows.ToTrendPoint | lib/meta-api.ts:700-708 | a day keeps its date and spend. Results are the primary counter. Cpl is 0 without results, else cpl times results is the spend |
| MetaRows.DailyTrend | lib/meta-api.ts:699-708 | one point per returned day, in the same order, each the mapping of its own row |
| MetaRows.CheckMetaError | lib/meta-api.ts:851-858 | the thrown error is a rate limit exactly for the eight rate-limit codes. Any other code, or none, gives the generic error with the context. The message is carried through |
| MetaRows.CheckMetaErrorText | lib/meta-api.ts:853-858 | the message starts with `RATE_LIMIT: ` exactly for the rate-limit codes. Every other message starts with `Meta API Error (<context>): ` |
| MetaBreakdown.PlacementLabel | lib/meta-api.ts:476-480 | the label comes from the known position of a known platform. Failing that, the platform's default label. An unknown platform gives `platform / position` |
| MetaBreakdown.PlacementLabelByPlatform | lib/meta-api.ts:439-464 | the same position is labelled per platform: `story` differs between Facebook and Instagram, Messenger has only a default, an unknown platform falls through |
| MetaBreakdown.DeviceLabel | lib/meta-api.ts:543-544 | a known device gets its table label, an unknown device its raw name, a missing device `unknown` |
| MetaBreakdown.AgeLabel | lib/meta-api.ts:546 | the age bracket as given, or `Unknown` when missing |
| MetaBreakdown.GenderLabel | lib/meta-api.ts:548-549 | `Masculino` exactly for `male`, `Feminino` exactly for `female`, `Desconhecido` for anything else including a missing gender |
| MetaBreakdown.ToBreakdownRow | lib/meta-api.ts:527-553 | a breakdown row gets its dimension's label and keeps its spend. Results are the primary counter and cpl is their cost |
| MetaBreakdown.Merge | lib/meta-api.ts:572-577 | a merged row has the group's label and the sums of its members' spend and results. Cpl is recomputed from those sums |
| MetaBreakdown.GroupBreakdownByLabel | lib/meta-api.ts:561-578 | no more rows than the input. Every cpl is the cost of that row's own sums |
| MetaBreakdown.GroupBreakdownByLabelCorrect | lib/meta-api.ts:561-578 | the labels are the distinct input labels in first-seen order. Each merged row's spend and results are the sums over exactly the input rows with that label. Total spend is kept |
| MetaBreakdown.MergedLabels | lib/meta-api.ts:562-572 | the merged labels are the input labels without repeats, in first-occurrence order |
| MetaBreakdown.MergedSums | lib/meta-api.ts:562-577 | each merged row sums exactly the input rows carrying its label |
| MetaBreakdown.MergedTotal | lib/meta-api.ts:561-578 | merging neither loses nor double-counts spend |
| MetaBreakdown.GroupBreakdownByLabelDistinct | lib/meta-api.ts:561-578 | no two merged rows share a label |
| MetaBreakdown.GroupBreakdownByLabelPositive | lib/meta-api.ts:554-571 | when every input row had spend, every merged row has spend |
| MetaBreakdown.Breakdown | lib/meta-api.ts:524-558 | the result has only rows with spend, ordered by spend, largest first. It is a permutation of the label-merged rows with spend |
| MetaBreakdown.RankBreakdown | lib/meta-api.ts:554-558 | the rows without spend are dropped, the rest merged by label and ranked by spend, largest first |
| MetaManager.LastIndex | lib/meta-api.ts:889 | the row a `Map` built from pairs keeps for an id is the last one with that id |
| MetaManager.BuildIndex | lib/meta-api.ts:889 | the index has exactly the ids of the rows, and maps each id to the last row carrying it |
| MetaManager.BudgetFromCents | lib/meta-api.ts:898-899 | a missing budget is 0. A present one is the cent amount divided by 100 |
| MetaManager.SummaryMetrics | lib/meta-api.ts:893-907 | a campaign's metrics keep the insight's spend, cost per result, impressions, reach, frequency, ctr and cpm. Results are re-derived with lead, message, purchase priority |
| MetaManager.InsightMetrics | lib/meta-api.ts:969-985 | a raw insight row's metrics keep spend, impressions, reach, frequency, ctr and cpm, take the primary counter as results and its cost as cost per result |
| MetaManager.ManagerCampaigns | lib/meta-api.ts:888-909 | one row per listed campaign, in list order, with id, name, effective status and budgets from the listing. Metrics come from the last insight with that id, or are all zero when there is none |
| MetaManager.ManagerAdSets | lib/meta-api.ts:961-1007 | one row per listed ad set, in list order, with id, name, effective status, campaign id and budgets from the listing. The campaign name is the listed one, or empty when missing. Metrics come from the last insight row for its id, or are all zero |
| MetaManager.ManagerAds | lib/meta-api.ts:1041-1091 | one ad per insight row, in order. Metrics come from its own row. The status is the fetched one or `ACTIVE`. The name is the row's, or `Anúncio sem nome`. Campaign and ad set ids and names are the row's, or empty when missing |
| Dashboard.DashboardMetricsOf | lib/dashboard.ts:19-66 | no accounts, a failed query or no rows give all zeros. Otherwise the totals are sums over the rows, ctr and frequency are means, and cpl times leads gives back the spend (0 without leads) |
| Dashboard.DashboardMetricsOrderFree | lib/dashboard.ts:52-57 | the headline metrics do not depend on the order the rows were read in |
| Dashboard.AdEntry | lib/dashboard.ts:146-173 | an ad's entry counts its rows and sums spend, leads and reach. Its ctr times the row count is the ctr sum. Cpl is spend over leads |
| Dashboard.TakeFront | lib/dashboard.ts:176 | `slice(0, limit)` keeps a prefix of length `min(limit, n)`, and counts back from the end for a negative limit |
| Dashboard.Rank | lib/dashboard.ts:168-176 | only entries with leads, cheapest cpl first, drawn from the input. As many as `slice(0, limit)` leaves of the entries with leads, and no entry with leads left out is cheaper than one kept |
| Dashboard.TopAds | lib/dashboard.ts:139-176 | the ranking holds only ads with leads, cheapest lead first, each an entry of one ad's rows. It has as many of the `n` ads with leads as `slice(0, limit)` keeps (`min(limit, n)`, or `max(n + limit, 0)` for a negative limit), and no ad with leads left out is cheaper than one ranked |
| Dashboard.TopAdsDistinct | lib/dashboard.ts:127-165 | no ad id appears twice in the ranking |
| Dashboard.AdEntryOfOwnRows | lib/dashboard.ts:139-165 | each entry is built from exactly the rows with its ad id |
| Dashboard.TopAdsTotals | lib/dashboard.ts:139-173 | every ranked ad's sums and mean are those of exactly its own rows |
| Dashboard.DayPoint | lib/dashboard.ts:249-256 | a day's point sums the day's spend, leads and reach. Cpl is spend over leads |
| Dashboard.ChartData | lib/dashboard.ts:228-257 | the points are one per day group, in strictly increasing date order |
| Dashboard.DayPointsDistinct | lib/dashboard.ts:228-246 | no two day points share a date |
| Dashboard.ChartDataCoversDates | lib/dashboard.ts:228-257 | every date occurring in the rows has a point |
| Dashboard.ChartDataOnlyRowDates | lib/dashboard.ts:228-257 | there is no point for a date without rows |
| Dashboard.ChartDataTotals | lib/dashboard.ts:228-256 | each point is the point of exactly the rows of its date |
| Grouping.AddRow | lib/dashboard.ts:142-164 | one row extends the group of its key, or appends a new group at the end. Every other group is unchanged |
| Grouping.GroupByCorrect | lib/dashboard.ts:139-165 | grouping by key gives the distinct keys in first-occurrence order, each once. Each group holds exactly the rows with its key, in input order |
| Grouping.GroupByTotal | lib/meta-api.ts:562-571 | grouping neither loses nor duplicates a row: the per-group totals add up to the overall total |
| Grouping.GroupByMembersFromRows | lib/dashboard.ts:228-246 | every group holds at least one row, and only rows of the input |
| Sorting.Sort | lib/meta-api.ts:335 | the comparator sort returns a permutation of its input, ordered by the key in the chosen direction |
| Sorting.SortSorted | lib/mockDataPainel.ts:80-82 | being stable, the sort leaves an already ordered sequence exactly as it is |
| Diagnostico.BinIndex | app/actions/getDiagnosticoData.ts:45 | a cost falls in the bucket `(10k, 10k+10]` for the middle buckets, the first for at most 10, the last for above 40 |
| Diagnostico.AllBins | app/actions/getDiagnosticoData.ts:36-47 | the five labelled buckets, each with the number of positive costs it receives |
| Diagnostico.BuildHistogram | app/actions/getDiagnosticoData.ts:35-49 | the one-pass counts are the reference bucket counts with the empty buckets dropped. Every bar is non-empty. The bars add up to the number of items with a positive cost |
| Diagnostico.HistogramTotal | app/actions/getDiagnosticoData.ts:43-47 | every priced item lands in exactly one bucket |
| Diagnostico.SumIntDropZeros | app/actions/getDiagnosticoData.ts:48 | dropping empty buckets keeps the total count |
| Diagnostico.CampaignItem | app/actions/getDiagnosticoData.ts:70-78 | a campaign keeps id and metrics, at campaign level. A missing status becomes `UNKNOWN` |
| Diagnostico.NonEmptyOrNone | app/actions/getDiagnosticoData.ts:92-93 | an empty name counts as absent and any other is kept |
| Diagnostico.AdItem | app/actions/getDiagnosticoData.ts:84-94 | an ad keeps id, status and metrics, at ad level. Empty campaign and ad set names become absent |
| Diagnostico.GetDiagnosticoData | app/actions/getDiagnosticoData.ts:58-96 | any missing parameter gives no items and no bars. Otherwise one item per cached row of the chosen level, in order, with their histogram, whose bars add up to the priced items |
| ItemDailyTrend.LocalSumActionsAgrees | app/actions/getItemDailyTrend.ts:9-16 | this file's filter-then-reduce `sumActions` equals the one of the API module |
| ItemDailyTrend.AdPoint | app/actions/getItemDailyTrend.ts:57-66 | an ad's day keeps its date and spend (0 when missing), and has cpl 0 without results |
| ItemDailyTrend.AdPointAgrees | app/actions/getItemDailyTrend.ts:57-66 | an ad's day point is the API module's daily point of the same row |
| ItemDailyTrend.ItemDailyTrend | app/actions/getItemDailyTrend.ts:30-71 | campaigns get their cached trend unchanged. Ads get one point per returned day, and an empty series on any error |
| ItemDailyTrend.AdTrendIsDailyTrend | app/actions/getItemDailyTrend.ts:56-66 | at ad level the series is the API module's daily trend of the defaulted rows |
| Tendencia.RoundCents | components/dashboard/painel/TabTendencia.tsx:26 | the rounded value is a whole number of cents, within half a cent of the input |
| Tendencia.WeekLabelsDistinct | components/dashboard/painel/TabTendencia.tsx:25 | different weeks get different `Sem n` labels |
| Tendencia.Chunk | components/dashboard/painel/TabTendencia.tsx:20-21 | every week holds between one and seven days |
| Tendencia.Week | components/dashboard/painel/TabTendencia.tsx:21-32 | a week is labelled by its number and sums its days' results. Its spend is within half a cent of the days' spend. Cpl is 0 without results and the previous-period fields are 0 |
| Tendencia.ToWeekly | components/dashboard/painel/TabTendencia.tsx:18-35 | no days give no weeks. Otherwise `ceil(n/7)` weeks, week `k` built from days `7k` to `min(7k+7, n)`. The weeks' results add up to the days' results |
| Tendencia.RollUp | components/dashboard/painel/TabTendencia.tsx:19-34 | the chunking loop covers every day exactly once for any result-keeping week builder |
| Tendencia.Summarize | components/dashboard/painel/TabTendencia.tsx:92-94 | the cards show the totals of the shown series. Average cpl times total results is total spend, or 0 without results |
| Tendencia.SummaryByGranularity | components/dashboard/painel/TabTendencia.tsx:87-94 | the results card shows the same total in daily and weekly view |
| TablePaging.Paged | components/dashboard/EntityManagerTable.tsx:113 | a page holds at most `size` rows, the consecutive sorted rows from `page * size`, and is empty past the end |
| TablePaging.TotalPages | components/dashboard/EntityManagerTable.tsx:114 | the page count is the fewest pages of `size` rows that hold all rows |
| TablePaging.PageOf | components/dashboard/EntityManagerTable.tsx:113-114 | every row sits on an existing page: row `i` is entry `i % size` of page `i / size` |
| EntityManagerTable.SortedRows | components/dashboard/EntityManagerTable.tsx:103-111 | the table shows a permutation of its rows, ordered by the chosen numeric column, budget included, in the chosen direction |
| EntityManagerTable.PagedRows | components/dashboard/EntityManagerTable.tsx:113 | at most 15 rows per page, the sorted rows from `page * 15` on |
| EntityManagerTable.ToggleSort | components/dashboard/EntityManagerTable.tsx:116-120 | the same column flips direction, a new column sorts descending, and the page goes back to the first |
| EntityManagerTable.ToggleSortTwice | components/dashboard/EntityManagerTable.tsx:116-120 | clicking the same header twice restores the direction |
| EntityManagerTable.ToggleRow | components/dashboard/EntityManagerTable.tsx:122-128 | only the clicked row's selection flips |
| EntityManagerTable.ToggleRowTwice | components/dashboard/EntityManagerTable.tsx:122-128 | clicking a row twice restores the selection |
| EntityManagerTable.PageIds | components/dashboard/EntityManagerTable.tsx:132 | the set holds exactly the ids of the rows on the page |
| EntityManagerTable.ToggleAllAsWritten | components/dashboard/EntityManagerTable.tsx:130-134 | as written: clears the selection when its size equals the page length, otherwise selects exactly the page |
| EntityManagerTable.ToggleAllAsWrittenMisfires | components/dashboard/EntityManagerTable.tsx:130-134 | an unticked header can clear the selection instead of selecting the page |
| EntityManagerTable.ToggleAll | components/dashboard/EntityManagerTable.tsx:250 | a ticked header clears the selection and an unticked one selects exactly the page |
| EntityManagerTable.ToggleAllFlipsHeader | components/dashboard/EntityManagerTable.tsx:249-251 | on a non-empty page, clicking the header checkbox always flips it |
| EntityManagerTable.SelectedRows | components/dashboard/EntityManagerTable.tsx:136 | the selected rows are table rows with a selected id, and every table row with a selected id is among them |
| EntityManagerTable.SelectedRowsSelects | components/dashboard/EntityManagerTable.tsx:136 | the selected rows are every row with a selected id, repeats included, in table order, and nothing else, so the first of them, which the drill-down button at line 232 opens, is the table's first selected row |
| EntityManagerTable.SelectionNoun | components/dashboard/EntityManagerTable.tsx:224 | the banner is singular exactly for one selected item |
| EntityManagerTable.ViewOf | components/dashboard/EntityManagerTable.tsx:157-214 | loading wins. Only the exact error `RATE_LIMIT` is the rate-limit view, with a countdown exactly while `retryIn > 0`. Any other non-empty error is shown. No error shows the table |
| EntityManagerTable.BudgetTextOf | components/dashboard/EntityManagerTable.tsx:285-289 | a positive daily budget is shown per day, else a positive lifetime budget as a total, else a dash. A shown amount is positive |
| DataTable.SortedRows | components/dashboard/DataTable.tsx:48-59 | the table shows a permutation of its rows, ordered by the chosen numeric column in the chosen direction |
| DataTable.PagedRows | components/dashboard/DataTable.tsx:61 | at most 10 rows per page, the sorted rows from `page * 10` on |
| DataTable.ToggleSort | components/dashboard/DataTable.tsx:64-70 | the same column flips direction and a new one sorts descending. The page is kept |
| Formatters.GetCplClass | lib/formatters.ts:17-21 | good up to the target, attention up to one and a half times the target, bad above both |
| Formatters.ZeroCplIsGood | lib/formatters.ts:17-18 | a zero cost is always good against a non-negative target |
| Formatters.GetCplClassMonotone | lib/formatters.ts:17-21 | for a fixed target, a higher cost never gets a milder class |
| Formatters.CompactBranch | lib/formatters.ts:7-11 | millions from one million up, thousands from one thousand, plain below. The shown number times its unit is the value |
| CreativeCard.CardCplClass | components/dashboard/CreativeCard.tsx:57 | good up to 20, attention up to 30, bad above |
| CreativeCard.CardCplClassIsTarget20 | components/dashboard/CreativeCard.tsx:57 | the card's fixed thresholds are `getCplClass` with a target of 20 |
| CreativeCard.TagTablesAgree | components/dashboard/CreativeCard.tsx:11-21 | both tag tables cover exactly `good`, `neutral` and `bad` |
| CampaignMetricsRow.CplMetIsGood | components/dashboard/CampaignMetricsRow.tsx:40 | meeting the target is having a cost that `getCplClass` calls good |
| CampaignMetricsRow.ResultLabel | components/dashboard/CampaignMetricsRow.tsx:46-50 | `Mensagens` exactly with messages, else `Leads` exactly with leads, else `Compras` |
| CampaignMetricsRow.ResultLabelDisagreesWithCount | components/dashboard/CampaignMetricsRow.tsx:46-50 | with both leads and messages the label says messages while the counted result is the leads |
| CampaignMetricsRow.StatusBadgeOf | components/dashboard/CampaignMetricsRow.tsx:41-43 | a known status in any case gets its label and colour. Any other non-empty status is shown raw in the muted colour. A missing or empty status shows no badge |
| CampaignMetricsRow.StatusTablesAgree | components/dashboard/CampaignMetricsRow.tsx:21-37 | the label and colour tables cover the same statuses |
| CampaignMetricsRow.StatusBadgeIgnoresCase | components/dashboard/CampaignMetricsRow.tsx:41-43 | for every status, lower-casing it keeps the badge colour, and keeps the whole badge when the status is known in some case |
| CampaignMetricsRow.TargetBadgeOf | components/dashboard/CampaignMetricsRow.tsx:100-109 | the badge is present exactly when there is a cost, is met exactly when the target is met, and says `OK` exactly when met |
| EntityDetailModal.TypeLabel | components/dashboard/EntityDetailModal.tsx:143-162 | each entity type has its own badge text |
| EntityDetailModal.ExtraMetrics | components/dashboard/EntityDetailModal.tsx:183-194 | campaigns and ad sets show the budget first and only there. Campaigns show nothing else. Ad sets and ads show a non-empty campaign name, ads also a non-empty ad set name. There is exactly one cell per shown item, so no cell is repeated |
| EntityDetailModal.AdCellsOrdered | components/dashboard/EntityDetailModal.tsx:191-194 | for an ad the campaign cell comes before the ad set cell |
| EntityDetailModal.StatusBadge | components/dashboard/EntityDetailModal.tsx:233-237 | a known status gets its label and its style from the style table. An unknown one is shown raw in the paused style. The style is always one of the badge styles |
| EntityDetailModal.StatusTablesAgree | components/dashboard/EntityDetailModal.tsx:34-58 | the label and style tables cover the same statuses, and only `ACTIVE` gets the active style |
| EntityDetailModal.StatusBadgeCaseSensitive | components/dashboard/EntityDetailModal.tsx:235-237 | the badge does not fold case: `active` is shown raw |
| EntityDetailModal.CostClass | components/dashboard/EntityDetailModal.tsx:174-175 | the cost cell is coloured exactly when there is a cost, with `getCplClass` against the target |
| EntityDetailModal.DaysWithSpend | components/dashboard/EntityDetailModal.tsx:378 | the count of days with spend never exceeds the series length |
| EntityDetailModal.DaysWithSpendComplement | components/dashboard/EntityDetailModal.tsx:378 | days with spend and days without add up to the series |
| EntityDetailModal.DaysWithSpendAll | components/dashboard/EntityDetailModal.tsx:378 | the count is the whole series exactly when every day has spend |
| EntityDetailModal.PeakSpend | components/dashboard/EntityDetailModal.tsx:385 | the peak is at least every day's spend and is some day's spend |
| EntityDetailModal.BestCpl | components/dashboard/EntityDetailModal.tsx:396-397 | the best cpl is absent exactly when no day has a positive cpl. Otherwise it is the smallest positive cpl of some day |
| EntityDetailModal.BestCplClass | components/dashboard/EntityDetailModal.tsx:393 | the card is coloured by the best cpl capped at twice the target. So a series without cpl, or whose best cpl is above twice the target, is coloured bad |
| EntityDetailModal.BestCplClassGood | components/dashboard/EntityDetailModal.tsx:393 | the card is green exactly when some day's positive cpl is within the target |
| EntityDetailModal.ModalDate | components/dashboard/EntityDetailModal.tsx:124-125 | only a missing URL date takes the default. An empty one is kept |
| TabDiagnostico.NormalizeStatus | components/dashboard/painel/TabDiagnostico.tsx:38-40 | the upper-cased status's display key, or `PAUSED`. The result always has a label and a colour |
| TabDiagnostico.NormalizeStatusIgnoresCase | components/dashboard/painel/TabDiagnostico.tsx:38-40 | the display status does not depend on letter case |
| TabDiagnostico.NormalizeStatusCases | components/dashboard/painel/TabDiagnostico.tsx:14-22 | only `ACTIVE` is active, only `IN_PROCESS` is in review, only `WITH_ISSUES` and `DELETED` are errors |
| TabDiagnostico.ScatterGroups | components/dashboard/painel/TabDiagnostico.tsx:76-84 | one series per display status, each once, each with a label. Each holds exactly the items of that status, in order |
| TabDiagnostico.ScatterGroupsPartition | components/dashboard/painel/TabDiagnostico.tsx:76-84 | every item is in the series of its own status and in no other |
| TabDiagnostico.MaxSpend | components/dashboard/painel/TabDiagnostico.tsx:86 | the axis maximum is at least 1 and at least every spend, and is 1 or some spend |
| TabDiagnostico.ViewOf | components/dashboard/painel/TabDiagnostico.tsx:89-167 | the empty state exactly for no items. The histogram only outside client mode and with bars |
| TabDiagnostico.EntityLabel | components/dashboard/painel/TabDiagnostico.tsx:74 | ads are `Anúncio`, campaigns `Campanha` |
| TabDiagnostico.BinColour | components/dashboard/painel/TabDiagnostico.tsx:202-207 | a label with `≤` or `10–20` is green. Otherwise one with `> R$40` is red. Everything else is teal |
| TabDiagnostico.HistogramColours | components/dashboard/painel/TabDiagnostico.tsx:202-207 | on the five bucket labels: up to R$20 green, the two middle buckets teal, above R$40 red |
| DiagnosticoBlock.NormalizeStatus | components/dashboard/DiagnosticoBlock.tsx:29-31 | the block's lookup always yields a labelled display status, `PAUSED` for unknown ones |
| DiagnosticoBlock.NormalizeStatusAgrees | components/dashboard/DiagnosticoBlock.tsx:19-31 | the block's copy of the status tables agrees with the tab's on every status and label |
| DiagnosticoBlock.BlockDate | components/dashboard/DiagnosticoBlock.tsx:174-175 | a missing or empty URL date takes the default |
| DiagnosticoBlock.DateDefaultingDiffers | components/dashboard/DiagnosticoBlock.tsx:174-175 | the block and the modal read a URL date the same way except for an empty parameter with a non-empty default |
| DiagnosticoBlock.LoadRequest | components/dashboard/DiagnosticoBlock.tsx:183-205 | no request without an account id. Otherwise a request for the account, the level and the defaulted dates |
| DiagnosticoBlock.AfterLoad | components/dashboard/DiagnosticoBlock.tsx:189-200 | loading always ends. Success replaces the data and clears the error. Failure keeps the data and sets the fixed message |
| DiagnosticoBlock.ContentOf | components/dashboard/DiagnosticoBlock.tsx:233-255 | the skeleton exactly while loading, then the error if any, else the tab with the current data |
| DiagnosticoBlock.FailedLoadShowsError | components/dashboard/DiagnosticoBlock.tsx:195-196 | a failed reload shows the error, never stale data |
| DiagnosticoBlock.TypeLabel | components/dashboard/DiagnosticoBlock.tsx:63 | the drawer says `Anúncio` exactly for ads, `Campanha` otherwise |
| DiagnosticoBlock.TypeLabelAgrees | components/dashboard/DiagnosticoBlock.tsx:63 | the drawer and the tab name a level the same way |
| DiagnosticoBlock.HierarchyShown | components/dashboard/DiagnosticoBlock.tsx:76 | the hierarchy box shows exactly for ads with a non-empty campaign or ad set name |
| DiagnosticoBlock.CplWarning | components/dashboard/DiagnosticoBlock.tsx:108 | the warning shows exactly above the R$20 target |
| TabDistribuicao.StatusLabel | components/dashboard/painel/TabDistribuicao.tsx:16-22 | each demo status has its Portuguese label |
| TabDistribuicao.Ranking | components/dashboard/painel/TabDistribuicao.tsx:70-75 | the bars are a permutation of the items: cheapest cpl first for cpl, largest first for spend and results |
| TabDistribuicao.RankingHead | components/dashboard/painel/TabDistribuicao.tsx:70-75 | the first bar is the best item under the chosen metric |
| TabDistribuicao.TopTen | lib/mockDataPainel.ts:80-82 | `min(10, n)` items, taken from the input, largest spend first, and no item left out has a larger spend than one kept |
| TabDistribuicao.RankingBySpendKeepsTopTen | components/dashboard/painel/TabDistribuicao.tsx:70-75 | ranking the top ten by spend leaves them as they are |
| TabDistribuicao.BarRed | components/dashboard/painel/TabDistribuicao.tsx:132 | a bar is red exactly under the cpl selector with a cpl above 20 |
| TabDistribuicao.TruncateName | components/dashboard/painel/TabDistribuicao.tsx:121 | names up to 18 characters are kept. Longer ones keep their first 16 and an ellipsis. No label exceeds 18 |
| TabDistribuicao.DonutSlices | lib/mockDataPainel.ts:124-130 | only non-empty slices remain |
| TabDistribuicao.DonutSlicesSelects | lib/mockDataPainel.ts:124-130 | the donut keeps exactly the slices with a positive count, in status order |
| TabDistribuicao.ShowDonut | components/dashboard/painel/TabDistribuicao.tsx:78 | a donut exactly for at most six slices |
| TabDistribuicao.FiveStatusesGiveDonut | components/dashboard/painel/TabDistribuicao.tsx:78 | the five statuses always give a donut |
| DashboardGrid.LoadLayout | components/dashboard/DashboardGrid.tsx:40-61 | on the server, without a stored layout or with an unparsable one, the default. Otherwise the saved collapsed flags and mode, each defaulting when missing |
| DashboardGrid.LoadLayoutSelects | components/dashboard/DashboardGrid.tsx:50-54 | a restored order is the saved ids still present, in saved order, followed by the current ids never saved, in declaration order |
| DashboardGrid.LoadLayoutOrder | components/dashboard/DashboardGrid.tsx:50-54 | the restored order holds every current block and no stale one. When neither list repeats an id it is a permutation of the ids |
| DashboardGrid.IndexOf | components/dashboard/DashboardGrid.tsx:122 | `indexOf` is the first position, or -1 exactly when absent |
| DashboardGrid.ArrayMove | components/dashboard/DashboardGrid.tsx:110-114 | the moved block lands at the target. Removing it from both orders gives the same sequence. The order is a permutation |
| DashboardGrid.ArrayMoveInverse | components/dashboard/DashboardGrid.tsx:110-114 | moving a block back to where it came from undoes the move |
| DashboardGrid.ArrayMoveAdjacent | components/dashboard/DashboardGrid.tsx:126 | a move to a neighbouring place swaps the two blocks |
| DashboardGrid.MoveBlock | components/dashboard/DashboardGrid.tsx:120-128 | an unknown block or a move past either end changes nothing. A move never changes flags or mode, and keeps the order a permutation |
| DashboardGrid.MoveBlockSwaps | components/dashboard/DashboardGrid.tsx:120-128 | a successful move swaps the block with its neighbour |
| DashboardGrid.ToggleCollapsed | components/dashboard/DashboardGrid.tsx:130-135 | only the clicked block's collapsed flag flips |
| DashboardGrid.ToggleCollapsedTwice | components/dashboard/DashboardGrid.tsx:130-135 | toggling twice restores every block's state |
| DashboardGrid.ToggleGridMode | components/dashboard/DashboardGrid.tsx:137-139 | only the mode flips |
| DashboardGrid.DragEnd | components/dashboard/DashboardGrid.tsx:104-116 | no target, or the block itself, changes nothing. Otherwise the dragged block lands at the target's place. The order stays a permutation and flags and mode are kept |
| DashboardGrid.Column | components/dashboard/DashboardGrid.tsx:208 | column `c` holds the blocks at the positions of parity `c`, in order |
| DashboardGrid.ColumnsPartition | components/dashboard/DashboardGrid.tsx:207-208 | the two columns together hold every block once, and reading them alternately gives the order back |
| Periods.PeriodToDates | lib/periods.ts:23-41 | N-day periods end today and start N days earlier. Month-to-date runs from the first of the month to yesterday. Anything else is 30 days |
| Periods.PeriodRangeOrder | lib/periods.ts:27-40 | every range but month-to-date is non-empty. Month-to-date is empty exactly on the first of the month |
| Periods.PeriodOptionsWellFormed | lib/periods.ts:10-18 | five distinct handled options, the default among them |
| Periods.PeriodToDatesInjective | lib/periods.ts:27-40 | different periods give different ranges on the same day |
| Periods.FirstMatch | components/layout/TopBar.tsx:51-54 | the first option whose range is the URL's, or none, with no earlier match |
| Periods.MatchPeriod | components/layout/TopBar.tsx:49-56 | without both URL dates, or when no option produces them, the default. Otherwise the first option producing exactly those dates. The answer is always a handled period |
| Periods.MatchPeriodRoundTrip | components/layout/TopBar.tsx:49-56 | choosing a period and reading the URL back recognises that period |
| TopBar.FilterAccounts | components/layout/TopBar.tsx:37-42 | a blank query keeps every account. Otherwise exactly the accounts whose name or id contains the query ignoring case |
| TopBar.FilterAccountsSelects | components/layout/TopBar.tsx:37-42 | with a non-blank query the list is every matching account, repeats included, in list order, and nothing else |
| TopBar.FilterAccountsSubMultiset | components/layout/TopBar.tsx:37-42 | the filtered list repeats no account more often than the list does |
| TopBar.FilterAccountsUntrimmed | components/layout/TopBar.tsx:37-42 | only the blank test trims: a leading space is searched for |
| TopBar.SyncMessage | components/layout/TopBar.tsx:75 | singular for one account, plural with the count otherwise |
| TopBar.SyncMessageSingular | components/layout/TopBar.tsx:75 | the message ends in `s` exactly when the count is not 1 |
| TopBar.SyncFeedback | components/layout/TopBar.tsx:69-77 | a failure shows its message or `Erro desconhecido`. A success shows the count message |
| Middleware.EffectiveToken | middleware.ts:25-28 | a non-empty URL token wins, else a non-empty cookie, else none. The token is never empty |
| Middleware.Gate | middleware.ts:5-76 | public paths pass. Admin paths need the admin cookie, else redirect to the login. Other paths answer 401 without a token or with a rejected one. A token the validator accepts passes with that client's id and name. The cookie is stored only when the token came from the URL |
| Middleware.UnauthorizedReasons | middleware.ts:30-51 | the two 401 answers tell a missing token from a rejected one |
| Middleware.StoreCookie | middleware.ts:54-61 | only a client pass with a URL token changes the cookie jar, and then only `client_token` |
| Middleware.TokenLinkThenCookie | middleware.ts:25-68 | after a valid token link, later client requests without the token reach the same client and store nothing |
| Middleware.AdminCookieValueIgnored | middleware.ts:14-22 | any admin cookie value, even empty, opens the admin area |
| Middleware.PublicPrefixIsLoose | middleware.ts:9-11 | the public prefixes are plain prefixes: `/apiary` passes unchecked |

## Findings

| source | as written | input that shows it | evidently intended | confidence | as-written member | corrected member |
|---|---|---|---|---|---|---|
| components/dashboard/EntityManagerTable.tsx:130-134 | the header checkbox clears the selection when the selection's size equals the page length | one row selected on another page and one unselected row on this page: the header is unticked, yet clicking it clears the selection | clear exactly when the header is ticked (every row on the page selected, line 250), otherwise select the page | not executed | EntityManagerTable.ToggleAllAsWritten, EntityManagerTable.ToggleAllAsWrittenMisfires | EntityManagerTable.ToggleAll, EntityManagerTable.ToggleAllFlipsHeader |

## Left out

- HTTP, JSON parsing and `fetch`: every request is replaced by its parsed rows, its error body or a transport failure. URL and query-string construction is not modelled.
- The Supabase queries and the cache read-through of `lib/dashboard.ts`: stored rows, cached campaign and ad metrics and the client's accounts are parameters.
- The client-token lookup of `lib/auth.ts`: it is the `validate` function parameter of `Middleware.Gate`. The matcher `config` of `middleware.ts` is Next.js configuration, not logic.
- Rendering, charts, tooltips, icons and CSS layout. Only the values the components compute are modelled: labels, classes, which view shows.
- `localStorage` writes and effect scheduling in `DashboardGrid.tsx`, loading flags beyond `DiagnosticoBlock.AfterLoad`, and navigation (`router.push`, `router.refresh`).
- `formatCurrency`, `formatNumber`, `toFixed` and `Intl` formatting. `Formatters.CompactBranch` models only which suffix `formatCompact` picks and the number before rounding.
- The clock and `date-fns`: days are integers, and `Periods.PeriodToDates` takes today and the first of its month as arguments. Dates as `YYYY-MM-DD` strings are integers in `Dashboard`, where `localeCompare` ordering of such strings is integer ordering.
- Sorting by a text column with `localeCompare` in the two tables: the model sorts by the numeric columns only.
- EntityManagerTable.SortedRows: the `Orçamento` column sorts a missing daily budget as 0. The source compares two numbers numerically, but falls back to `localeCompare` on `String(undefined)` when a budget is missing. Campaign and ad-set rows always carry a number, 0 when unset (lib/meta-api.ts:898, 996), and ad rows, which have none, hide the column.
- `toLowerCase` / `toUpperCase` are modelled for ASCII letters only. `length` and `slice` count characters, not UTF-16 code units.
- `parseInt` / `parseFloat` and `Number(...)`: rows arrive with numbers already parsed, a missing field as `None` or its default.
- IEEE floating point: money and ratios are exact reals, so rounding error and `NaN` are not modelled.
- MetaActions.CostPerResult: states the exact quotient on reals, not the rounded double division of the source.
- Tendencia.Week: states the weekly spend only to within half a cent of the exact sum, and the weekly cpl only for weeks without results, not its rounded value.
- Tendencia.ToWeekly: states the chunking and the results total; spend totals of the weeks are only stated per week through `Tendencia.Week`.
- MetaRows.ToCampaignSummary: states the defaults for a missing name and status; present ones are carried as given.
- Dashboard.AdEntry: the entry's name and image come from the first row of the ad; the contract does not restate them.
- An absent message in `checkMetaError` renders as the text `undefined` (`MetaRows.MessageText`); other `undefined` renderings are not modelled.
- The mock data of `lib/mockData.ts` and `lib/mockDataPainel.ts` is not modelled beyond the `top10Items` and `statusDonut` derivations.
- The early `[]` of `getTopAds` and `getChartData` when the client has no accounts or the query fails: callers pass no rows, which gives the same empty answer.

=== FILE: campaign_metrics_row.dfy ===
/**
 * The per-campaign KPI row (components/dashboard/CampaignMetricsRow.tsx):
 * whether the cost per lead meets the target, which result name to show,
 * the status badge and the target badge.
 */
module CampaignMetricsRow {
  import opened Common
  import opened Text
  import opened MetaActions
  import opened Formatters

  /** `cplMet`: there is a cost per lead and it is within the target. */
  predicate CplMet(avgCpl: real, target: real)
  {
    0.0 < avgCpl <= target
  }

  /** Meeting the target is `getCplClass`'s good class, restricted to a positive cost. */
  lemma CplMetIsGood(avgCpl: real, target: real)
    ensures CplMet(avgCpl, target) <==> avgCpl > 0.0 && GetCplClass(avgCpl, target) == CplGood
  {
  }

  /** `resultLabel`: messages first, then leads, then purchases. */
  function ResultLabel(messages: int, leads: int): (r: string)
    ensures r == "Mensagens" <==> messages > 0
    ensures r == "Leads" <==> messages <= 0 && leads > 0
    ensures r == "Compras" <==> messages <= 0 && leads <= 0
  {
    if messages > 0 then "Mensagens" else if leads > 0 then "Leads" else "Compras"
  }

  /**
   * The label's priority is not the counting priority: with both leads and
   * messages the count is the leads (lib/meta-api.ts) while the label says
   * messages.
   */
  lemma ResultLabelDisagreesWithCount(c: ResultCounts)
    requires c.leads > 0 && c.messages > 0
    ensures PrimaryResults(c) == c.leads
    ensures ResultLabel(c.messages, c.leads) == "Mensagens"
  {
  }

  /** `STATUS_LABEL` */
  const StatusLabels: map<string, string> := map[
    "ACTIVE" := "Ativa", "PAUSED" := "Pausada", "DELETED" := "Excluída",
    "ARCHIVED" := "Arquivada", "IN_PROCESS" := "Em análise", "WITH_ISSUES" := "Com problemas"]

  /** `STATUS_COLOR` */
  const StatusColors: map<string, string> := map[
    "ACTIVE" := "text-success", "PAUSED" := "text-muted-foreground", "DELETED" := "text-destructive",
    "ARCHIVED" := "text-muted-foreground", "IN_PROCESS" := "text-warning", "WITH_ISSUES" := "text-destructive"]

  /** `campaignStatus?.toUpperCase() ?? ''` */
  function StatusKey(status: Option<string>): string
  {
    match status
    case None => ""
    case Some(s) => ToUpper(s)
  }

  /** The status badge: text (absent when there is no status to show) and colour. */
  datatype StatusBadge = StatusBadge(text: Option<string>, color: string)

  /**
   * A known status (in any letter case) gets its label and colour; any
   * other status shows the raw string in the muted colour. The badge is
   * rendered only for a truthy label (`statusLabel && …`), so a missing or
   * empty status shows none.
   */
  function StatusBadgeOf(status: Option<string>): (b: StatusBadge)
    ensures StatusKey(status) in StatusLabels ==> b.text == Some(StatusLabels[StatusKey(status)])
    ensures StatusKey(status) in StatusColors ==> b.color == StatusColors[StatusKey(status)]
    ensures StatusKey(status) !in StatusLabels ==>
      b.text == if status.Some? && status.value != "" then status else None
    ensures StatusKey(status) !in StatusColors ==> b.color == "text-muted-foreground"
    ensures b.text.Some? ==> b.text.value != ""
  {
    var key := StatusKey(status);
    var text := if key in StatusLabels then Some(StatusLabels[key]) else status;
    StatusBadge(if text.Some? && text.value != "" then text else None,
      if key in StatusColors then StatusColors[key] else "text-muted-foreground")
  }

  /** Label and colour tables cover the same statuses. */
  lemma StatusTablesAgree()
    ensures StatusLabels.Keys == StatusColors.Keys
  {
  }

  /**
   * The lookup ignores letter case: a status written in lower case gets
   * the same colour, and a known one the same badge, as written any other
   * way. Only an unknown status keeps its own spelling as the text.
   */
  lemma StatusBadgeIgnoresCase(s: string)
    ensures StatusBadgeOf(Some(ToLower(s))).color == StatusBadgeOf(Some(s)).color
    ensures ToUpper(s) in StatusLabels ==> StatusBadgeOf(Some(ToLower(s))) == StatusBadgeOf(Some(s))
  {
    ToUpperIgnoresLower(s);
  }

  /** The target badge of the cost card: `met` and the closing word. */
  datatype TargetBadge = TargetBadge(met: bool, verdict: string)

  /** Present only when there is a cost per lead; `OK` exactly when the target is met. */
  function TargetBadgeOf(avgCpl: real, target: real): (b: Option<TargetBadge>)
    ensures b.Some? <==> avgCpl > 0.0
    ensures b.Some? ==> (b.value.met <==> CplMet(avgCpl, target))
    ensures b.Some? ==> (b.value.verdict == "OK" <==> b.value.met)
    ensures b.Some? ==> (b.value.verdict == "Atenção" <==> !b.value.met)
  {
    if avgCpl > 0.0 then
      var met := CplMet(avgCpl, target);
      Some(TargetBadge(met, if met then "OK" else "Atenção"))
    else None
  }
}

=== FILE: common.dfy ===
/**
 * Shared building blocks: an optional value (JavaScript's `undefined`),
 * left-to-right sums in the style of `Array.prototype.reduce`, and
 * order-preserving filters in the style of `Array.prototype.filter`.
 */
module Common {

  /** A value that may be absent (`undefined` / `null` in the source). */
  datatype Option<+T> = None | Some(value: T) {
    /** `x ?? d` */
    function GetOr(default: T): T {
      match this
      case Some(v) => v
      case None => default
    }
  }

  /** `s.reduce((acc, x) => acc + f(x), 0)` over reals. */
  function Sum<T>(s: seq<T>, f: T -> real): real
    decreases |s|
  {
    if |s| == 0 then 0.0 else Sum(s[..|s| - 1], f) + f(s[|s| - 1])
  }

  /** `s.reduce((acc, x) => acc + f(x), 0)` over integers. */
  function SumInt<T>(s: seq<T>, f: T -> int): int
    decreases |s|
  {
    if |s| == 0 then 0 else SumInt(s[..|s| - 1], f) + f(s[|s| - 1])
  }

  lemma {:induction false} SumConcat<T>(a: seq<T>, b: seq<T>, f: T -> real)
    ensures Sum(a + b, f) == Sum(a, f) + Sum(b, f)
    decreases |b|
  {
    if |b| == 0 {
      assert a + b == a;
    } else {
      assert (a + b)[..|a + b| - 1] == a + b[..|b| - 1];
      SumConcat(a, b[..|b| - 1], f);
    }
  }

  lemma {:induction false} SumIntConcat<T>(a: seq<T>, b: seq<T>, f: T -> int)
    ensures SumInt(a + b, f) == SumInt(a, f) + SumInt(b, f)
    decreases |b|
  {
    if |b| == 0 {
      assert a + b == a;
    } else {
      assert (a + b)[..|a + b| - 1] == a + b[..|b| - 1];
      SumIntConcat(a, b[..|b| - 1], f);
    }
  }

  /** A non-empty sum of positive terms is positive. */
  lemma {:induction false} SumPositive<T>(s: seq<T>, f: T -> real)
    requires |s| > 0
    requires forall i :: 0 <= i < |s| ==> f(s[i]) > 0.0
    ensures Sum(s, f) > 0.0
    decreases |s|
  {
    if |s| > 1 {
      SumPositive(s[..|s| - 1], f);
    }
  }

  /** Removing the element at `k` takes exactly its value off the sum. */
  lemma SumIntRemove<T>(b: seq<T>, k: nat, f: T -> int)
    requires k < |b|
    ensures SumInt(b, f) == SumInt(b[..k] + b[k + 1..], f) + f(b[k])
  {
    var pre, mid, post := b[..k], [b[k]], b[k + 1..];
    assert b == pre + (mid + post);
    SumIntConcat(pre, mid + post, f);
    SumIntConcat(mid, post, f);
    SumIntConcat(pre, post, f);
    assert mid[..0] == [];
    assert SumInt(mid, f) == f(b[k]);
  }

  lemma MultisetRemove<T>(b: seq<T>, k: nat)
    requires k < |b|
    ensures multiset(b[..k] + b[k + 1..]) == multiset(b) - multiset{b[k]}
  {
    assert b == b[..k] + [b[k]] + b[k + 1..];
  }

  /** The sum of an integer reduce does not depend on the order of the elements. */
  lemma {:induction false} SumIntPermutation<T>(a: seq<T>, b: seq<T>, f: T -> int)
    requires multiset(a) == multiset(b)
    ensures SumInt(a, f) == SumInt(b, f)
    decreases |a|
  {
    if |a| == 0 {
      assert |b| == |multiset(b)| == 0;
    } else {
      var n := |a| - 1;
      var x := a[n];
      assert x in multiset(b);
      var k :| 0 <= k < |b| && b[k] == x;
      MultisetRemove(a, n);
      MultisetRemove(b, k);
      assert a[..n] + a[n + 1..] == a[..n];
      SumIntPermutation(a[..n], b[..k] + b[k + 1..], f);
      SumIntRemove(b, k, f);
    }
  }

  lemma SumRemove<T>(b: seq<T>, k: nat, f: T -> real)
    requires k < |b|
    ensures Sum(b, f) == Sum(b[..k] + b[k + 1..], f) + f(b[k])
  {
    var pre, mid, post := b[..k], [b[k]], b[k + 1..];
    assert b == pre + (mid + post);
    SumConcat(pre, mid + post, f);
    SumConcat(mid, post, f);
    SumConcat(pre, post, f);
    assert mid[..0] == [];
    assert Sum(mid, f) == f(b[k]);
  }

  /** The sum of a real reduce does not depend on the order of the elements. */
  lemma {:induction false} SumPermutation<T>(a: seq<T>, b: seq<T>, f: T -> real)
    requires multiset(a) == multiset(b)
    ensures Sum(a, f) == Sum(b, f)
    decreases |a|
  {
    if |a| == 0 {
      assert |b| == |multiset(b)| == 0;
    } else {
      var n := |a| - 1;
      var x := a[n];
      assert x in multiset(b);
      var k :| 0 <= k < |b| && b[k] == x;
      MultisetRemove(a, n);
      MultisetRemove(b, k);
      assert a[..n] + a[n + 1..] == a[..n];
      SumPermutation(a[..n], b[..k] + b[k + 1..], f);
      SumRemove(b, k, f);
    }
  }

  /** `s.filter(p)`: the elements satisfying `p`, in order. */
  function Filter<T(!new)>(s: seq<T>, p: T -> bool): (r: seq<T>)
    ensures |r| <= |s|
    ensures forall x :: x in r <==> x in s && p(x)
    ensures forall i :: 0 <= i < |r| ==> p(r[i])
    decreases |s|
  {
    if |s| == 0 then []
    else
      var init := Filter(s[..|s| - 1], p);
      if p(s[|s| - 1]) then init + [s[|s| - 1]] else init
  }

  /**
   * `r` is the subsequence of `s` at the strictly increasing positions
   * `idx`, and those positions are exactly the ones whose element
   * satisfies `p`: what `s.filter(p)` returns, stated without recursion.
   */
  ghost predicate Selects<T>(r: seq<T>, s: seq<T>, p: T -> bool, idx: seq<nat>)
  {
    && |idx| == |r|
    && (forall i :: 0 <= i < |idx| ==> idx[i] < |s| && r[i] == s[idx[i]])
    && (forall i, j :: 0 <= i < j < |idx| ==> idx[i] < idx[j])
    && (forall k :: 0 <= k < |s| ==> (k in idx <==> p(s[k])))
  }

  /** `Filter` keeps every element satisfying `p`, in its original order, and nothing else. */
  lemma {:induction false} FilterSelects<T(!new)>(s: seq<T>, p: T -> bool) returns (idx: seq<nat>)
    ensures Selects(Filter(s, p), s, p, idx)
    decreases |s|
  {
    if |s| == 0 {
      idx := [];
    } else {
      var n := |s| - 1;
      var init := FilterSelects(s[..n], p);
      assert s == s[..n] + [s[n]];
      idx := SelectsSnoc(Filter(s[..n], p), s[..n], p, init, s[n]);
    }
  }

  /** Extending the input by one element extends the selection by it exactly when it satisfies `p`. */
  lemma SelectsSnoc<T>(r: seq<T>, s: seq<T>, p: T -> bool, idx: seq<nat>, x: T) returns (idx': seq<nat>)
    requires Selects(r, s, p, idx)
    ensures Selects(if p(x) then r + [x] else r, s + [x], p, idx')
  {
    var s' := s + [x];
    forall k | 0 <= k < |s| ensures s'[k] == s[k] { }
    if p(x) {
      idx' := idx + [|s|];
      var r' := r + [x];
      forall i | 0 <= i < |idx'| ensures idx'[i] < |s'| && r'[i] == s'[idx'[i]] {
        if i < |idx| {
          assert idx'[i] == idx[i] && r'[i] == r[i];
        }
      }
      forall k | 0 <= k < |s'| ensures k in idx' <==> p(s'[k]) {
        if k < |s| {
          assert k in idx' <==> k in idx;
        } else {
          assert idx'[|idx|] == k;
        }
      }
    } else {
      idx' := idx;
      assert |s| !in idx;
    }
  }

  /** Filtering a sequence extended by one element. */
  lemma FilterSnoc<T(!new)>(s: seq<T>, x: T, p: T -> bool)
    ensures Filter(s + [x], p) == if p(x) then Filter(s, p) + [x] else Filter(s, p)
  {
    assert (s + [x])[..|s|] == s;
  }

  lemma {:induction false} FilterConcat<T(!new)>(a: seq<T>, b: seq<T>, p: T -> bool)
    ensures Filter(a + b, p) == Filter(a, p) + Filter(b, p)
    decreases |b|
  {
    if |b| == 0 {
      assert a + b == a;
    } else {
      assert (a + b)[..|a + b| - 1] == a + b[..|b| - 1];
      FilterConcat(a, b[..|b| - 1], p);
    }
  }

  /** Filtering by a predicate and by its negation splits the sequence. */
  lemma {:induction false} FilterComplement<T(!new)>(s: seq<T>, p: T -> bool, q: T -> bool)
    requires forall x :: q(x) == !p(x)
    ensures |Filter(s, p)| + |Filter(s, q)| == |s|
    decreases |s|
  {
    if |s| > 0 {
      FilterComplement(s[..|s| - 1], p, q);
    }
  }

  /** The number of elements satisfying `p`. */
  function Count<T(!new)>(s: seq<T>, p: T -> bool): nat
  {
    |Filter(s, p)|
  }

  /** `s.map(f)` */
  function Map<T, U>(s: seq<T>, f: T -> U): (r: seq<U>)
    ensures |r| == |s|
    ensures forall i :: 0 <= i < |s| ==> r[i] == f(s[i])
  {
    seq(|s|, i requires 0 <= i < |s| => f(s[i]))
  }

  /** `Array.prototype.slice(start, end)` for non-negative arguments: both ends are clamped to the length. */
  function Slice<T>(s: seq<T>, start: nat, end: nat): (r: seq<T>)
    ensures |r| <= |s|
    ensures start <= end <= |s| ==> r == s[start..end]
    ensures |r| <= end - start || (end < start && r == [])
  {
    var lo := if start <= |s| then start else |s|;
    var hi := if end <= |s| then end else |s|;
    if lo <= hi then s[lo..hi] else []
  }

  /** No two elements of `s` share a key. */
  ghost predicate DistinctBy<T, K>(s: seq<T>, key: T -> K)
  {
    forall i, j :: 0 <= i < j < |s| ==> key(s[i]) != key(s[j])
  }

  /** An element whose key no other element shares occurs exactly once. */
  lemma OccursOnce<T, K>(a: seq<T>, p: nat, key: T -> K)
    requires p < |a|
    requires forall k :: 0 <= k < |a| && k != p ==> key(a[k]) != key(a[p])
    ensures multiset(a)[a[p]] == 1
  {
    assert a == a[..p] + [a[p]] + a[p + 1..];
    assert a[p] !in multiset(a[..p]);
    assert a[p] !in multiset(a[p + 1..]);
  }

  /** Two positions holding the same element put it in the multiset twice. */
  lemma OccursTwice<T>(b: seq<T>, i: nat, j: nat)
    requires i < j < |b| && b[i] == b[j]
    ensures multiset(b)[b[i]] >= 2
  {
    assert b == b[..i] + [b[i]] + b[i + 1..j] + [b[j]] + b[j + 1..];
  }

  /** Keys stay distinct in any selection (filter, slice, reordering) of the elements. */
  lemma DistinctBySubMultiset<T, K>(a: seq<T>, b: seq<T>, key: T -> K)
    requires DistinctBy(a, key)
    requires multiset(b) <= multiset(a)
    ensures DistinctBy(b, key)
  {
    forall i, j | 0 <= i < j < |b| ensures key(b[i]) != key(b[j]) {
      if key(b[i]) == key(b[j]) {
        assert b[i] in multiset(a) && b[j] in multiset(a);
        var p :| 0 <= p < |a| && a[p] == b[i];
        var q :| 0 <= q < |a| && a[q] == b[j];
        assert p == q;
        OccursOnce(a, p, key);
        OccursTwice(b, i, j);
      }
    }
  }

  lemma {:induction false} FilterSubMultiset<T(!new)>(s: seq<T>, p: T -> bool)
    ensures multiset(Filter(s, p)) <= multiset(s)
    decreases |s|
  {
    if |s| > 0 {
      var n := |s| - 1;
      FilterSubMultiset(s[..n], p);
      assert s == s[..n] + [s[n]];
    }
  }

  lemma SliceSubMultiset<T>(s: seq<T>, start: nat, end: nat)
    ensures multiset(Slice(s, start, end)) <= multiset(s)
  {
    var lo := if start <= |s| then start else |s|;
    var hi := if end <= |s| then end else |s|;
    if lo <= hi {
      assert s == s[..lo] + s[lo..hi] + s[hi..];
    }
  }
}

=== FILE: creative_card.dfy ===
/**
 * The creative card (components/dashboard/CreativeCard.tsx): a fixed
 * three-tier cost-per-result class and the performance tag tables.
 */
module CreativeCard {
  import opened Formatters

  /** The card's own thresholds: 20 and 30. */
  function CardCplClass(costPerResult: real): (c: CplClass)
    ensures c == CplGood <==> costPerResult <= 20.0
    ensures c == CplAttention <==> 20.0 < costPerResult <= 30.0
    ensures c == CplBad <==> costPerResult > 30.0
  {
    if costPerResult <= 20.0 then CplGood
    else if costPerResult <= 30.0 then CplAttention
    else CplBad
  }

  /** The fixed thresholds are `getCplClass` with a target of 20 (30 = 1.5 x 20). */
  lemma CardCplClassIsTarget20(costPerResult: real)
    ensures CardCplClass(costPerResult) == GetCplClass(costPerResult, 20.0)
  {
  }

  /** `tagClass` */
  const TagClass: map<string, string> := map["good" := "tag-good", "neutral" := "tag-neutral", "bad" := "tag-bad"]

  /** `tagLabel` */
  const TagLabel: map<string, string> := map["good" := "Bom", "neutral" := "Neutro", "bad" := "Ruim"]

  /** Both tables are keyed by the same three tags, so every tag has a class and a label. */
  lemma TagTablesAgree()
    ensures TagClass.Keys == TagLabel.Keys == {"good", "neutral", "bad"}
  {
  }
}

=== FILE: dashboard.dfy ===
/**
 * The in-memory aggregation of lib/dashboard.ts once the stored insight
 * rows have been read: the headline metrics, the top ads ranked by cost
 * per lead, and the per-day chart series.
 */
module Dashboard {
  import opened Common
  import opened Sorting
  import opened Grouping
  import opened MetaActions

  /** One stored `ad_insights` row (`Number(...)` already applied). */
  datatype StoredInsight = StoredInsight(
    adId: Option<string>,
    adName: Option<string>,
    creativeImageUrl: Option<string>,
    dateStart: int,
    spend: real,
    leads: int,
    reach: int,
    ctr: real,
    frequency: real,
    costPerLead: real)

  function Spend(i: StoredInsight): real { i.spend }
  function Leads(i: StoredInsight): int { i.leads }
  function Reach(i: StoredInsight): int { i.reach }
  function Ctr(i: StoredInsight): real { i.ctr }
  function Frequency(i: StoredInsight): real { i.frequency }

  /** `DashboardMetrics` */
  datatype DashboardMetrics = DashboardMetrics(
    totalSpend: real,
    totalLeads: int,
    avgCPL: real,
    avgCTR: real,
    totalReach: int,
    avgFrequency: real)

  const ZeroMetrics := DashboardMetrics(0.0, 0, 0.0, 0.0, 0, 0.0)

  /**
   * `getDashboardMetrics` after the queries: `hasAccounts` is whether the
   * client owns any ad account, `fetched` is `None` when the insights
   * query failed.
   */
  function DashboardMetricsOf(hasAccounts: bool, fetched: Option<seq<StoredInsight>>): (m: DashboardMetrics)
    ensures !hasAccounts || fetched.None? || |fetched.value| == 0 ==> m == ZeroMetrics
    ensures hasAccounts && fetched.Some? && |fetched.value| > 0 ==>
      var rows := fetched.value;
      && m.totalSpend == Sum(rows, Spend)
      && m.totalLeads == SumInt(rows, Leads)
      && m.totalReach == SumInt(rows, Reach)
      && m.avgCTR * |rows| as real == Sum(rows, Ctr)
      && m.avgFrequency * |rows| as real == Sum(rows, Frequency)
      && (m.totalLeads > 0 ==> m.avgCPL * m.totalLeads as real == m.totalSpend)
      && (m.totalLeads <= 0 ==> m.avgCPL == 0.0)
  {
    if !hasAccounts || fetched.None? || |fetched.value| == 0 then ZeroMetrics
    else
      var rows := fetched.value;
      var n := |rows| as real;
      var totalSpend := Sum(rows, Spend);
      var totalLeads := SumInt(rows, Leads);
      DashboardMetrics(totalSpend, totalLeads, CostPerResult(totalSpend, totalLeads),
        Sum(rows, Ctr) / n, SumInt(rows, Reach), Sum(rows, Frequency) / n)
  }

  /** The metrics do not depend on the order in which the rows were read. */
  lemma DashboardMetricsOrderFree(hasAccounts: bool, a: seq<StoredInsight>, b: seq<StoredInsight>)
    requires multiset(a) == multiset(b)
    ensures DashboardMetricsOf(hasAccounts, Some(a)) == DashboardMetricsOf(hasAccounts, Some(b))
  {
    assert |a| == |multiset(a)| == |multiset(b)| == |b|;
    SumPermutation(a, b, Spend);
    SumPermutation(a, b, Ctr);
    SumPermutation(a, b, Frequency);
    SumIntPermutation(a, b, Leads);
    SumIntPermutation(a, b, Reach);
  }

  /** `TopAd` */
  datatype TopAdEntry = TopAdEntry(
    id: string,
    name: string,
    imageUrl: Option<string>,
    spend: real,
    leads: int,
    cpl: real,
    ctr: real,
    reach: int,
    count: nat)

  /** `if (!insight.ad_id) return`: a missing or empty id is skipped. */
  function HasAdId(i: StoredInsight): bool { i.adId.Some? && i.adId.value != "" }
  function AdKey(i: StoredInsight): string { i.adId.GetOr("") }

  /** `insight.ads?.name || 'Sem nome'` */
  function AdName(i: StoredInsight): string
  {
    if i.adName.Some? && i.adName.value != "" then i.adName.value else "Sem nome"
  }

  /**
   * One `adMap` entry after the `.map` step: name and image from the first
   * row, sums, mean ctr, cpl. Groups are never empty (see
   * `Grouping.GroupByMembersFromRows`); the empty case only keeps the
   * function total.
   */
  function AdEntry(g: Group<string, StoredInsight>): (e: TopAdEntry)
    ensures e.id == g.key && e.count == |g.members|
    ensures e.spend == Sum(g.members, Spend) && e.leads == SumInt(g.members, Leads)
    ensures e.reach == SumInt(g.members, Reach)
    ensures e.ctr * e.count as real == Sum(g.members, Ctr)
    ensures e.cpl == CostPerResult(e.spend, e.leads)
  {
    var spend := Sum(g.members, Spend);
    var leads := SumInt(g.members, Leads);
    var n := |g.members|;
    var name := if n > 0 then AdName(g.members[0]) else "Sem nome";
    var image := if n > 0 then g.members[0].creativeImageUrl else None;
    TopAdEntry(g.key, name, image, spend, leads, CostPerResult(spend, leads),
      if n > 0 then Sum(g.members, Ctr) / n as real else 0.0, SumInt(g.members, Reach), n)
  }

  /** The ad groups of the rows that carry an ad id, in first-seen order. */
  function AdGroups(rows: seq<StoredInsight>): seq<Group<string, StoredInsight>>
  {
    GroupBy(Filter(rows, HasAdId), AdKey)
  }

  function EntryLeads(e: TopAdEntry): bool { e.leads > 0 }
  function EntryCpl(e: TopAdEntry): real { e.cpl }
  function EntryId(e: TopAdEntry): string { e.id }

  /** `Array.prototype.slice(0, limit)`: a negative limit counts back from the end. */
  function TakeFront<T>(s: seq<T>, limit: int): (r: seq<T>)
    ensures limit >= 0 ==> |r| == if limit < |s| then limit else |s|
    ensures limit < 0 ==> |r| == if |s| + limit > 0 then |s| + limit else 0
    ensures r == s[..|r|]
  {
    if limit >= 0 then (if limit < |s| then s[..limit] else s)
    else if |s| + limit > 0 then s[..|s| + limit] else []
  }

  lemma RankFacts(entries: seq<TopAdEntry>, withLeads: seq<TopAdEntry>, sorted: seq<TopAdEntry>, r: seq<TopAdEntry>)
    requires withLeads == Filter(entries, EntryLeads)
    requires multiset(sorted) == multiset(withLeads)
    requires |r| <= |sorted| && r == sorted[..|r|]
    ensures forall i :: 0 <= i < |r| ==> r[i].leads > 0
    ensures multiset(r) <= multiset(entries)
  {
    FilterSubMultiset(entries, EntryLeads);
    assert sorted == r + sorted[|r|..];
    forall i | 0 <= i < |r| ensures r[i].leads > 0 {
      assert r[i] == sorted[i];
      assert sorted[i] in multiset(withLeads);
      var k :| 0 <= k < |withLeads| && withLeads[k] == sorted[i];
      assert EntryLeads(withLeads[k]);
    }
  }

  /** No entry with leads outside a prefix of the cpl-sorted entries with leads is cheaper than one inside. */
  lemma RankLeftOut(entries: seq<TopAdEntry>, sorted: seq<TopAdEntry>, r: seq<TopAdEntry>)
    requires multiset(sorted) == multiset(Filter(entries, EntryLeads))
    requires SortedBy(sorted, EntryCpl, true)
    requires |r| <= |sorted| && r == sorted[..|r|]
    ensures forall e, i :: e in entries && e.leads > 0 && e !in r && 0 <= i < |r| ==> r[i].cpl <= e.cpl
  {
    PrefixIsBest(sorted, |r|, EntryCpl, true);
    forall e | e in entries && e.leads > 0 ensures e in sorted {
      assert e in Filter(entries, EntryLeads);
      assert e in multiset(sorted);
    }
  }

  /**
   * `.filter(ad => ad.leads > 0).sort((a, b) => a.cpl - b.cpl).slice(0, limit)`:
   * as many of the ads with leads as `slice(0, limit)` allows, cheapest
   * first, and no ad with leads left out is cheaper than one kept.
   */
  function Rank(entries: seq<TopAdEntry>, limit: int): (r: seq<TopAdEntry>)
    ensures forall i :: 0 <= i < |r| ==> r[i].leads > 0
    ensures forall i, j :: 0 <= i < j < |r| ==> r[i].cpl <= r[j].cpl
    ensures multiset(r) <= multiset(entries)
    ensures var n := Count(entries, EntryLeads);
      && (limit >= 0 ==> |r| == if limit < n then limit else n)
      && (limit < 0 ==> |r| == if n + limit > 0 then n + limit else 0)
    ensures forall e, i :: e in entries && e.leads > 0 && e !in r && 0 <= i < |r| ==> r[i].cpl <= e.cpl
  {
    var withLeads := Filter(entries, EntryLeads);
    var sorted := Sort(withLeads, EntryCpl, true);
    var r := TakeFront(sorted, limit);
    RankFacts(entries, withLeads, sorted, r);
    RankLeftOut(entries, sorted, r);
    r
  }

  /**
   * `getTopAds` after the queries (`limit` defaults to 10 in the source):
   * ads with leads, cheapest lead first, at most `limit` of them.
   */
  function TopAds(rows: seq<StoredInsight>, limit: int): (r: seq<TopAdEntry>)
    ensures forall i :: 0 <= i < |r| ==> r[i].leads > 0
    ensures forall i, j :: 0 <= i < j < |r| ==> r[i].cpl <= r[j].cpl
    ensures multiset(r) <= multiset(Map(AdGroups(rows), AdEntry))
    ensures var n := Count(Map(AdGroups(rows), AdEntry), EntryLeads);
      && (limit >= 0 ==> |r| == if limit < n then limit else n)
      && (limit < 0 ==> |r| == if n + limit > 0 then n + limit else 0)
    ensures forall e, i :: e in Map(AdGroups(rows), AdEntry) && e.leads > 0 && e !in r && 0 <= i < |r| ==>
      r[i].cpl <= e.cpl
  {
    Rank(Map(AdGroups(rows), AdEntry), limit)
  }

  /** The ad ids in the ranking are unique. */
  lemma TopAdsDistinct(rows: seq<StoredInsight>, limit: int)
    ensures DistinctBy(TopAds(rows, limit), EntryId)
  {
    AdEntriesDistinct(rows);
    DistinctBySubMultiset(Map(AdGroups(rows), AdEntry), TopAds(rows, limit), EntryId);
  }

  /** One entry per ad group, so one per ad id. */
  lemma AdEntriesDistinct(rows: seq<StoredInsight>)
    ensures DistinctBy(Map(AdGroups(rows), AdEntry), EntryId)
  {
    var gs := AdGroups(rows);
    var entries := Map(gs, AdEntry);
    GroupByKeys(Filter(rows, HasAdId), AdKey);
    forall i, j | 0 <= i < j < |entries| ensures EntryId(entries[i]) != EntryId(entries[j]) {
      assert Keys(gs)[i] != Keys(gs)[j];
    }
  }

  /** An entry built from the ad groups is the entry of exactly the rows with its id. */
  lemma AdEntryOfOwnRows(rows: seq<StoredInsight>, e: TopAdEntry)
    requires e in multiset(Map(AdGroups(rows), AdEntry))
    ensures e == AdEntry(Group(e.id, Filter(Filter(rows, HasAdId), HasKey(AdKey, e.id))))
  {
    var gs := AdGroups(rows);
    var entries := Map(gs, AdEntry);
    GroupByCorrect(Filter(rows, HasAdId), AdKey);
    var k :| 0 <= k < |entries| && entries[k] == e;
    assert gs[k].members == Filter(Filter(rows, HasAdId), HasKey(AdKey, gs[k].key));
    assert gs[k] == Group(e.id, gs[k].members);
  }

  /**
   * Every ranked ad is the entry of exactly the rows with its id, so (by
   * `AdEntry`) spend and leads are their sums and ctr their mean.
   */
  lemma TopAdsTotals(rows: seq<StoredInsight>, limit: int)
    ensures var r := TopAds(rows, limit);
      forall i :: 0 <= i < |r| ==>
        r[i] == AdEntry(Group(r[i].id, Filter(Filter(rows, HasAdId), HasKey(AdKey, r[i].id))))
  {
    var r := TopAds(rows, limit);
    forall i | 0 <= i < |r|
      ensures r[i] == AdEntry(Group(r[i].id, Filter(Filter(rows, HasAdId), HasKey(AdKey, r[i].id))))
    {
      assert r[i] in multiset(r);
      AdEntryOfOwnRows(rows, r[i]);
    }
  }

  /** `ChartData` */
  datatype ChartPoint = ChartPoint(date: int, spend: real, leads: int, cpl: real, reach: int)

  function DateOf(i: StoredInsight): int { i.dateStart }
  function PointDate(p: ChartPoint): real { p.date as real }

  /** One `dateMap` entry after the `.map` step. */
  function DayPoint(g: Group<int, StoredInsight>): (p: ChartPoint)
    ensures p.date == g.key
    ensures p.spend == Sum(g.members, Spend) && p.leads == SumInt(g.members, Leads)
    ensures p.reach == SumInt(g.members, Reach)
    ensures p.cpl == CostPerResult(p.spend, p.leads)
  {
    var spend := Sum(g.members, Spend);
    var leads := SumInt(g.members, Leads);
    ChartPoint(g.key, spend, leads, CostPerResult(spend, leads), SumInt(g.members, Reach))
  }

  function DayGroups(rows: seq<StoredInsight>): seq<Group<int, StoredInsight>>
  {
    GroupBy(rows, DateOf)
  }

  /**
   * `getChartData` after the query: one point per distinct date, in
   * ascending date order (`localeCompare` on `YYYY-MM-DD` strings orders
   * them as the day numbers used here).
   */
  function ChartData(rows: seq<StoredInsight>): (r: seq<ChartPoint>)
    ensures forall i, j :: 0 <= i < j < |r| ==> r[i].date < r[j].date
    ensures multiset(r) == multiset(Map(DayGroups(rows), DayPoint))
  {
    var points := Map(DayGroups(rows), DayPoint);
    var sorted := Sort(points, PointDate, true);
    ChartDatesDistinct(rows, points, sorted);
    sorted
  }

  lemma ChartDatesDistinct(rows: seq<StoredInsight>, points: seq<ChartPoint>, sorted: seq<ChartPoint>)
    requires points == Map(DayGroups(rows), DayPoint)
    requires multiset(sorted) == multiset(points)
    requires SortedBy(sorted, PointDate, true)
    ensures forall i, j :: 0 <= i < j < |sorted| ==> sorted[i].date < sorted[j].date
  {
    DayPointsDistinct(rows);
    DistinctBySubMultiset(points, sorted, ChartDate);
    forall i, j | 0 <= i < j < |sorted| ensures sorted[i].date < sorted[j].date {
      assert InOrder(sorted[i], sorted[j], PointDate, true);
      assert ChartDate(sorted[i]) != ChartDate(sorted[j]);
    }
  }

  function ChartDate(p: ChartPoint): int { p.date }

  /** One point per day group, so one per date. */
  lemma DayPointsDistinct(rows: seq<StoredInsight>)
    ensures DistinctBy(Map(DayGroups(rows), DayPoint), ChartDate)
  {
    var gs := DayGroups(rows);
    var points := Map(gs, DayPoint);
    GroupByKeys(rows, DateOf);
    forall i, j | 0 <= i < j < |points| ensures ChartDate(points[i]) != ChartDate(points[j]) {
      assert Keys(gs)[i] != Keys(gs)[j];
    }
  }

  /** Every date that occurs in the rows has its point. */
  lemma ChartDataCoversDates(rows: seq<StoredInsight>)
    ensures var r := ChartData(rows);
      forall i :: 0 <= i < |rows| ==> exists k :: 0 <= k < |r| && r[k].date == rows[i].dateStart
  {
    var gs := DayGroups(rows);
    var points := Map(gs, DayPoint);
    var r := ChartData(rows);
    GroupByKeys(rows, DateOf);
    DedupProperties(Map(rows, DateOf));
    forall i | 0 <= i < |rows| ensures exists k :: 0 <= k < |r| && r[k].date == rows[i].dateStart {
      assert Map(rows, DateOf)[i] == rows[i].dateStart;
      assert rows[i].dateStart in Keys(gs);
      var g :| 0 <= g < |gs| && Keys(gs)[g] == rows[i].dateStart;
      assert points[g] in multiset(r);
      var k :| 0 <= k < |r| && r[k] == points[g];
    }
  }

  /** There is no point for a date no row has. */
  lemma ChartDataOnlyRowDates(rows: seq<StoredInsight>)
    ensures var r := ChartData(rows);
      forall k :: 0 <= k < |r| ==> exists i :: 0 <= i < |rows| && rows[i].dateStart == r[k].date
  {
    var gs := DayGroups(rows);
    var points := Map(gs, DayPoint);
    var r := ChartData(rows);
    GroupByKeys(rows, DateOf);
    DedupProperties(Map(rows, DateOf));
    forall k | 0 <= k < |r| ensures exists i :: 0 <= i < |rows| && rows[i].dateStart == r[k].date {
      assert r[k] in multiset(points);
      var g :| 0 <= g < |points| && points[g] == r[k];
      assert Keys(gs)[g] in Map(rows, DateOf);
      var i :| 0 <= i < |rows| && Map(rows, DateOf)[i] == Keys(gs)[g];
    }
  }

  /** Every point is the point of exactly that day's rows (so, by `DayPoint`, their sums). */
  lemma ChartDataTotals(rows: seq<StoredInsight>)
    ensures var r := ChartData(rows);
      forall k :: 0 <= k < |r| ==> r[k] == DayPoint(Group(r[k].date, Filter(rows, HasKey(DateOf, r[k].date))))
  {
    var gs := DayGroups(rows);
    var points := Map(gs, DayPoint);
    var r := ChartData(rows);
    GroupByCorrect(rows, DateOf);
    forall k | 0 <= k < |r|
      ensures r[k] == DayPoint(Group(r[k].date, Filter(rows, HasKey(DateOf, r[k].date))))
    {
      assert r[k] in multiset(points);
      var g :| 0 <= g < |points| && points[g] == r[k];
      assert gs[g] == Group(r[k].date, gs[g].members);
    }
  }
}

=== FILE: dashboard_grid.dfy ===
/**
 * The layout state of the draggable dashboard
 * (components/dashboard/DashboardGrid.tsx): block order, collapsed flags
 * and list/grid mode, restored from storage and changed by moves, drags
 * and toggles.
 */
module DashboardGrid {
  import opened Common
  import opened Grouping

  /** `LayoutState` */
  datatype Layout = Layout(order: seq<string>, collapsed: map<string, bool>, gridMode: bool)

  /** The default layout: blocks in declaration order, nothing collapsed, list mode. */
  function DefaultLayout(ids: seq<string>): Layout
  {
    Layout(ids, map[], false)
  }

  /** What storage held: nothing, unparsable text, or a parsed partial layout. */
  datatype Stored =
    | NothingStored
    | Unparsable
    | Parsed(order: Option<seq<string>>, collapsed: Option<map<string, bool>>, gridMode: Option<bool>)

  function InSeq(s: seq<string>): string -> bool { id => id in s }
  function NotInSeq(s: seq<string>): string -> bool { id => id !in s }

  /**
   * `loadLayout`: on the server, with nothing stored or with a parse error,
   * the default; otherwise the saved ids still present (saved order), then
   * the ids never saved (declaration order).
   */
  function LoadLayout(ids: seq<string>, onServer: bool, stored: Stored): (l: Layout)
    ensures onServer || !stored.Parsed? ==> l == DefaultLayout(ids)
    ensures !onServer && stored.Parsed? ==>
      && l.collapsed == stored.collapsed.GetOr(map[])
      && l.gridMode == stored.gridMode.GetOr(false)
  {
    if onServer then DefaultLayout(ids)
    else
      match stored
      case NothingStored => DefaultLayout(ids)
      case Unparsable => DefaultLayout(ids)
      case Parsed(order, collapsed, gridMode) =>
        var savedOrder := Filter(order.GetOr([]), InSeq(ids));
        var newIds := Filter(ids, NotInSeq(savedOrder));
        Layout(savedOrder + newIds, collapsed.GetOr(map[]), gridMode.GetOr(false))
  }

  /**
   * A restored order is the saved ids still present, in saved order,
   * followed by the current ids that were never saved, in declaration
   * order: `n` is where the second part starts.
   */
  lemma LoadLayoutSelects(ids: seq<string>, onServer: bool, stored: Stored)
    returns (n: nat, savedIdx: seq<nat>, newIdx: seq<nat>)
    ensures !onServer && stored.Parsed? ==>
      var o := LoadLayout(ids, onServer, stored).order;
      var saved := stored.order.GetOr([]);
      && n <= |o|
      && Selects(o[..n], saved, InSeq(ids), savedIdx)
      && Selects(o[n..], ids, NotInSeq(saved), newIdx)
  {
    n, savedIdx, newIdx := 0, [], [];
    if !onServer && stored.Parsed? {
      var saved := stored.order.GetOr([]);
      var savedOrder := Filter(saved, InSeq(ids));
      var newIds := Filter(ids, NotInSeq(savedOrder));
      var o := savedOrder + newIds;
      assert LoadLayout(ids, onServer, stored).order == o;
      n := |savedOrder|;
      assert o[..n] == savedOrder && o[n..] == newIds;
      savedIdx := FilterSelects(saved, InSeq(ids));
      newIdx := FilterSelects(ids, NotInSeq(savedOrder));
      forall k | 0 <= k < |ids| ensures NotInSeq(savedOrder)(ids[k]) == NotInSeq(saved)(ids[k]) {
      }
    }
  }

  /**
   * The restored order holds every current block and no stale one, and,
   * when neither the ids nor the saved order repeat, each block exactly
   * once: it is then a permutation of the ids.
   */
  lemma LoadLayoutOrder(ids: seq<string>, onServer: bool, stored: Stored)
    ensures forall id :: id in LoadLayout(ids, onServer, stored).order <==> id in ids
    ensures NoDuplicates(ids) && (stored.Parsed? ==> NoDuplicates(stored.order.GetOr([]))) ==>
      && NoDuplicates(LoadLayout(ids, onServer, stored).order)
      && multiset(LoadLayout(ids, onServer, stored).order) == multiset(ids)
  {
    if !onServer && stored.Parsed? {
      var saved := stored.order.GetOr([]);
      var savedOrder := Filter(saved, InSeq(ids));
      var newIds := Filter(ids, NotInSeq(savedOrder));
      forall id | id in ids ensures id in savedOrder + newIds {
        if id !in savedOrder {
          var i :| 0 <= i < |ids| && ids[i] == id;
          assert NotInSeq(savedOrder)(ids[i]);
        }
      }
      if NoDuplicates(ids) && NoDuplicates(saved) {
        FilterNoDuplicates(saved, InSeq(ids));
        FilterNoDuplicates(ids, NotInSeq(savedOrder));
        DisjointConcat(savedOrder, newIds);
        DistinctSameElements(savedOrder + newIds, ids);
      }
    }
  }

  /** Two sequences without repeats holding the same elements are permutations of each other. */
  lemma DistinctSameElements(a: seq<string>, b: seq<string>)
    requires NoDuplicates(a) && NoDuplicates(b)
    requires forall x :: x in a <==> x in b
    ensures multiset(a) == multiset(b)
  {
    forall x ensures multiset(a)[x] == multiset(b)[x] {
      if x in a {
        var p :| 0 <= p < |a| && a[p] == x;
        var q :| 0 <= q < |b| && b[q] == x;
        OccursOnce(a, p, (y: string) => y);
        OccursOnce(b, q, (y: string) => y);
      }
    }
  }

  /** Two distinct sequences with no element in common concatenate to a distinct one. */
  lemma DisjointConcat(a: seq<string>, b: seq<string>)
    requires NoDuplicates(a) && NoDuplicates(b)
    requires forall i :: 0 <= i < |b| ==> b[i] !in a
    ensures NoDuplicates(a + b)
  {
    forall i, j | 0 <= i < j < |a + b| ensures (a + b)[i] != (a + b)[j] {
      if i < |a| && j >= |a| {
        assert (a + b)[j] == b[j - |a|];
      }
    }
  }

  /** `order.indexOf(id)`: the first position of `id`, or -1. */
  function IndexOf(s: seq<string>, x: string): (i: int)
    ensures -1 <= i < |s|
    ensures i == -1 <==> x !in s
    ensures i >= 0 ==> s[i] == x
    ensures forall j :: 0 <= j < i ==> s[j] != x
    decreases |s|
  {
    if |s| == 0 then -1
    else if s[0] == x then 0
    else
      var k := IndexOf(s[1..], x);
      if k < 0 then -1 else k + 1
  }

  /** `s` without its element at `k`. */
  function RemoveAt(s: seq<string>, k: nat): (r: seq<string>)
    requires k < |s|
    ensures |r| == |s| - 1
  {
    s[..k] + s[k + 1..]
  }

  /** `arrayMove(s, from, to)`: take the element at `from` out, then insert it at `to`. */
  function ArrayMove(s: seq<string>, from: nat, to: nat): (r: seq<string>)
    requires from < |s| && to < |s|
    ensures |r| == |s|
    ensures r[to] == s[from]
    ensures RemoveAt(r, to) == RemoveAt(s, from)
    ensures multiset(r) == multiset(s)
  {
    var rest := RemoveAt(s, from);
    var moved := rest[..to] + [s[from]] + rest[to..];
    assert RemoveAt(moved, to) == rest by {
      assert moved[..to] == rest[..to];
      assert moved[to + 1..] == rest[to..];
    }
    MoveMultiset(s, from, to);
    moved
  }

  lemma MoveMultiset(s: seq<string>, from: nat, to: nat)
    requires from < |s| && to < |s|
    ensures var rest := RemoveAt(s, from); multiset(rest[..to] + [s[from]] + rest[to..]) == multiset(s)
  {
    var rest := RemoveAt(s, from);
    assert rest == rest[..to] + rest[to..];
    assert s == s[..from] + [s[from]] + s[from + 1..];
    calc {
      multiset(rest[..to] + [s[from]] + rest[to..]);
      multiset(rest[..to]) + multiset(rest[to..]) + multiset([s[from]]);
      multiset(rest) + multiset([s[from]]);
      multiset(s[..from]) + multiset(s[from + 1..]) + multiset([s[from]]);
      multiset(s);
    }
  }

  /** Moving a block back to where it came from undoes the move. */
  lemma ArrayMoveInverse(s: seq<string>, from: nat, to: nat)
    requires from < |s| && to < |s|
    ensures ArrayMove(ArrayMove(s, from, to), to, from) == s
  {
    var r := ArrayMove(s, from, to);
    var back := ArrayMove(r, to, from);
    assert RemoveAt(back, from) == RemoveAt(s, from);
    assert back[from] == s[from];
    forall k | 0 <= k < |s| ensures back[k] == s[k] {
      if k < from {
        assert back[k] == RemoveAt(back, from)[k];
      } else if k > from {
        assert back[k] == RemoveAt(back, from)[k - 1];
      }
    }
  }

  /** A move to a neighbouring position swaps the two blocks and leaves the rest in place. */
  lemma ArrayMoveAdjacent(s: seq<string>, from: nat, to: nat)
    requires from < |s| && to < |s|
    requires to == from + 1 || from == to + 1
    ensures ArrayMove(s, from, to) == s[from := s[to]][to := s[from]]
  {
    var r := ArrayMove(s, from, to);
    var rest := RemoveAt(s, from);
    forall k | 0 <= k < |s| ensures r[k] == s[from := s[to]][to := s[from]][k] {
      if k < to {
        assert r[k] == RemoveAt(r, to)[k];
      } else if k > to {
        assert r[k] == RemoveAt(r, to)[k - 1];
      }
    }
  }

  /**
   * `moveBlock(id, direction)`: an unknown id or a move past either end
   * leaves the layout as it is; otherwise the block trades places with its
   * neighbour and nothing else changes.
   */
  function MoveBlock(l: Layout, id: string, up: bool): (r: Layout)
    ensures id !in l.order ==> r == l
    ensures id in l.order && up && IndexOf(l.order, id) == 0 ==> r == l
    ensures id in l.order && !up && IndexOf(l.order, id) == |l.order| - 1 ==> r == l
    ensures r.collapsed == l.collapsed && r.gridMode == l.gridMode
    ensures multiset(r.order) == multiset(l.order)
  {
    var idx := IndexOf(l.order, id);
    if idx < 0 then l
    else
      var target := if up then idx - 1 else idx + 1;
      if target < 0 || target >= |l.order| then l
      else l.(order := ArrayMove(l.order, idx, target))
  }

  /** A successful move is a swap of the block with its neighbour. */
  lemma MoveBlockSwaps(l: Layout, id: string, up: bool, idx: nat, target: nat)
    requires idx == IndexOf(l.order, id)
    requires target == if up then idx - 1 else idx + 1
    requires target < |l.order|
    ensures MoveBlock(l, id, up).order == l.order[idx := l.order[target]][target := l.order[idx]]
  {
    assert MoveBlock(l, id, up).order == ArrayMove(l.order, idx, target);
    ArrayMoveAdjacent(l.order, idx, target);
  }

  /** `!!collapsed[id]`: an id never toggled is expanded. */
  function IsCollapsed(l: Layout, id: string): bool
  {
    id in l.collapsed && l.collapsed[id]
  }

  /** `toggleCollapsed(id)`: only `id`'s flag flips. */
  function ToggleCollapsed(l: Layout, id: string): (r: Layout)
    ensures IsCollapsed(r, id) == !IsCollapsed(l, id)
    ensures forall k :: k != id ==> (k in r.collapsed <==> k in l.collapsed)
    ensures forall k :: k != id && k in l.collapsed ==> r.collapsed[k] == l.collapsed[k]
    ensures r.order == l.order && r.gridMode == l.gridMode
  {
    l.(collapsed := l.collapsed[id := !IsCollapsed(l, id)])
  }

  /** Toggling the same block twice restores every block's collapsed state. */
  lemma ToggleCollapsedTwice(l: Layout, id: string)
    ensures forall k :: IsCollapsed(ToggleCollapsed(ToggleCollapsed(l, id), id), k) == IsCollapsed(l, k)
  {
  }

  /** `toggleGridMode()`: only the mode flips. */
  function ToggleGridMode(l: Layout): (r: Layout)
    ensures r.gridMode == !l.gridMode
    ensures r.order == l.order && r.collapsed == l.collapsed
  {
    l.(gridMode := !l.gridMode)
  }

  /**
   * `handleDragEnd`: without a drop target, or dropped on itself, nothing
   * changes; otherwise the dragged block moves to the target's position.
   * Both ids come from the sortable items, that is from the order itself.
   */
  function DragEnd(l: Layout, active: string, over: Option<string>): (r: Layout)
    requires active in l.order
    requires over.Some? ==> over.value in l.order
    ensures over.None? || over == Some(active) ==> r == l
    ensures |r.order| == |l.order|
    ensures over.Some? && over.value != active ==>
      && r.order[IndexOf(l.order, over.value)] == active
      && RemoveAt(r.order, IndexOf(l.order, over.value)) == RemoveAt(l.order, IndexOf(l.order, active))
    ensures multiset(r.order) == multiset(l.order)
    ensures r.collapsed == l.collapsed && r.gridMode == l.gridMode
  {
    match over
    case None => l
    case Some(o) =>
      if o == active then l
      else l.(order := ArrayMove(l.order, IndexOf(l.order, active), IndexOf(l.order, o)))
  }

  /** Column `c` of the grid mode: the blocks at the indices `i` with `i % 2 == c`. */
  function Column<T>(blocks: seq<T>, c: nat): (r: seq<T>)
    requires c < 2
    ensures |r| == (|blocks| + 1 - c) / 2
    ensures forall j :: 0 <= j < |r| ==> r[j] == blocks[2 * j + c]
  {
    seq((|blocks| + 1 - c) / 2, j requires 0 <= j < (|blocks| + 1 - c) / 2 => blocks[2 * j + c])
  }

  /** Taking blocks alternately from the two columns, starting with the first. */
  function Interleave<T>(left: seq<T>, right: seq<T>): seq<T>
    decreases |left| + |right|
  {
    if |left| == 0 then right
    else [left[0]] + Interleave(right, left[1..])
  }

  /** The two columns partition the ordered blocks: reading them alternately gives the blocks back. */
  lemma {:induction false} ColumnsPartition<T>(blocks: seq<T>)
    ensures Interleave(Column(blocks, 0), Column(blocks, 1)) == blocks
    ensures multiset(Column(blocks, 0)) + multiset(Column(blocks, 1)) == multiset(blocks)
    decreases |blocks|
  {
    if |blocks| > 0 {
      ColumnsPartition(blocks[1..]);
      assert Column(blocks, 0)[1..] == Column(blocks[1..], 1);
      assert Column(blocks, 1) == Column(blocks[1..], 0);
      assert blocks == [blocks[0]] + blocks[1..];
      assert Column(blocks, 0) == [blocks[0]] + Column(blocks, 0)[1..];
    }
  }
}

=== FILE: diagnostico.dfy ===
/**
 * The `getDiagnosticoData` server action (app/actions/getDiagnosticoData.ts):
 * campaign or ad metrics become uniform diagnostic items, and their cost
 * per result is binned into a five-bucket histogram.
 */
module Diagnostico {
  import opened Common
  import opened MetaRows

  /** `DiagnosticoLevel` */
  datatype Level = CampaignLevel | AdLevel

  /** `DiagnosticoItem` */
  datatype Item = Item(
    id: string,
    name: string,
    status: string,
    spend: real,
    cpl: real,
    results: int,
    level: Level,
    campaignName: Option<string>,
    adSetName: Option<string>)

  /** `HistogramBin` */
  datatype Bin = Bin(range: string, count: nat)

  /** The five bucket labels, in display order. */
  const Ranges: seq<string> := ["≤ R$10", "R$10–20", "R$20–30", "R$30–40", "> R$40"]

  /** The bucket of a positive cost: `(0,10]`, `(10,20]`, `(20,30]`, `(30,40]`, above 40. */
  function BinIndex(cpl: real): (k: nat)
    ensures k < 5
    ensures k == 0 <==> cpl <= 10.0
    ensures k == 4 <==> cpl > 40.0
    ensures 0 < k < 4 ==> (k as real) * 10.0 < cpl <= (k as real) * 10.0 + 10.0
  {
    if cpl <= 10.0 then 0 else if cpl <= 20.0 then 1 else if cpl <= 30.0 then 2 else if cpl <= 40.0 then 3 else 4
  }

  /** Reference count: the items with a positive cost that fall in bucket `k`. */
  function BinCount(items: seq<Item>, k: nat): nat
    decreases |items|
  {
    if |items| == 0 then 0
    else
      var last := items[|items| - 1];
      BinCount(items[..|items| - 1], k) + if last.cpl > 0.0 && BinIndex(last.cpl) == k then 1 else 0
  }

  /** The number of items with a positive cost. */
  function PricedCount(items: seq<Item>): nat
    decreases |items|
  {
    if |items| == 0 then 0
    else PricedCount(items[..|items| - 1]) + if items[|items| - 1].cpl > 0.0 then 1 else 0
  }

  /** All five buckets with their reference counts. */
  function AllBins(items: seq<Item>): (r: seq<Bin>)
    ensures |r| == 5
    ensures forall k :: 0 <= k < 5 ==> r[k] == Bin(Ranges[k], BinCount(items, k))
  {
    seq(5, k requires 0 <= k < 5 => Bin(Ranges[k], BinCount(items, k)))
  }

  function BinCountOf(b: Bin): int { b.count }
  function NonEmpty(b: Bin): bool { b.count > 0 }

  /**
   * `buildHistogram`: one pass over the items bumping the bucket of every
   * positive cost, then `bins.filter(b => b.count > 0)`.
   */
  method BuildHistogram(items: seq<Item>) returns (bins: seq<Bin>)
    ensures bins == Filter(AllBins(items), NonEmpty)
    ensures forall i :: 0 <= i < |bins| ==> bins[i].count > 0
    ensures SumInt(bins, BinCountOf) == PricedCount(items)
  {
    var counts: seq<nat> := [0, 0, 0, 0, 0];
    var i := 0;
    while i < |items|
      invariant 0 <= i <= |items|
      invariant |counts| == 5
      invariant forall k :: 0 <= k < 5 ==> counts[k] == BinCount(items[..i], k)
    {
      assert items[..i + 1][..i] == items[..i];
      if items[i].cpl > 0.0 {
        var idx := BinIndex(items[i].cpl);
        counts := counts[idx := counts[idx] + 1];
      }
      i := i + 1;
    }
    assert items[..i] == items;
    var all := seq(5, k requires 0 <= k < 5 => Bin(Ranges[k], counts[k]));
    assert all == AllBins(items);
    bins := Filter(all, NonEmpty);
    HistogramTotal(items);
    SumIntDropZeros(all);
  }

  /** Every priced item lands in exactly one bucket: the bucket counts add up to the priced items. */
  lemma {:induction false} HistogramTotal(items: seq<Item>)
    ensures SumInt(AllBins(items), BinCountOf) == PricedCount(items)
    decreases |items|
  {
    SumFive(AllBins(items));
    if |items| > 0 {
      HistogramTotal(items[..|items| - 1]);
      SumFive(AllBins(items[..|items| - 1]));
    }
  }

  lemma SumFive(bins: seq<Bin>)
    requires |bins| == 5
    ensures SumInt(bins, BinCountOf) == bins[0].count + bins[1].count + bins[2].count + bins[3].count + bins[4].count
  {
    assert bins[..5] == bins;
    forall k | 1 <= k <= 5
      ensures SumInt(bins[..k], BinCountOf) == SumInt(bins[..k - 1], BinCountOf) + bins[k - 1].count
    {
      assert bins[..k][..k - 1] == bins[..k - 1];
    }
  }

  /** Dropping the empty buckets does not change the total count. */
  lemma {:induction false} SumIntDropZeros(bins: seq<Bin>)
    ensures SumInt(Filter(bins, NonEmpty), BinCountOf) == SumInt(bins, BinCountOf)
    decreases |bins|
  {
    if |bins| > 0 {
      var n := |bins| - 1;
      SumIntDropZeros(bins[..n]);
      if NonEmpty(bins[n]) {
        var f := Filter(bins[..n], NonEmpty);
        assert (f + [bins[n]])[..|f|] == f;
      }
    }
  }

  /** A cached campaign metrics row (`getCachedOrLiveCampaignMetrics`). */
  datatype CampaignMetrics = CampaignMetrics(
    metaCampaignId: string,
    campaignName: string,
    campaignStatus: Option<string>,
    totalSpend: real,
    avgCPL: real,
    totalResults: int)

  function CampaignItem(c: CampaignMetrics): (item: Item)
    ensures item.id == c.metaCampaignId && item.level == CampaignLevel
    ensures c.campaignStatus.None? ==> item.status == "UNKNOWN"
    ensures c.campaignStatus.Some? ==> item.status == c.campaignStatus.value
    ensures item.spend == c.totalSpend && item.cpl == c.avgCPL && item.results == c.totalResults
  {
    Item(c.metaCampaignId, c.campaignName, c.campaignStatus.GetOr("UNKNOWN"),
      c.totalSpend, c.avgCPL, c.totalResults, CampaignLevel, None, None)
  }

  /** `s || undefined` on a string: the empty string counts as absent. */
  function NonEmptyOrNone(s: string): (r: Option<string>)
    ensures r.None? <==> s == ""
    ensures r.Some? ==> r.value == s
  {
    if s == "" then None else Some(s)
  }

  function AdItem(a: AdSummary): (item: Item)
    ensures item.id == a.metaAdId && item.level == AdLevel && item.status == a.adStatus
    ensures item.campaignName == NonEmptyOrNone(a.campaignName)
    ensures item.adSetName == NonEmptyOrNone(a.adSetName)
    ensures item.spend == a.spend && item.cpl == a.cpl && item.results == a.results
  {
    Item(a.metaAdId, a.adName, a.adStatus, a.spend, a.cpl, a.results, AdLevel,
      NonEmptyOrNone(a.campaignName), NonEmptyOrNone(a.adSetName))
  }

  /** `DiagnosticoData` */
  datatype DiagnosticoData = DiagnosticoData(items: seq<Item>, histogram: seq<Bin>)

  /**
   * `getDiagnosticoData` with the cached rows of both levels given: any
   * missing parameter yields nothing; otherwise one item per row of the
   * chosen level, in order, and their histogram.
   */
  method GetDiagnosticoData(accountId: string, dateFrom: string, dateTo: string, level: Level,
                            campaigns: seq<CampaignMetrics>, ads: seq<AdSummary>)
    returns (d: DiagnosticoData)
    ensures accountId == "" || dateFrom == "" || dateTo == "" ==> d == DiagnosticoData([], [])
    ensures accountId != "" && dateFrom != "" && dateTo != "" ==>
      && |d.items| == (if level == CampaignLevel then |campaigns| else |ads|)
      && (level == CampaignLevel ==> forall i :: 0 <= i < |d.items| ==> d.items[i] == CampaignItem(campaigns[i]))
      && (level == AdLevel ==> forall i :: 0 <= i < |d.items| ==> d.items[i] == AdItem(ads[i]))
      && d.histogram == Filter(AllBins(d.items), NonEmpty)
    ensures SumInt(d.histogram, BinCountOf) == PricedCount(d.items)
  {
    if accountId == "" || dateFrom == "" || dateTo == "" {
      d := DiagnosticoData([], []);
      assert AllBins([]) == [Bin(Ranges[0], 0), Bin(Ranges[1], 0), Bin(Ranges[2], 0), Bin(Ranges[3], 0), Bin(Ranges[4], 0)];
      SumIntDropZeros(AllBins([]));
      HistogramTotal([]);
      return;
    }
    var items := if level == CampaignLevel then Map(campaigns, CampaignItem) else Map(ads, AdItem);
    var histogram := BuildHistogram(items);
    d := DiagnosticoData(items, histogram);
  }
}

=== FILE: entity_detail_modal.dfy ===
/**
 * The entity detail modal (components/dashboard/EntityDetailModal.tsx):
 * the type and status badges, the extra metric cells, the cost cell and
 * the trend summary cards computed from the entity's daily points.
 */
module EntityDetailModal {
  import opened Common
  import opened Formatters
  import opened MetaRows
  import EntityManagerTable

  /** `row.type` */
  datatype EntityType = Campaign | AdSet | Ad

  /** The text of the type badge. */
  function TypeLabel(t: EntityType): (s: string)
    ensures t == Campaign <==> s == "Campanha"
    ensures t == AdSet <==> s == "Conjunto"
    ensures t == Ad <==> s == "Anúncio"
  {
    match t
    case Campaign => "Campanha"
    case AdSet => "Conjunto"
    case Ad => "Anúncio"
  }

  /** The fields of `EntityRow` the extra cells read; absent values are `None`. */
  datatype Row = Row(
    entityType: EntityType,
    dailyBudget: Option<real>, lifetimeBudget: Option<real>,
    campaignName: Option<string>, adSetName: Option<string>)

  /** A JavaScript-truthy optional string: present and non-empty. */
  predicate Truthy(o: Option<string>)
  {
    o.Some? && o.value != ""
  }

  /** The extra cells: `Orçamento`, `Campanha` and `Conjunto`. */
  datatype Extra =
    | BudgetCell(budget: EntityManagerTable.BudgetText)
    | CampaignCell(name: string)
    | AdSetCell(name: string)

  /**
   * `extraMetrics`: campaigns and ad sets show their budget first; ad sets
   * add their campaign, ads their campaign and then their ad set, each only
   * when the name is non-empty.
   */
  function ExtraMetrics(row: Row): (r: seq<Extra>)
    ensures |r| <= 2
    ensures forall i :: 0 <= i < |r| && r[i].BudgetCell? ==> i == 0 && row.entityType != Ad
    ensures row.entityType != Ad ==> |r| > 0 && r[0] == BudgetCell(EntityManagerTable.BudgetTextOf(row.dailyBudget, row.lifetimeBudget))
    ensures forall i :: 0 <= i < |r| && r[i].CampaignCell? ==>
      row.entityType != Campaign && row.campaignName == Some(r[i].name) && r[i].name != ""
    ensures forall i :: 0 <= i < |r| && r[i].AdSetCell? ==>
      row.entityType == Ad && row.adSetName == Some(r[i].name) && r[i].name != ""
    ensures row.entityType != Campaign && Truthy(row.campaignName) ==> CampaignCell(row.campaignName.value) in r
    ensures row.entityType == Ad && Truthy(row.adSetName) ==> AdSetCell(row.adSetName.value) in r
    ensures row.entityType == Campaign ==> |r| == 1
    ensures |r| == (if row.entityType != Ad then 1 else 0)
      + (if row.entityType != Campaign && Truthy(row.campaignName) then 1 else 0)
      + (if row.entityType == Ad && Truthy(row.adSetName) then 1 else 0)
  {
    var campaign := if Truthy(row.campaignName) then [CampaignCell(row.campaignName.value)] else [];
    match row.entityType
    case Campaign => [BudgetCell(EntityManagerTable.BudgetTextOf(row.dailyBudget, row.lifetimeBudget))]
    case AdSet => [BudgetCell(EntityManagerTable.BudgetTextOf(row.dailyBudget, row.lifetimeBudget))] + campaign
    case Ad => campaign + (if Truthy(row.adSetName) then [AdSetCell(row.adSetName.value)] else [])
  }

  /** Within an ad's cells the campaign comes before the ad set. */
  lemma AdCellsOrdered(row: Row, i: nat, j: nat)
    requires row.entityType == Ad
    requires i < |ExtraMetrics(row)| && j < |ExtraMetrics(row)|
    requires ExtraMetrics(row)[i].CampaignCell? && ExtraMetrics(row)[j].AdSetCell?
    ensures i < j
  {
  }

  /** `STATUS_LABEL`: the known statuses and their Portuguese names. */
  const StatusLabels: map<string, string> := map[
    "ACTIVE" := "Ativo", "PAUSED" := "Pausado", "CAMPAIGN_PAUSED" := "Camp. Pausada",
    "ADSET_PAUSED" := "Conj. Pausado", "PENDING_REVIEW" := "Em análise",
    "IN_PROCESS" := "Em processamento", "DISAPPROVED" := "Rejeitado",
    "WITH_ISSUES" := "Com problemas", "DELETED" := "Deletado", "ARCHIVED" := "Arquivado"]

  /** `STATUS_CLASS`: the badge style of each known status. */
  const StatusClasses: map<string, string> := map[
    "ACTIVE" := "badge-active", "PAUSED" := "badge-paused", "CAMPAIGN_PAUSED" := "badge-paused",
    "ADSET_PAUSED" := "badge-paused", "PENDING_REVIEW" := "badge-review",
    "IN_PROCESS" := "badge-review", "DISAPPROVED" := "badge-rejected",
    "WITH_ISSUES" := "badge-error", "DELETED" := "badge-paused", "ARCHIVED" := "badge-paused"]

  /** The styles a status badge can take. */
  predicate BadgeClass(c: string)
  {
    c == "badge-active" || c == "badge-paused" || c == "badge-review" || c == "badge-rejected" || c == "badge-error"
  }

  /**
   * The status badge as `(text, class)`: the status is looked up as given
   * (no case folding); an unknown one is shown raw in the paused style.
   */
  function StatusBadge(status: string): (r: (string, string))
    ensures status in StatusLabels ==> r.0 == StatusLabels[status]
    ensures status in StatusClasses ==> r.1 == StatusClasses[status]
    ensures status !in StatusLabels ==> r == (status, "badge-paused")
    ensures BadgeClass(r.1)
  {
    var text := if status in StatusLabels then StatusLabels[status] else status;
    var style := if status in StatusClasses then StatusClasses[status] else "badge-paused";
    (text, style)
  }

  /** Both tables cover the same statuses, and only ACTIVE gets the active style. */
  lemma StatusTablesAgree(status: string)
    ensures status in StatusLabels <==> status in StatusClasses
    ensures StatusBadge(status).1 == "badge-active" <==> status == "ACTIVE"
  {
  }

  /** The badge is case sensitive: a lower-case `active` is shown as typed. */
  lemma StatusBadgeCaseSensitive()
    ensures StatusBadge("active") == ("active", "badge-paused")
  {
    assert "active" != "ACTIVE";
  }

  /** The `Custo/Resultado` cell's cost class: coloured only when there is a cost. */
  function CostClass(costPerResult: real, cplTarget: real): (c: Option<CplClass>)
    ensures c.Some? <==> costPerResult > 0.0
    ensures c.Some? ==> c.value == GetCplClass(costPerResult, cplTarget)
  {
    if costPerResult > 0.0 then Some(GetCplClass(costPerResult, cplTarget)) else None
  }

  function PointSpend(p: TrendPoint): real { p.spend }

  predicate HasSpend(p: TrendPoint) { p.spend > 0.0 }

  predicate NoSpend(p: TrendPoint) { p.spend <= 0.0 }

  /** `Dias c/ gasto`: the number of points with spend. */
  function DaysWithSpend(trend: seq<TrendPoint>): (n: nat)
    ensures n <= |trend|
  {
    |Filter(trend, HasSpend)|
  }

  /** The days with spend and the days without add up to the whole series. */
  lemma DaysWithSpendComplement(trend: seq<TrendPoint>)
    ensures DaysWithSpend(trend) + Count(trend, NoSpend) == |trend|
  {
    FilterComplement(trend, HasSpend, NoSpend);
  }

  /** Every day has spend exactly when the count is the series length. */
  lemma DaysWithSpendAll(trend: seq<TrendPoint>)
    ensures DaysWithSpend(trend) == |trend| <==> forall i :: 0 <= i < |trend| ==> trend[i].spend > 0.0
  {
    DaysWithSpendComplement(trend);
    var rest := Filter(trend, NoSpend);
    if DaysWithSpend(trend) == |trend| {
      assert |rest| == 0;
      forall i | 0 <= i < |trend| ensures trend[i].spend > 0.0 {
        assert trend[i] !in rest;
      }
    } else {
      assert |rest| > 0;
      assert rest[0] in trend && NoSpend(rest[0]);
    }
  }

  /** `Pico de spend`, shown only when the series is non-empty: the largest spend. */
  function PeakSpend(trend: seq<TrendPoint>): (m: real)
    requires |trend| > 0
    ensures forall i :: 0 <= i < |trend| ==> trend[i].spend <= m
    ensures exists i :: 0 <= i < |trend| && trend[i].spend == m
    decreases |trend|
  {
    var last := trend[|trend| - 1];
    if |trend| == 1 then last.spend
    else
      var m := PeakSpend(trend[..|trend| - 1]);
      if last.spend > m then last.spend else m
  }

  /**
   * `Melhor CPL`: the smallest positive cost per result, or `None` (a dash)
   * when no day has one.
   */
  function BestCpl(trend: seq<TrendPoint>): (b: Option<real>)
    ensures b.None? <==> forall i :: 0 <= i < |trend| ==> trend[i].cpl <= 0.0
    ensures b.Some? ==> b.value > 0.0 && exists i :: 0 <= i < |trend| && trend[i].cpl == b.value
    ensures b.Some? ==> forall i :: 0 <= i < |trend| && trend[i].cpl > 0.0 ==> b.value <= trend[i].cpl
    decreases |trend|
  {
    if |trend| == 0 then None
    else
      var last := trend[|trend| - 1];
      var rest := BestCpl(trend[..|trend| - 1]);
      if last.cpl <= 0.0 then rest
      else if rest.Some? && rest.value <= last.cpl then rest
      else Some(last.cpl)
  }

  /**
   * The colour of the best-CPL card: the class of the best CPL capped at
   * twice the target, so a series without any CPL is coloured as twice the
   * target would be.
   */
  function BestCplClass(trend: seq<TrendPoint>, cplTarget: real): (c: CplClass)
    ensures BestCpl(trend).None? ==> c == GetCplClass(cplTarget * 2.0, cplTarget)
    ensures BestCpl(trend).Some? && BestCpl(trend).value <= cplTarget * 2.0 ==> c == GetCplClass(BestCpl(trend).value, cplTarget)
    ensures BestCpl(trend).Some? && BestCpl(trend).value > cplTarget * 2.0 ==> c == GetCplClass(cplTarget * 2.0, cplTarget)
    ensures cplTarget > 0.0 && (BestCpl(trend).None? || BestCpl(trend).value > cplTarget * 2.0) ==> c == CplBad
  {
    var best := BestCpl(trend);
    var capped := if best.Some? && best.value < cplTarget * 2.0 then best.value else cplTarget * 2.0;
    GetCplClass(capped, cplTarget)
  }

  /** A series with no CPL at or below the target never gets the good colour, and vice versa. */
  lemma BestCplClassGood(trend: seq<TrendPoint>, cplTarget: real)
    requires cplTarget > 0.0
    ensures BestCplClass(trend, cplTarget) == CplGood <==>
      exists i :: 0 <= i < |trend| && 0.0 < trend[i].cpl <= cplTarget
  {
    var best := BestCpl(trend);
    if best.Some? && best.value <= cplTarget {
      var i :| 0 <= i < |trend| && trend[i].cpl == best.value;
      assert 0.0 < trend[i].cpl <= cplTarget;
    }
  }

  /** A URL date read with `??`: an empty parameter is kept, only a missing one defaults. */
  function ModalDate(param: Option<string>, fallback: string): (d: string)
    ensures param.None? ==> d == fallback
    ensures param.Some? ==> d == param.value
  {
    param.GetOr(fallback)
  }
}

=== FILE: formatters.dfy ===
/**
 * Display classifiers of lib/formatters.ts: the cost-per-lead colour class
 * against a target, and which suffix `formatCompact` uses.
 */
module Formatters {

  /** `cpl-good`, `cpl-attention`, `cpl-bad` */
  datatype CplClass = CplGood | CplAttention | CplBad

  function ClassName(c: CplClass): string
  {
    match c
    case CplGood => "cpl-good"
    case CplAttention => "cpl-attention"
    case CplBad => "cpl-bad"
  }

  /** Severity order of the classes. */
  function Severity(c: CplClass): nat
  {
    match c
    case CplGood => 0
    case CplAttention => 1
    case CplBad => 2
  }

  /** `getCplClass`: at most the target is good, up to 1.5 times the target needs attention, above is bad. */
  function GetCplClass(cpl: real, target: real): (c: CplClass)
    ensures c == CplGood <==> cpl <= target
    ensures c == CplAttention <==> target < cpl <= target * 1.5
    ensures c == CplBad <==> cpl > target && cpl > target * 1.5
  {
    if cpl <= target then CplGood
    else if cpl <= target * 1.5 then CplAttention
    else CplBad
  }

  /** A zero cost (no results) always counts as good against a non-negative target. */
  lemma ZeroCplIsGood(target: real)
    requires target >= 0.0
    ensures GetCplClass(0.0, target) == CplGood
  {
  }

  /** For a fixed non-negative target, a higher cost never gets a milder class. */
  lemma GetCplClassMonotone(a: real, b: real, target: real)
    requires target >= 0.0 && a <= b
    ensures Severity(GetCplClass(a, target)) <= Severity(GetCplClass(b, target))
  {
  }

  /** The unit `formatCompact` writes after the number. */
  datatype CompactUnit = Millions | Thousands | NoUnit

  /** The branch of `formatCompact` and the number it renders before the suffix. */
  function CompactBranch(value: real): (r: (CompactUnit, real))
    ensures r.0 == Millions <==> value >= 1000000.0
    ensures r.0 == Thousands <==> 1000.0 <= value < 1000000.0
    ensures r.0 == NoUnit <==> value < 1000.0
    ensures r.1 * (match r.0 case Millions => 1000000.0 case Thousands => 1000.0 case NoUnit => 1.0) == value
  {
    if value >= 1000000.0 then (Millions, value / 1000000.0)
    else if value >= 1000.0 then (Thousands, value / 1000.0)
    else (NoUnit, value)
  }
}

=== FILE: grouping.dfy ===
/**
 * The "accumulate rows into a `Map` keyed by some field" pattern the
 * dashboard uses throughout: a JavaScript `Map` iterates its keys in the
 * order they were first inserted, and each key collects the rows carrying
 * it in input order.
 */
module Grouping {
  import opened Common

  datatype Group<K, R> = Group(key: K, members: seq<R>)

  /** The keys of `gs`, in order. */
  function Keys<K, R>(gs: seq<Group<K, R>>): (r: seq<K>)
    ensures |r| == |gs|
    ensures forall i :: 0 <= i < |gs| ==> r[i] == gs[i].key
  {
    seq(|gs|, i requires 0 <= i < |gs| => gs[i].key)
  }

  /** The position of the first group with key `k`, or `|gs|` when there is none. */
  function KeyIndex<K(==), R>(gs: seq<Group<K, R>>, k: K): (n: nat)
    ensures n <= |gs|
    ensures n < |gs| ==> gs[n].key == k
    ensures forall i :: 0 <= i < n ==> gs[i].key != k
    decreases |gs|
  {
    if |gs| == 0 then 0
    else if gs[0].key == k then 0
    else KeyIndex(gs[1..], k) + 1
  }

  /**
   * `map.has(k) ? map.get(k).push(r) : map.set(k, [r])`: the first group
   * with key `k` gains `r` at its end; without one, a new group `[r]` is
   * appended. Every other group stays as it was, in place.
   */
  function AddRow<K(==), R>(gs: seq<Group<K, R>>, k: K, r: R): (a: seq<Group<K, R>>)
    ensures |a| == if KeyIndex(gs, k) < |gs| then |gs| else |gs| + 1
    ensures forall i :: 0 <= i < |gs| && i != KeyIndex(gs, k) ==> a[i] == gs[i]
    ensures KeyIndex(gs, k) < |gs| ==> a[KeyIndex(gs, k)] == Group(k, gs[KeyIndex(gs, k)].members + [r])
    ensures KeyIndex(gs, k) == |gs| ==> a[|gs|] == Group(k, [r])
    decreases |gs|
  {
    if |gs| == 0 then [Group(k, [r])]
    else if gs[0].key == k then [Group(k, gs[0].members + [r])] + gs[1..]
    else [gs[0]] + AddRow(gs[1..], k, r)
  }

  /** Feed every row, first to last, into an initially empty `Map`. */
  function GroupBy<K(==), R>(rows: seq<R>, key: R -> K): seq<Group<K, R>>
    decreases |rows|
  {
    if |rows| == 0 then []
    else AddRow(GroupBy(rows[..|rows| - 1], key), key(rows[|rows| - 1]), rows[|rows| - 1])
  }

  /** Reference definition of the key order: each key once, at its first occurrence. */
  function Dedup<K(==)>(s: seq<K>): seq<K>
    decreases |s|
  {
    if |s| == 0 then []
    else
      var d := Dedup(s[..|s| - 1]);
      if s[|s| - 1] in d then d else d + [s[|s| - 1]]
  }

  /** The rows carrying key `k`. */
  function HasKey<K(==), R>(key: R -> K, k: K): R -> bool
  {
    r => key(r) == k
  }

  /** Removing repeats never lengthens a sequence. */
  lemma {:induction false} DedupLength<K>(s: seq<K>)
    ensures |Dedup(s)| <= |s|
    decreases |s|
  {
    if |s| > 0 {
      DedupLength(s[..|s| - 1]);
    }
  }

  /** Distinct elements. */
  predicate NoDuplicates<K(==)>(s: seq<K>)
  {
    forall i, j :: 0 <= i < j < |s| ==> s[i] != s[j]
  }

  lemma {:induction false} DedupProperties<K>(s: seq<K>)
    ensures NoDuplicates(Dedup(s))
    ensures forall x :: x in s <==> x in Dedup(s)
    decreases |s|
  {
    if |s| > 0 {
      var n := |s| - 1;
      var init, x := s[..n], s[n];
      var d := Dedup(init);
      DedupProperties(init);
      assert s == init + [x];
      if x !in d {
        var e := d + [x];
        assert Dedup(s) == e;
        forall i, j | 0 <= i < j < |e| ensures e[i] != e[j] {
          if j == |d| {
            assert e[i] == d[i];
          } else {
            assert e[i] == d[i] && e[j] == d[j];
          }
        }
      }
    }
  }

  /** Adding a row keeps every group in place and either extends the group of its key or appends a new one. */
  lemma {:induction false} AddRowShape<K, R>(gs: seq<Group<K, R>>, k: K, r: R)
    requires NoDuplicates(Keys(gs))
    ensures var a := AddRow(gs, k, r);
      && Keys(a) == (if k in Keys(gs) then Keys(gs) else Keys(gs) + [k])
      && (forall i :: 0 <= i < |gs| ==> a[i].members == (if gs[i].key == k then gs[i].members + [r] else gs[i].members))
      && (k !in Keys(gs) ==> a[|gs|].members == [r])
  {
    var a := AddRow(gs, k, r);
    var n := KeyIndex(gs, k);
    forall i | 0 <= i < |gs| ensures i == n <==> gs[i].key == k {
      assert Keys(gs)[i] == gs[i].key;
      if n < |gs| {
        assert Keys(gs)[n] == k;
      }
    }
    if n < |gs| {
      assert Keys(gs)[n] == k;
      assert Keys(a) == Keys(gs);
    } else {
      assert k !in Keys(gs);
      assert Keys(a) == Keys(gs) + [k];
    }
  }

  /** Filtering distinct elements keeps them distinct. */
  lemma {:induction false} FilterNoDuplicates<T(!new)>(s: seq<T>, p: T -> bool)
    requires NoDuplicates(s)
    ensures NoDuplicates(Filter(s, p))
    decreases |s|
  {
    if |s| > 0 {
      var init := s[..|s| - 1];
      FilterNoDuplicates(init, p);
      assert s[|s| - 1] !in init;
    }
  }

  /** A filter no element passes is empty. */
  lemma {:induction false} FilterNone<T(!new)>(s: seq<T>, p: T -> bool)
    requires forall i :: 0 <= i < |s| ==> !p(s[i])
    ensures Filter(s, p) == []
    decreases |s|
  {
    if |s| > 0 {
      FilterNone(s[..|s| - 1], p);
    }
  }

  /**
   * The groups appear in first-occurrence order of their keys, each key
   * once, and each group holds exactly the rows with its key, in input
   * order.
   */
  lemma GroupByCorrect<K, R(!new)>(rows: seq<R>, key: R -> K)
    ensures Keys(GroupBy(rows, key)) == Dedup(Map(rows, key))
    ensures NoDuplicates(Keys(GroupBy(rows, key)))
    ensures forall i :: 0 <= i < |GroupBy(rows, key)| ==>
      GroupBy(rows, key)[i].members == Filter(rows, HasKey(key, GroupBy(rows, key)[i].key))
  {
    GroupByKeys(rows, key);
    GroupByMembers(rows, key);
  }

  /** The group keys are the distinct row keys in first-occurrence order. */
  lemma {:induction false} GroupByKeys<K, R>(rows: seq<R>, key: R -> K)
    ensures Keys(GroupBy(rows, key)) == Dedup(Map(rows, key))
    ensures NoDuplicates(Keys(GroupBy(rows, key)))
    decreases |rows|
  {
    DedupProperties(Map(rows, key));
    if |rows| > 0 {
      var n := |rows| - 1;
      var init, last := rows[..n], rows[n];
      var prev := GroupBy(init, key);
      GroupByKeys(init, key);
      var m := Map(rows, key);
      assert m[..n] == Map(init, key);
      assert m[n] == key(last);
      AddRowShape(prev, key(last), last);
    }
  }

  /** Each group holds exactly the rows carrying its key, in input order. */
  lemma {:induction false} GroupByMembers<K, R(!new)>(rows: seq<R>, key: R -> K)
    ensures forall i :: 0 <= i < |GroupBy(rows, key)| ==>
      GroupBy(rows, key)[i].members == Filter(rows, HasKey(key, GroupBy(rows, key)[i].key))
    decreases |rows|
  {
    if |rows| > 0 {
      var n := |rows| - 1;
      var init, last := rows[..n], rows[n];
      GroupByMembers(init, key);
      GroupByKeys(init, key);
      assert rows == init + [last];
      forall i | 0 <= i < |GroupBy(rows, key)|
        ensures GroupBy(rows, key)[i].members == Filter(rows, HasKey(key, GroupBy(rows, key)[i].key))
      {
        GroupStep(init, last, key, i);
      }
    }
  }

  /** With distinct keys, the first group with key `k` is the only one. */
  lemma KeyIndexUnique<K, R>(gs: seq<Group<K, R>>, k: K, i: nat)
    requires NoDuplicates(Keys(gs)) && i < |gs|
    ensures gs[i].key == k <==> i == KeyIndex(gs, k)
  {
    var n := KeyIndex(gs, k);
    assert Keys(gs)[i] == gs[i].key;
    if n < |gs| {
      assert Keys(gs)[n] == k;
    }
  }

  /** One row more: group `i` of the extended input holds the rows carrying its key. */
  lemma GroupStep<K, R(!new)>(init: seq<R>, last: R, key: R -> K, i: nat)
    requires forall j :: 0 <= j < |GroupBy(init, key)| ==>
      GroupBy(init, key)[j].members == Filter(init, HasKey(key, GroupBy(init, key)[j].key))
    requires NoDuplicates(Keys(GroupBy(init, key)))
    requires i < |GroupBy(init + [last], key)|
    ensures GroupBy(init + [last], key)[i].members == Filter(init + [last], HasKey(key, GroupBy(init + [last], key)[i].key))
  {
    var rows := init + [last];
    assert rows[..|rows| - 1] == init;
    var prev, k := GroupBy(init, key), key(last);
    var a := GroupBy(rows, key);
    assert a == AddRow(prev, k, last);
    var p := HasKey(key, a[i].key);
    FilterSnoc(init, last, p);
    if i < |prev| {
      KeyIndexUnique(prev, k, i);
      assert a[i].key == prev[i].key;
    } else {
      assert a[i] == Group(k, [last]);
      NewKeyHasNoRows(init, key, k);
      FilterNone(init, p);
    }
  }

  /** A key missing from the groups of `rows` is carried by none of them. */
  lemma NewKeyHasNoRows<K, R>(rows: seq<R>, key: R -> K, k: K)
    requires k !in Keys(GroupBy(rows, key))
    ensures forall j :: 0 <= j < |rows| ==> !HasKey(key, k)(rows[j])
  {
    GroupByKeys(rows, key);
    DedupProperties(Map(rows, key));
    forall j | 0 <= j < |rows| ensures key(rows[j]) != k {
      assert Map(rows, key)[j] == key(rows[j]);
    }
  }

  /** Sum of `f` over the members of every group. */
  function GroupTotal<K, R>(gs: seq<Group<K, R>>, f: R -> real): real
    decreases |gs|
  {
    if |gs| == 0 then 0.0 else Sum(gs[0].members, f) + GroupTotal(gs[1..], f)
  }

  lemma {:induction false} AddRowTotal<K, R>(gs: seq<Group<K, R>>, k: K, r: R, f: R -> real)
    ensures GroupTotal(AddRow(gs, k, r), f) == GroupTotal(gs, f) + f(r)
    decreases |gs|
  {
    if |gs| == 0 {
      assert [r][..0] == [];
      assert Sum([r], f) == f(r);
      assert [Group(k, [r])][1..] == [];
      assert GroupTotal([Group(k, [r])], f) == Sum([r], f) + GroupTotal(gs, f);
    } else if gs[0].key == k {
      var m := gs[0].members;
      assert (m + [r])[..|m|] == m;
      assert (AddRow(gs, k, r))[1..] == gs[1..];
    } else {
      AddRowTotal(gs[1..], k, r, f);
      assert AddRow(gs, k, r)[1..] == AddRow(gs[1..], k, r);
    }
  }

  /** Grouping neither loses nor duplicates a row: per-group totals add up to the overall total. */
  lemma {:induction false} GroupByTotal<K, R>(rows: seq<R>, key: R -> K, f: R -> real)
    ensures GroupTotal(GroupBy(rows, key), f) == Sum(rows, f)
    decreases |rows|
  {
    if |rows| > 0 {
      var n := |rows| - 1;
      GroupByTotal(rows[..n], key, f);
      AddRowTotal(GroupBy(rows[..n], key), key(rows[n]), rows[n], f);
    }
  }

  /** Every group holds at least one row, and only rows of the input. */
  lemma GroupByMembersFromRows<K, R(!new)>(rows: seq<R>, key: R -> K)
    ensures forall i :: 0 <= i < |GroupBy(rows, key)| ==> |GroupBy(rows, key)[i].members| > 0
    ensures forall i, j :: 0 <= i < |GroupBy(rows, key)| && 0 <= j < |GroupBy(rows, key)[i].members| ==>
      GroupBy(rows, key)[i].members[j] in rows
  {
    GroupsNonEmpty(rows, key);
    GroupMembersInRows(rows, key);
  }

  lemma {:induction false} GroupsNonEmpty<K, R>(rows: seq<R>, key: R -> K)
    ensures forall i :: 0 <= i < |GroupBy(rows, key)| ==> |GroupBy(rows, key)[i].members| > 0
    decreases |rows|
  {
    if |rows| > 0 {
      var n := |rows| - 1;
      var prev := GroupBy(rows[..n], key);
      GroupsNonEmpty(rows[..n], key);
      var g := AddRow(prev, key(rows[n]), rows[n]);
      assert g == GroupBy(rows, key);
      forall i | 0 <= i < |g| ensures |g[i].members| > 0 {
        if i < |prev| && i != KeyIndex(prev, key(rows[n])) {
          assert g[i] == prev[i];
        }
      }
    }
  }

  lemma {:induction false} GroupMembersInRows<K, R(!new)>(rows: seq<R>, key: R -> K)
    ensures forall i, j :: 0 <= i < |GroupBy(rows, key)| && 0 <= j < |GroupBy(rows, key)[i].members| ==>
      GroupBy(rows, key)[i].members[j] in rows
  {
    var g := GroupBy(rows, key);
    GroupByMembers(rows, key);
    forall i, j | 0 <= i < |g| && 0 <= j < |g[i].members| ensures g[i].members[j] in rows {
      assert g[i].members[j] in Filter(rows, HasKey(key, g[i].key));
    }
  }
}

=== FILE: item_daily_trend.dfy ===
/**
 * The `getItemDailyTrend` server action (app/actions/getItemDailyTrend.ts):
 * the daily series of one diagnostic item. Campaigns read the cached
 * campaign trend; ads call the insights endpoint directly, and any failure
 * of that call yields an empty series.
 */
module ItemDailyTrend {
  import opened Common
  import opened MetaActions
  import opened MetaRows
  import Diagnostico

  function InTypes(types: seq<string>): Action -> bool
  {
    (a: Action) => a.actionType in types
  }

  function ActionValue(a: Action): int { a.value }

  /** This file's own `sumActions`: filter by type, then add up the values. */
  function LocalSumActions(actions: seq<Action>, types: seq<string>): int
  {
    SumInt(Filter(actions, InTypes(types)), ActionValue)
  }

  /** The filter-then-reduce `sumActions` agrees with the fused one of lib/meta-api.ts. */
  lemma {:induction false} LocalSumActionsAgrees(actions: seq<Action>, types: seq<string>)
    ensures LocalSumActions(actions, types) == SumActions(actions, types)
    decreases |actions|
  {
    if |actions| > 0 {
      var init := actions[..|actions| - 1];
      LocalSumActionsAgrees(init, types);
      var f := Filter(init, InTypes(types));
      if InTypes(types)(actions[|actions| - 1]) {
        assert (f + [actions[|actions| - 1]])[..|f|] == f;
      }
    }
  }

  /** One day of the ad insights response; an absent `spend` or `actions` is `None`. */
  datatype AdDayRow = AdDayRow(dateStart: string, spend: Option<real>, actions: Option<seq<Action>>)

  /** The outcome of the ad insights request. */
  datatype AdResponse =
    | TransportFailure
    | ErrorBody(message: Option<string>)
    | DataBody(rows: Option<seq<AdDayRow>>)

  /** The `rows.map(row => …)` step, with this file's counters. */
  function AdPoint(row: AdDayRow): (p: TrendPoint)
    ensures p.date == row.dateStart
    ensures row.spend.None? ==> p.spend == 0.0
    ensures row.spend.Some? ==> p.spend == row.spend.value
    ensures p.results == 0 ==> p.cpl == 0.0
  {
    var actions := row.actions.GetOr([]);
    var leads := LocalSumActions(actions, LeadTypes);
    var messages := LocalSumActions(actions, MessageTypes);
    var purchases := LocalSumActions(actions, PurchaseTypes);
    var results := if leads != 0 then leads else if messages != 0 then messages else purchases;
    var spend := row.spend.GetOr(0.0);
    TrendPoint(row.dateStart, spend, results, if results > 0 then spend / results as real else 0.0)
  }

  /** An ad's daily point is exactly the shared daily mapping of lib/meta-api.ts applied to the defaulted row. */
  lemma AdPointAgrees(row: AdDayRow)
    ensures AdPoint(row) == ToTrendPoint(DailyInput(row.dateStart, row.spend.GetOr(0.0), row.actions.GetOr([])))
  {
    var actions := row.actions.GetOr([]);
    LocalSumActionsAgrees(actions, LeadTypes);
    LocalSumActionsAgrees(actions, MessageTypes);
    LocalSumActionsAgrees(actions, PurchaseTypes);
  }

  /**
   * `getItemDailyTrend` with the cached campaign trend and the ad
   * response given: campaigns copy their four fields; an ad's series is one
   * point per returned day, and empty on any error.
   */
  function ItemDailyTrend(level: Diagnostico.Level, campaignTrend: seq<TrendPoint>, adResponse: AdResponse)
    : (r: seq<TrendPoint>)
    ensures level == Diagnostico.CampaignLevel ==> r == campaignTrend
    ensures level == Diagnostico.AdLevel && !adResponse.DataBody? ==> r == []
    ensures level == Diagnostico.AdLevel && adResponse.DataBody? ==>
      && |r| == |adResponse.rows.GetOr([])|
      && forall i :: 0 <= i < |r| ==> r[i] == AdPoint(adResponse.rows.GetOr([])[i])
  {
    match level
    case CampaignLevel =>
      Map(campaignTrend, (p: TrendPoint) => TrendPoint(p.date, p.spend, p.results, p.cpl))
    case AdLevel =>
      match adResponse
      case TransportFailure => []
      case ErrorBody(_) => []
      case DataBody(rows) => Map(rows.GetOr([]), AdPoint)
  }

  /** At the ad level the series is the shared daily trend of the defaulted rows. */
  lemma AdTrendIsDailyTrend(rows: seq<AdDayRow>)
    ensures ItemDailyTrend(Diagnostico.AdLevel, [], DataBody(Some(rows)))
      == DailyTrend(Map(rows, (row: AdDayRow) => DailyInput(row.dateStart, row.spend.GetOr(0.0), row.actions.GetOr([]))))
  {
    forall i | 0 <= i < |rows| {
      AdPointAgrees(rows[i]);
    }
  }
}

=== FILE: meta_actions.dfy ===
/**
 * Reading result counts out of the Meta Marketing API's `actions` arrays
 * (lib/meta-api.ts): typed counters are summed, the primary result is
 * chosen by lead -> message -> purchase priority, and cost per result is a
 * division that never divides by zero.
 */
module MetaActions {
  import opened Common
  import opened Text

  /** One `{ action_type, value }` entry; `parseInt(value || '0')` is taken as already parsed. */
  datatype Action = Action(actionType: string, value: int)

  /** One `{ action_type, value }` entry of `cost_per_action_type`, parsed with `parseFloat`. */
  datatype CostAction = CostAction(actionType: string, value: real)

  const LeadTypes: seq<string> := ["lead", "onsite_conversion.lead_grouped"]
  const MessageTypes: seq<string> := ["onsite_conversion.messaging_conversation_started_7d"]
  const PurchaseTypes: seq<string> := ["purchase", "omni_purchase"]

  /** The contribution of one action to `sumActions(actions, types)`. */
  function Counted(types: seq<string>): Action -> int
  {
    (a: Action) => if a.actionType in types then a.value else 0
  }

  /**
   * `actions.filter(a => types.includes(a.action_type)).reduce((s, a) => s + value, 0)`,
   * folded left to right.
   */
  function SumActions(actions: seq<Action>, types: seq<string>): (r: int)
    ensures (forall i :: 0 <= i < |actions| ==> actions[i].actionType !in types) ==> r == 0
    ensures (forall i :: 0 <= i < |actions| ==> actions[i].value >= 0) ==> r >= 0
    decreases |actions|
  {
    if |actions| == 0 then 0
    else
      var init := SumActions(actions[..|actions| - 1], types);
      var last := actions[|actions| - 1];
      if last.actionType in types then init + last.value else init
  }

  /** `sumActions` is the integer sum of each action's contribution. */
  lemma {:induction false} SumActionsIsSum(actions: seq<Action>, types: seq<string>)
    ensures SumActions(actions, types) == SumInt(actions, Counted(types))
    decreases |actions|
  {
    if |actions| > 0 {
      SumActionsIsSum(actions[..|actions| - 1], types);
    }
  }

  /** The order in which the API lists the actions does not change the sum. */
  lemma SumActionsPermutation(a: seq<Action>, b: seq<Action>, types: seq<string>)
    requires multiset(a) == multiset(b)
    ensures SumActions(a, types) == SumActions(b, types)
  {
    SumActionsIsSum(a, types);
    SumActionsIsSum(b, types);
    SumIntPermutation(a, b, Counted(types));
  }

  /** The three counters every insight row is reduced to. */
  datatype ResultCounts = ResultCounts(leads: int, messages: int, purchases: int)

  function CountResults(actions: seq<Action>): (c: ResultCounts)
    ensures c.leads == SumActions(actions, LeadTypes)
    ensures c.messages == SumActions(actions, MessageTypes)
    ensures c.purchases == SumActions(actions, PurchaseTypes)
  {
    ResultCounts(SumActions(actions, LeadTypes), SumActions(actions, MessageTypes), SumActions(actions, PurchaseTypes))
  }

  /** `leads || messages || purchases`: the first counter that is not 0. */
  function PrimaryResults(c: ResultCounts): (r: int)
    ensures r == c.leads || r == c.messages || r == c.purchases
    ensures r == 0 <==> c.leads == 0 && c.messages == 0 && c.purchases == 0
    ensures c.leads != 0 ==> r == c.leads
    ensures c.leads == 0 && c.messages != 0 ==> r == c.messages
  {
    if c.leads != 0 then c.leads else if c.messages != 0 then c.messages else c.purchases
  }

  /** `results > 0 ? spend / results : 0` */
  function CostPerResult(spend: real, results: int): (r: real)
    ensures results > 0 ==> r * results as real == spend
    ensures results <= 0 ==> r == 0.0
    ensures spend >= 0.0 ==> r >= 0.0
  {
    if results > 0 then spend / results as real else 0.0
  }

  /** `id.startsWith('act_') ? id : `act_${id}`` */
  function NormalizeAccountId(id: string): (r: string)
    ensures StartsWith(r, "act_")
    ensures StartsWith(id, "act_") ==> r == id
    ensures !StartsWith(id, "act_") ==> r == "act_" + id
  {
    if StartsWith(id, "act_") then id else "act_" + id
  }

  /** Normalising an already normalised id changes nothing. */
  lemma NormalizeAccountIdIdempotent(id: string)
    ensures NormalizeAccountId(NormalizeAccountId(id)) == NormalizeAccountId(id)
  {
  }

  predicate IsLeadType(t: string)
  {
    t == "lead" || t == "onsite_conversion.lead_grouped"
  }

  /** `actions[i]` is the first lead-typed action. */
  predicate FirstLeadAt(actions: seq<Action>, i: int)
  {
    0 <= i < |actions| && IsLeadType(actions[i].actionType) &&
    forall j :: 0 <= j < i ==> !IsLeadType(actions[j].actionType)
  }

  /** `costs[i]` is the first lead-typed cost entry. */
  predicate FirstLeadCostAt(costs: seq<CostAction>, i: int)
  {
    0 <= i < |costs| && IsLeadType(costs[i].actionType) &&
    forall j :: 0 <= j < i ==> !IsLeadType(costs[j].actionType)
  }

  /** Index of the first action satisfying `p`, or `|s|` when there is none (`Array.prototype.find`). */
  function FindFirst<T>(s: seq<T>, p: T -> bool): (i: nat)
    ensures i <= |s|
    ensures i < |s| ==> p(s[i])
    ensures forall j :: 0 <= j < i ==> !p(s[j])
    decreases |s|
  {
    if |s| == 0 then 0
    else if p(s[0]) then 0
    else 1 + FindFirst(s[1..], p)
  }

  /** `extractLeads`: the value of the first lead-typed action, or 0. */
  function ExtractLeads(actions: Option<seq<Action>>): (r: int)
    ensures actions.None? ==> r == 0
    ensures actions.Some? && (forall i :: 0 <= i < |actions.value| ==> !IsLeadType(actions.value[i].actionType)) ==> r == 0
    ensures actions.Some? ==> forall i :: FirstLeadAt(actions.value, i) ==> r == actions.value[i].value
  {
    match actions
    case None => 0
    case Some(a) =>
      var i := FindFirst(a, (x: Action) => IsLeadType(x.actionType));
      if i < |a| then a[i].value else 0
  }

  /** `extractCostPerLead`: the value of the first lead-typed cost entry, or 0. */
  function ExtractCostPerLead(costs: Option<seq<CostAction>>): (r: real)
    ensures costs.None? ==> r == 0.0
    ensures costs.Some? && (forall i :: 0 <= i < |costs.value| ==> !IsLeadType(costs.value[i].actionType)) ==> r == 0.0
    ensures costs.Some? ==> forall i :: FirstLeadCostAt(costs.value, i) ==> r == costs.value[i].value
  {
    match costs
    case None => 0.0
    case Some(c) =>
      var i := FindFirst(c, (x: CostAction) => IsLeadType(x.actionType));
      if i < |c| then c[i].value else 0.0
  }

  /**
   * When at most one lead action is present, `extractLeads` and the lead
   * counter of `sumActions` agree; with several, `extractLeads` sees only
   * the first.
   */
  lemma {:induction false} ExtractLeadsAgreesWithSum(actions: seq<Action>)
    requires forall i, j :: 0 <= i < j < |actions| && IsLeadType(actions[i].actionType) ==> !IsLeadType(actions[j].actionType)
    ensures ExtractLeads(Some(actions)) == SumActions(actions, LeadTypes)
    decreases |actions|
  {
    if |actions| > 0 {
      var n := |actions| - 1;
      var init := actions[..n];
      ExtractLeadsAgreesWithSum(init);
      var p := (x: Action) => IsLeadType(x.actionType);
      var k := FindFirst(init, p);
      var m := FindFirst(actions, p);
      assert forall t :: t in LeadTypes <==> IsLeadType(t);
      if k < n {
        assert m == k;
        assert !IsLeadType(actions[n].actionType);
      } else {
        assert forall j :: 0 <= j < n ==> !p(actions[j]);
        if IsLeadType(actions[n].actionType) {
          assert m == n;
        } else {
          assert m == |actions|;
        }
      }
    }
  }
}

=== FILE: meta_breakdown.dfy ===
/**
 * Breakdown insights (lib/meta-api.ts `fetchBreakdownInsights`): each row of
 * a placement / device / age / gender breakdown gets a display label, rows
 * without spend are dropped, rows sharing a label are merged, and the
 * result is ranked by spend.
 */
module MetaBreakdown {
  import opened Common
  import opened Sorting
  import opened Grouping
  import opened MetaActions

  /** `PLACEMENT_LABEL`: platform -> position -> label, each platform with a `default`. */
  const PlacementTable: map<string, map<string, string>> := map[
    "facebook" := map[
      "feed" := "Facebook Feed",
      "right_hand_column" := "Coluna Direita",
      "marketplace" := "Marketplace",
      "video_feeds" := "Facebook Vídeo",
      "groups_feed" := "Grupos",
      "story" := "Facebook Stories",
      "search" := "Pesquisa",
      "instream_video" := "In-stream Vídeo",
      "suggested_video" := "Vídeo Sugerido",
      "instant_article" := "Instant Article",
      "default" := "Facebook"],
    "instagram" := map[
      "stream" := "Instagram Feed",
      "story" := "Instagram Stories",
      "reels" := "Instagram Reels",
      "explore" := "Explore",
      "explore_home" := "Explore Home",
      "profile_feed" := "Perfil Instagram",
      "default" := "Instagram"],
    "audience_network" := map["default" := "Audience Network"],
    "messenger" := map["default" := "Messenger"]]

  /** `DEVICE_LABEL` */
  const DeviceTable: map<string, string> := map[
    "mobile_app" := "Mobile App",
    "desktop" := "Desktop",
    "iphone" := "iPhone",
    "ipad" := "iPad",
    "android_smartphone" := "Android",
    "android_tablet" := "Tablet Android",
    "connected_tv" := "Smart TV"]

  /** `placementLabel`: `p[position] ?? p.default ?? "platform / position"`. */
  function PlacementLabel(platform: string, position: string): (r: string)
    ensures platform in PlacementTable && position in PlacementTable[platform] ==>
      r == PlacementTable[platform][position]
    ensures platform in PlacementTable && position !in PlacementTable[platform] ==>
      r == PlacementTable[platform]["default"]
    ensures platform !in PlacementTable ==> r == platform + " / " + position
  {
    if platform !in PlacementTable then platform + " / " + position
    else
      var p := PlacementTable[platform];
      if position in p then p[position]
      else if "default" in p then p["default"]
      else platform + " / " + position
  }

  /** The same position is told apart by platform: `story` is two different labels. */
  lemma PlacementLabelByPlatform()
    ensures PlacementLabel("facebook", "story") == "Facebook Stories"
    ensures PlacementLabel("instagram", "story") == "Instagram Stories"
    ensures PlacementLabel("messenger", "story") == "Messenger"
    ensures PlacementLabel("threads", "feed") == "threads / feed"
  {
  }

  /** `DEVICE_LABEL[d] ?? d` with `d = impression_device ?? 'unknown'`. */
  function DeviceLabel(device: Option<string>): (r: string)
    ensures device.None? ==> r == "unknown"
    ensures device.Some? && device.value in DeviceTable ==> r == DeviceTable[device.value]
    ensures device.Some? && device.value !in DeviceTable ==> r == device.value
  {
    var d := device.GetOr("unknown");
    if d in DeviceTable then DeviceTable[d] else d
  }

  /** `age ?? 'Unknown'` */
  function AgeLabel(age: Option<string>): (r: string)
    ensures age.Some? ==> r == age.value
    ensures age.None? ==> r == "Unknown"
  {
    age.GetOr("Unknown")
  }

  /** `male` / `female` / anything else, including a missing gender. */
  function GenderLabel(gender: Option<string>): (r: string)
    ensures r == "Masculino" <==> gender == Some("male")
    ensures r == "Feminino" <==> gender == Some("female")
    ensures r == "Desconhecido" <==> gender != Some("male") && gender != Some("female")
  {
    var g := gender.GetOr("unknown");
    if g == "male" then "Masculino" else if g == "female" then "Feminino" else "Desconhecido"
  }

  datatype Dimension = Placement | Device | Age | Gender

  /** One row of the breakdown response; absent string fields are `None`. */
  datatype BreakdownInput = BreakdownInput(
    publisherPlatform: Option<string>,
    platformPosition: Option<string>,
    impressionDevice: Option<string>,
    age: Option<string>,
    gender: Option<string>,
    spend: real,
    actions: seq<Action>)

  /** `BreakdownRow` */
  datatype BreakdownRow = BreakdownRow(name: string, spend: real, results: int, cpl: real)

  function Label(dim: Dimension, row: BreakdownInput): string
  {
    match dim
    case Placement => PlacementLabel(row.publisherPlatform.GetOr(""), row.platformPosition.GetOr(""))
    case Device => DeviceLabel(row.impressionDevice)
    case Age => AgeLabel(row.age)
    case Gender => GenderLabel(row.gender)
  }

  /** The `.map(row => …)` step: label, spend, primary results and their cost. */
  function ToBreakdownRow(dim: Dimension, row: BreakdownInput): (r: BreakdownRow)
    ensures r.name == Label(dim, row) && r.spend == row.spend
    ensures r.results == PrimaryResults(CountResults(row.actions))
    ensures r.cpl == CostPerResult(r.spend, r.results)
  {
    var results := PrimaryResults(CountResults(row.actions));
    BreakdownRow(Label(dim, row), row.spend, results, CostPerResult(row.spend, results))
  }

  function RowLabel(r: BreakdownRow): string { r.name }
  function RowSpend(r: BreakdownRow): real { r.spend }
  function RowResults(r: BreakdownRow): int { r.results }

  /** One merged row for a label group, with cpl recomputed from the sums. */
  function Merge(g: Group<string, BreakdownRow>): (r: BreakdownRow)
    ensures r.name == g.key
    ensures r.spend == Sum(g.members, RowSpend) && r.results == SumInt(g.members, RowResults)
    ensures r.cpl == CostPerResult(r.spend, r.results)
  {
    var spend := Sum(g.members, RowSpend);
    var results := SumInt(g.members, RowResults);
    BreakdownRow(g.key, spend, results, CostPerResult(spend, results))
  }

  /** `groupBreakdownByLabel`: a `Map` from label to running sums, read back in insertion order. */
  function GroupBreakdownByLabel(rows: seq<BreakdownRow>): (r: seq<BreakdownRow>)
    ensures |r| <= |rows|
    ensures forall i :: 0 <= i < |r| ==> r[i].cpl == CostPerResult(r[i].spend, r[i].results)
  {
    var gs := GroupBy(rows, RowLabel);
    GroupByKeys(rows, RowLabel);
    DedupLength(Map(rows, RowLabel));
    Map(gs, Merge)
  }

  /** Reading the merged rows' spend back in order gives the per-group totals. */
  lemma {:induction false} MergedSpend(gs: seq<Group<string, BreakdownRow>>)
    ensures Sum(Map(gs, Merge), RowSpend) == GroupTotal(gs, RowSpend)
    decreases |gs|
  {
    if |gs| > 0 {
      MergedSpend(gs[1..]);
      var head, tail := [Merge(gs[0])], Map(gs[1..], Merge);
      assert Map(gs, Merge) == head + tail;
      SumConcat(head, tail, RowSpend);
      assert Sum(head, RowSpend) == Merge(gs[0]).spend by {
        assert head[..0] == [];
      }
    }
  }

  /**
   * Labels come out once each, in first-occurrence order; each merged row
   * carries the spend and results of exactly the input rows with its label;
   * and the total spend is unchanged.
   */
  lemma GroupBreakdownByLabelCorrect(rows: seq<BreakdownRow>)
    ensures var r := GroupBreakdownByLabel(rows);
      && Map(r, RowLabel) == Dedup(Map(rows, RowLabel))
      && (forall i :: 0 <= i < |r| ==>
            r[i].spend == Sum(Filter(rows, HasKey(RowLabel, r[i].name)), RowSpend)
            && r[i].results == SumInt(Filter(rows, HasKey(RowLabel, r[i].name)), RowResults))
      && Sum(r, RowSpend) == Sum(rows, RowSpend)
  {
    MergedLabels(rows);
    MergedSums(rows);
    MergedTotal(rows);
  }

  /** The merged labels are the distinct input labels in first-occurrence order. */
  lemma MergedLabels(rows: seq<BreakdownRow>)
    ensures Map(GroupBreakdownByLabel(rows), RowLabel) == Dedup(Map(rows, RowLabel))
  {
    var gs := GroupBy(rows, RowLabel);
    GroupByKeys(rows, RowLabel);
    assert Map(GroupBreakdownByLabel(rows), RowLabel) == Keys(gs);
  }

  /** Each merged row sums exactly the input rows with its label. */
  lemma MergedSums(rows: seq<BreakdownRow>)
    ensures var r := GroupBreakdownByLabel(rows);
      forall i :: 0 <= i < |r| ==>
        r[i].spend == Sum(Filter(rows, HasKey(RowLabel, r[i].name)), RowSpend)
        && r[i].results == SumInt(Filter(rows, HasKey(RowLabel, r[i].name)), RowResults)
  {
    var gs := GroupBy(rows, RowLabel);
    var r := GroupBreakdownByLabel(rows);
    GroupByMembers(rows, RowLabel);
    forall i | 0 <= i < |r|
      ensures r[i].spend == Sum(Filter(rows, HasKey(RowLabel, r[i].name)), RowSpend)
      ensures r[i].results == SumInt(Filter(rows, HasKey(RowLabel, r[i].name)), RowResults)
    {
      assert r[i] == Merge(gs[i]);
    }
  }

  /** Merging keeps the total spend. */
  lemma MergedTotal(rows: seq<BreakdownRow>)
    ensures Sum(GroupBreakdownByLabel(rows), RowSpend) == Sum(rows, RowSpend)
  {
    MergedSpend(GroupBy(rows, RowLabel));
    GroupByTotal(rows, RowLabel, RowSpend);
  }

  /** The merged labels are pairwise distinct. */
  lemma GroupBreakdownByLabelDistinct(rows: seq<BreakdownRow>)
    ensures var r := GroupBreakdownByLabel(rows);
      forall i, j :: 0 <= i < j < |r| ==> r[i].name != r[j].name
  {
    var gs := GroupBy(rows, RowLabel);
    GroupByKeys(rows, RowLabel);
    assert Map(GroupBreakdownByLabel(rows), RowLabel) == Keys(gs);
  }

  /** Merging rows that all had spend keeps every merged row's spend positive. */
  lemma GroupBreakdownByLabelPositive(rows: seq<BreakdownRow>)
    requires forall i :: 0 <= i < |rows| ==> rows[i].spend > 0.0
    ensures var r := GroupBreakdownByLabel(rows);
      forall i :: 0 <= i < |r| ==> r[i].spend > 0.0
  {
    var gs := GroupBy(rows, RowLabel);
    GroupByMembersFromRows(rows, RowLabel);
    forall i | 0 <= i < |gs| ensures Merge(gs[i]).spend > 0.0 {
      SumPositive(gs[i].members, RowSpend);
    }
  }

  function HasSpend(r: BreakdownRow): bool { r.spend > 0.0 }

  /** The pure part of `fetchBreakdownInsights`: label, keep spend > 0, merge, rank by spend descending. */
  function Breakdown(dim: Dimension, rows: seq<BreakdownInput>): (r: seq<BreakdownRow>)
    ensures forall i :: 0 <= i < |r| ==> r[i].spend > 0.0
    ensures forall i, j :: 0 <= i < j < |r| ==> r[i].spend >= r[j].spend
    ensures multiset(r) == multiset(GroupBreakdownByLabel(Filter(Map(rows, row => ToBreakdownRow(dim, row)), HasSpend)))
  {
    RankBreakdown(Map(rows, row => ToBreakdownRow(dim, row)))
  }

  /** Keep the labelled rows with spend, merge them by label and rank them by spend, largest first. */
  function RankBreakdown(labelled: seq<BreakdownRow>): (r: seq<BreakdownRow>)
    ensures forall i :: 0 <= i < |r| ==> r[i].spend > 0.0
    ensures forall i, j :: 0 <= i < j < |r| ==> r[i].spend >= r[j].spend
    ensures multiset(r) == multiset(GroupBreakdownByLabel(Filter(labelled, HasSpend)))
  {
    var kept := Filter(labelled, HasSpend);
    GroupBreakdownByLabelPositive(kept);
    var merged := GroupBreakdownByLabel(kept);
    var sorted := Sort(merged, RowSpend, false);
    SortKeeps(merged, RowSpend, false, HasSpend);
    assert forall i, j :: 0 <= i < j < |sorted| ==> InOrder(sorted[i], sorted[j], RowSpend, false);
    sorted
  }
}

=== FILE: meta_manager.dfy ===
/**
 * The manager lists of lib/meta-api.ts: a listing of campaigns or ad sets
 * (budget and status) left-joined with the period's insight rows by id,
 * and the ad list built straight from ad-level insights.
 */
module MetaManager {
  import opened Common
  import opened MetaActions
  import opened MetaRows

  /** Index of the last element whose id is `id`, or -1: the entry a `Map` keeps when ids repeat. */
  function LastIndex<T>(rows: seq<T>, idOf: T -> string, id: string): (i: int)
    ensures -1 <= i < |rows|
    ensures i >= 0 ==> idOf(rows[i]) == id
    ensures forall j :: i < j < |rows| ==> idOf(rows[j]) != id
    decreases |rows|
  {
    if |rows| == 0 then -1
    else if idOf(rows[|rows| - 1]) == id then |rows| - 1
    else LastIndex(rows[..|rows| - 1], idOf, id)
  }

  /**
   * `for (const row of rows) map.set(idOf(row), row)` (and equally
   * `new Map(rows.map(r => [idOf(r), r]))`): every id that occurs is a key,
   * holding the last row with that id.
   */
  method BuildIndex<T>(rows: seq<T>, idOf: T -> string) returns (m: map<string, T>)
    ensures forall id :: id in m <==> LastIndex(rows, idOf, id) >= 0
    ensures forall id :: id in m ==> m[id] == rows[LastIndex(rows, idOf, id)]
    ensures forall i :: 0 <= i < |rows| ==> idOf(rows[i]) in m
  {
    m := map[];
    var k := 0;
    while k < |rows|
      invariant 0 <= k <= |rows|
      invariant forall id :: id in m <==> LastIndex(rows[..k], idOf, id) >= 0
      invariant forall id :: id in m ==> m[id] == rows[..k][LastIndex(rows[..k], idOf, id)]
    {
      assert rows[..k + 1][..k] == rows[..k];
      m := m[idOf(rows[k]) := rows[k]];
      k := k + 1;
    }
    assert rows[..k] == rows;
    forall i | 0 <= i < |rows| ensures idOf(rows[i]) in m {
      var j := LastIndex(rows, idOf, idOf(rows[i]));
      assert j >= i;
    }
  }

  /** `x ? parseInt(x) / 100 : 0` on a budget in cents (absent or empty string as `None`). */
  function BudgetFromCents(cents: Option<int>): (r: real)
    ensures cents.None? ==> r == 0.0
    ensures cents.Some? ==> r * 100.0 == cents.value as real
  {
    match cents
    case None => 0.0
    case Some(c) => c as real / 100.0
  }

  /** One entry of the `/campaigns` listing. */
  datatype CampaignListItem = CampaignListItem(
    id: string, name: string, effectiveStatus: string,
    dailyBudget: Option<int>, lifetimeBudget: Option<int>)

  /** The metric columns shared by `ManagerCampaign`, `ManagerAdSet` and `ManagerAd`. */
  datatype Metrics = Metrics(
    spend: real, results: int, costPerResult: real,
    impressions: int, reach: int, frequency: real, ctr: real, cpm: real)

  const ZeroMetrics := Metrics(0.0, 0, 0.0, 0, 0, 0.0, 0.0, 0.0)

  /** The metrics of a campaign summary, with results re-derived as `leads || messages || purchases`. */
  function SummaryMetrics(s: InsightSummary): (m: Metrics)
    ensures m.spend == s.spend && m.results == PrimaryResults(s.counts)
    ensures m.costPerResult == s.costPerResult && m.impressions == s.impressions && m.reach == s.reach
    ensures m.frequency == s.frequency && m.ctr == s.ctr && m.cpm == s.cpm
  {
    Metrics(s.spend, PrimaryResults(s.counts), s.costPerResult, s.impressions, s.reach, s.frequency, s.ctr, s.cpm)
  }

  /** The metrics of one raw insight row. */
  function InsightMetrics(ins: InsightInput): (m: Metrics)
    ensures m.spend == ins.spend && m.results == PrimaryResults(CountResults(ins.actions))
    ensures m.costPerResult == CostPerResult(m.spend, m.results)
    ensures m.impressions == ins.impressions && m.reach == ins.reach && m.frequency == ins.frequency
    ensures m.ctr == ins.ctr && m.cpm == ins.cpm
  {
    var results := PrimaryResults(CountResults(ins.actions));
    Metrics(ins.spend, results, CostPerResult(ins.spend, results), ins.impressions, ins.reach, ins.frequency, ins.ctr, ins.cpm)
  }

  /** `ManagerCampaign` */
  datatype ManagerCampaign = ManagerCampaign(
    metaCampaignId: string, name: string, status: string,
    dailyBudget: real, lifetimeBudget: real, metrics: Metrics)

  function CampaignIdOf(c: CampaignSummary): string { c.metaCampaignId }

  function CampaignRow(c: CampaignListItem, index: map<string, CampaignSummary>): ManagerCampaign
  {
    ManagerCampaign(c.id, c.name, c.effectiveStatus, BudgetFromCents(c.dailyBudget), BudgetFromCents(c.lifetimeBudget),
      if c.id in index then SummaryMetrics(index[c.id].summary) else ZeroMetrics)
  }

  /**
   * `fetchManagerCampaigns` after both requests: one row per listed
   * campaign, in list order, with the metrics of the last insight for its
   * id, or all zeros when it has none.
   */
  method ManagerCampaigns(campaigns: seq<CampaignListItem>, insights: seq<CampaignSummary>)
    returns (r: seq<ManagerCampaign>)
    ensures |r| == |campaigns|
    ensures forall i :: 0 <= i < |r| ==>
      && r[i].metaCampaignId == campaigns[i].id && r[i].name == campaigns[i].name
      && r[i].status == campaigns[i].effectiveStatus
      && r[i].dailyBudget == BudgetFromCents(campaigns[i].dailyBudget)
      && r[i].lifetimeBudget == BudgetFromCents(campaigns[i].lifetimeBudget)
    ensures forall i :: 0 <= i < |r| && LastIndex(insights, CampaignIdOf, campaigns[i].id) < 0 ==>
      r[i].metrics == ZeroMetrics
    ensures forall i :: 0 <= i < |r| && LastIndex(insights, CampaignIdOf, campaigns[i].id) >= 0 ==>
      r[i].metrics == SummaryMetrics(insights[LastIndex(insights, CampaignIdOf, campaigns[i].id)].summary)
  {
    var index := BuildIndex(insights, CampaignIdOf);
    r := Map(campaigns, c => CampaignRow(c, index));
  }

  /** One entry of the `/adsets` listing. */
  datatype AdSetListItem = AdSetListItem(
    id: string, name: string, effectiveStatus: string,
    dailyBudget: Option<int>, lifetimeBudget: Option<int>,
    campaignId: string, campaignName: Option<string>)

  /** One row of the ad-set-level insights response. */
  datatype AdSetInsightInput = AdSetInsightInput(adsetId: string, insight: InsightInput)

  /** `ManagerAdSet` */
  datatype ManagerAdSet = ManagerAdSet(
    metaAdSetId: string, name: string, status: string, campaignId: string, campaignName: string,
    dailyBudget: real, lifetimeBudget: real, metrics: Metrics)

  function AdSetIdOf(row: AdSetInsightInput): string { row.adsetId }

  function AdSetRow(a: AdSetListItem, index: map<string, AdSetInsightInput>): ManagerAdSet
  {
    ManagerAdSet(a.id, a.name, a.effectiveStatus, a.campaignId, a.campaignName.GetOr(""),
      BudgetFromCents(a.dailyBudget), BudgetFromCents(a.lifetimeBudget),
      if a.id in index then InsightMetrics(index[a.id].insight) else ZeroMetrics)
  }

  /**
   * `fetchManagerAdSets` after both requests: one row per listed ad set,
   * in list order, joined with the last insight row for its id.
   */
  method ManagerAdSets(adsets: seq<AdSetListItem>, insightRows: seq<AdSetInsightInput>)
    returns (r: seq<ManagerAdSet>)
    ensures |r| == |adsets|
    ensures forall i :: 0 <= i < |r| ==>
      && r[i].metaAdSetId == adsets[i].id && r[i].campaignId == adsets[i].campaignId
      && r[i].name == adsets[i].name && r[i].status == adsets[i].effectiveStatus
      && (adsets[i].campaignName.None? ==> r[i].campaignName == "")
      && (adsets[i].campaignName.Some? ==> r[i].campaignName == adsets[i].campaignName.value)
      && r[i].dailyBudget == BudgetFromCents(adsets[i].dailyBudget)
      && r[i].lifetimeBudget == BudgetFromCents(adsets[i].lifetimeBudget)
    ensures forall i :: 0 <= i < |r| && LastIndex(insightRows, AdSetIdOf, adsets[i].id) < 0 ==>
      r[i].metrics == ZeroMetrics
    ensures forall i :: 0 <= i < |r| && LastIndex(insightRows, AdSetIdOf, adsets[i].id) >= 0 ==>
      r[i].metrics == InsightMetrics(insightRows[LastIndex(insightRows, AdSetIdOf, adsets[i].id)].insight)
  {
    var index := BuildIndex(insightRows, AdSetIdOf);
    r := Map(adsets, a => AdSetRow(a, index));
  }

  /** One row of the ad-level insights response used by the ad manager. */
  datatype ManagerAdInput = ManagerAdInput(
    adId: string, adName: Option<string>,
    adSetId: Option<string>, adSetName: Option<string>,
    campaignId: Option<string>, campaignName: Option<string>,
    insight: InsightInput)

  /** `ManagerAd` */
  datatype ManagerAd = ManagerAd(
    metaAdId: string, name: string, status: string,
    campaignId: string, campaignName: string, adSetId: string, adSetName: string,
    metrics: Metrics)

  function AdRow(statusMap: map<string, string>, row: ManagerAdInput): ManagerAd
  {
    ManagerAd(row.adId, row.adName.GetOr("Anúncio sem nome"), StatusOf(statusMap, row.adId),
      row.campaignId.GetOr(""), row.campaignName.GetOr(""), row.adSetId.GetOr(""), row.adSetName.GetOr(""),
      InsightMetrics(row.insight))
  }

  /** `fetchManagerAds` after both requests: one ad per insight row, status `ACTIVE` when unknown. */
  function ManagerAds(statusMap: map<string, string>, rows: seq<ManagerAdInput>): (r: seq<ManagerAd>)
    ensures |r| == |rows|
    ensures forall i :: 0 <= i < |r| ==>
      && r[i].metaAdId == rows[i].adId
      && r[i].metrics == InsightMetrics(rows[i].insight)
      && (rows[i].adId !in statusMap ==> r[i].status == "ACTIVE")
      && (rows[i].adId in statusMap ==> r[i].status == statusMap[rows[i].adId])
      && (rows[i].adName.None? ==> r[i].name == "Anúncio sem nome")
      && (rows[i].adName.Some? ==> r[i].name == rows[i].adName.value)
    ensures forall i :: 0 <= i < |r| ==>
      && r[i].campaignId == rows[i].campaignId.GetOr("") && r[i].campaignName == rows[i].campaignName.GetOr("")
      && r[i].adSetId == rows[i].adSetId.GetOr("") && r[i].adSetName == rows[i].adSetName.GetOr("")
  {
    if |rows| == 0 then [] else Map(rows, row => AdRow(statusMap, row))
  }
}

=== FILE: meta_rows.dfy ===
/**
 * The row mappers of lib/meta-api.ts once the HTTP response is parsed:
 * the account and campaign summaries, ad rows with their status lookup,
 * top-ad rows with thumbnails, daily trend points, and the error
 * classification of `checkMetaError`.
 */
module MetaRows {
  import opened Common
  import opened Text
  import opened Sorting
  import opened MetaActions

  /** The numeric fields of one insight row (`parseInt` / `parseFloat` already applied, absent as 0). */
  datatype InsightInput = InsightInput(
    spend: real,
    impressions: int,
    reach: int,
    frequency: real,
    clicks: int,
    cpm: real,
    ctr: real,
    actions: seq<Action>)

  /** `AccountInsightSummary` */
  datatype InsightSummary = InsightSummary(
    spend: real,
    impressions: int,
    reach: int,
    frequency: real,
    clicks: int,
    cpm: real,
    ctr: real,
    counts: ResultCounts,
    costPerResult: real,
    rawActions: seq<Action>)

  const ZeroSummary := InsightSummary(0.0, 0, 0, 0.0, 0, 0.0, 0.0, ResultCounts(0, 0, 0), 0.0, [])

  /** Summary of one present insight row. */
  function Summarize(ins: InsightInput): (s: InsightSummary)
    ensures s.counts == CountResults(ins.actions)
    ensures s.spend == ins.spend && s.rawActions == ins.actions
    ensures s.costPerResult == CostPerResult(ins.spend, PrimaryResults(s.counts))
    ensures PrimaryResults(s.counts) > 0 ==> s.costPerResult * PrimaryResults(s.counts) as real == s.spend
  {
    var counts := CountResults(ins.actions);
    InsightSummary(ins.spend, ins.impressions, ins.reach, ins.frequency, ins.clicks, ins.cpm, ins.ctr,
      counts, CostPerResult(ins.spend, PrimaryResults(counts)), ins.actions)
  }

  /** `fetchAccountLevelInsights` after the request: `data.data?.[0]`, or all zeros when there is none. */
  function AccountLevelSummary(rows: seq<InsightInput>): (s: InsightSummary)
    ensures |rows| == 0 ==> s == ZeroSummary
    ensures |rows| > 0 ==> s.spend == rows[0].spend && s.counts == CountResults(rows[0].actions)
  {
    if |rows| == 0 then ZeroSummary else Summarize(rows[0])
  }

  /** The all-zero summary reports no results and no cost. */
  lemma ZeroSummaryHasNoResults()
    ensures PrimaryResults(ZeroSummary.counts) == 0 && ZeroSummary.costPerResult == 0.0
  {
  }

  /** One row of the campaign-level insights response. */
  datatype CampaignInsightInput = CampaignInsightInput(
    campaignId: string,
    campaignName: Option<string>,
    effectiveStatus: Option<string>,
    insight: InsightInput)

  /** `CampaignInsightSummary` */
  datatype CampaignSummary = CampaignSummary(
    metaCampaignId: string,
    campaignName: string,
    campaignStatus: string,
    summary: InsightSummary)

  function ToCampaignSummary(row: CampaignInsightInput): (c: CampaignSummary)
    ensures c.metaCampaignId == row.campaignId
    ensures row.campaignName.None? ==> c.campaignName == "Campanha sem nome"
    ensures row.effectiveStatus.None? ==> c.campaignStatus == ""
    ensures c.summary == Summarize(row.insight)
  {
    CampaignSummary(row.campaignId, row.campaignName.GetOr("Campanha sem nome"),
      row.effectiveStatus.GetOr(""), Summarize(row.insight))
  }

  function CampaignSpend(c: CampaignSummary): real { c.summary.spend }

  /** `fetchCampaignLevelInsights`: one summary per row, `rows.sort((a, b) => b.spend - a.spend)`. */
  function CampaignLevel(rows: seq<CampaignInsightInput>): (r: seq<CampaignSummary>)
    ensures |r| == |rows|
    ensures forall i, j :: 0 <= i < j < |r| ==> r[i].summary.spend >= r[j].summary.spend
    ensures multiset(r) == multiset(Map(rows, ToCampaignSummary))
  {
    Sort(Map(rows, ToCampaignSummary), CampaignSpend, false)
  }

  /** One row of the ad-level insights response. */
  datatype AdInsightInput = AdInsightInput(
    adId: string,
    adName: Option<string>,
    campaignId: Option<string>,
    campaignName: Option<string>,
    adSetId: Option<string>,
    adSetName: Option<string>,
    spend: real,
    actions: seq<Action>)

  /** `AdInsightSummary` */
  datatype AdSummary = AdSummary(
    metaAdId: string,
    adName: string,
    adStatus: string,
    campaignId: string,
    campaignName: string,
    adSetId: string,
    adSetName: string,
    spend: real,
    results: int,
    cpl: real)

  /** `statusMap[adId] ?? 'ACTIVE'` */
  function StatusOf(statusMap: map<string, string>, adId: string): (s: string)
    ensures adId in statusMap ==> s == statusMap[adId]
    ensures adId !in statusMap ==> s == "ACTIVE"
  {
    if adId in statusMap then statusMap[adId] else "ACTIVE"
  }

  function ToAdSummary(statusMap: map<string, string>, row: AdInsightInput): (a: AdSummary)
    ensures a.metaAdId == row.adId && a.spend == row.spend
    ensures a.adStatus == StatusOf(statusMap, row.adId)
    ensures row.adName.None? ==> a.adName == "Anúncio sem nome"
    ensures row.adName.Some? ==> a.adName == row.adName.value
    ensures a.campaignId == row.campaignId.GetOr("") && a.campaignName == row.campaignName.GetOr("")
    ensures a.adSetId == row.adSetId.GetOr("") && a.adSetName == row.adSetName.GetOr("")
    ensures a.results == PrimaryResults(CountResults(row.actions))
    ensures a.cpl == CostPerResult(a.spend, a.results)
  {
    var results := PrimaryResults(CountResults(row.actions));
    AdSummary(row.adId, row.adName.GetOr("Anúncio sem nome"), StatusOf(statusMap, row.adId),
      row.campaignId.GetOr(""), row.campaignName.GetOr(""), row.adSetId.GetOr(""), row.adSetName.GetOr(""),
      row.spend, results, CostPerResult(row.spend, results))
  }

  function AdHasSpend(a: AdSummary): bool { a.spend > 0.0 }

  /** `fetchAdLevelInsights` after both requests: map every row, then keep those with spend. */
  function AdLevel(statusMap: map<string, string>, rows: seq<AdInsightInput>): (r: seq<AdSummary>)
    ensures |r| <= |rows|
    ensures forall i :: 0 <= i < |r| ==> r[i].spend > 0.0
    ensures forall i :: 0 <= i < |rows| && rows[i].spend > 0.0 ==> ToAdSummary(statusMap, rows[i]) in r
    ensures forall i :: 0 <= i < |r| ==> r[i].adStatus == StatusOf(statusMap, r[i].metaAdId)
  {
    if |rows| == 0 then []
    else Filter(Map(rows, row => ToAdSummary(statusMap, row)), AdHasSpend)
  }

  /**
   * `AdLevel` is `.map(...).filter(a => a.spend > 0)`: the summaries of the
   * rows with spend, in row order, and of no other row.
   */
  lemma AdLevelSelects(statusMap: map<string, string>, rows: seq<AdInsightInput>) returns (idx: seq<nat>)
    ensures var r := AdLevel(statusMap, rows);
      && |idx| == |r|
      && (forall i :: 0 <= i < |r| ==> idx[i] < |rows| && r[i] == ToAdSummary(statusMap, rows[idx[i]]))
      && (forall i, j :: 0 <= i < j < |idx| ==> idx[i] < idx[j])
      && (forall k :: 0 <= k < |rows| ==> (k in idx <==> rows[k].spend > 0.0))
  {
    if |rows| == 0 {
      idx := [];
    } else {
      var mapped := Map(rows, row => ToAdSummary(statusMap, row));
      idx := FilterSelects(mapped, AdHasSpend);
    }
  }

  /** One row of the top-ads insights response. */
  datatype TopAdInput = TopAdInput(
    adId: string,
    adName: Option<string>,
    spend: real,
    ctr: real,
    reach: int,
    impressions: int,
    actions: seq<Action>)

  /** `TopAdInsight` */
  datatype TopAd = TopAd(
    metaAdId: string,
    adName: string,
    imageUrl: Option<string>,
    spend: real,
    results: int,
    costPerResult: real,
    ctr: real,
    reach: int,
    impressions: int)

  function ToTopAd(thumbnails: map<string, string>, row: TopAdInput): (a: TopAd)
    ensures a.metaAdId == row.adId && a.spend == row.spend
    ensures a.imageUrl.Some? <==> row.adId in thumbnails
    ensures a.imageUrl.Some? ==> a.imageUrl.value == thumbnails[row.adId]
    ensures a.results == PrimaryResults(CountResults(row.actions))
    ensures a.costPerResult == CostPerResult(a.spend, a.results)
    ensures row.adName.None? ==> a.adName == "Anúncio sem nome"
    ensures row.adName.Some? ==> a.adName == row.adName.value
    ensures a.ctr == row.ctr && a.reach == row.reach && a.impressions == row.impressions
  {
    var results := PrimaryResults(CountResults(row.actions));
    TopAd(row.adId, row.adName.GetOr("Anúncio sem nome"),
      if row.adId in thumbnails then Some(thumbnails[row.adId]) else None,
      row.spend, results, CostPerResult(row.spend, results), row.ctr, row.reach, row.impressions)
  }

  function HasResults(a: TopAd): bool { a.results > 0 }

  /** `fetchTopAdsInsights` after both requests: only ads with at least one result. */
  function TopAds(thumbnails: map<string, string>, rows: seq<TopAdInput>): (r: seq<TopAd>)
    ensures |r| <= |rows|
    ensures forall i :: 0 <= i < |r| ==> r[i].results > 0 && r[i].costPerResult == CostPerResult(r[i].spend, r[i].results)
    ensures forall i :: 0 <= i < |rows| && PrimaryResults(CountResults(rows[i].actions)) > 0 ==>
      ToTopAd(thumbnails, rows[i]) in r
  {
    if |rows| == 0 then []
    else
      var mapped := Map(rows, row => ToTopAd(thumbnails, row));
      Filter(mapped, HasResults)
  }

  /**
   * `TopAds` is `.map(...).filter(a => a.results > 0)`: the mapped rows
   * with results, in row order, and of no other row.
   */
  lemma TopAdsSelects(thumbnails: map<string, string>, rows: seq<TopAdInput>) returns (idx: seq<nat>)
    ensures var r := TopAds(thumbnails, rows);
      && |idx| == |r|
      && (forall i :: 0 <= i < |r| ==> idx[i] < |rows| && r[i] == ToTopAd(thumbnails, rows[idx[i]]))
      && (forall i, j :: 0 <= i < j < |idx| ==> idx[i] < idx[j])
      && (forall k :: 0 <= k < |rows| ==> (k in idx <==> PrimaryResults(CountResults(rows[k].actions)) > 0))
  {
    if |rows| == 0 {
      idx := [];
    } else {
      var mapped := Map(rows, row => ToTopAd(thumbnails, row));
      idx := FilterSelects(mapped, HasResults);
    }
  }

  /** One day of an insights response with `time_increment=1`. */
  datatype DailyInput = DailyInput(date: string, spend: real, actions: seq<Action>)

  /** `TrendPoint` */
  datatype TrendPoint = TrendPoint(date: string, spend: real, results: int, cpl: real)

  function ToTrendPoint(row: DailyInput): (p: TrendPoint)
    ensures p.date == row.date && p.spend == row.spend
    ensures p.results == PrimaryResults(CountResults(row.actions))
    ensures p.results == 0 ==> p.cpl == 0.0
    ensures p.results > 0 ==> p.cpl * p.results as real == p.spend
  {
    var results := PrimaryResults(CountResults(row.actions));
    TrendPoint(row.date, row.spend, results, CostPerResult(row.spend, results))
  }

  /** `fetchEntityDailyInsights` / `fetchCampaignDailyInsights` / `fetchAccountDailyInsights`: one point per day, in order. */
  function DailyTrend(rows: seq<DailyInput>): (r: seq<TrendPoint>)
    ensures |r| == |rows|
    ensures forall i :: 0 <= i < |r| ==> r[i].date == rows[i].date && r[i].spend == rows[i].spend
    ensures forall i :: 0 <= i < |r| ==> r[i] == ToTrendPoint(rows[i])
  {
    Map(rows, ToTrendPoint)
  }

  /** `RATE_LIMIT_CODES` */
  const RateLimitCodes: set<int> := {17, 613, 4, 80000, 80001, 80002, 80003, 80004}

  /** The `error` object of a Graph API response. */
  datatype ApiErrorBody = ApiErrorBody(code: Option<int>, message: Option<string>)

  /** The error `checkMetaError` throws. */
  datatype MetaError = RateLimited(message: string) | ApiFailure(context: string, message: string)

  /** A template literal renders an absent message as `undefined`. */
  function MessageText(m: Option<string>): string { m.GetOr("undefined") }

  /** `checkMetaError`: never returns normally; the thrown error is classified by code. */
  function CheckMetaError(error: ApiErrorBody, context: string): (e: MetaError)
    ensures e.RateLimited? <==> error.code.Some? && error.code.value in RateLimitCodes
    ensures e.message == MessageText(error.message)
    ensures e.ApiFailure? ==> e.context == context
  {
    if error.code.Some? && error.code.value != 0 && error.code.value in RateLimitCodes then
      RateLimited(MessageText(error.message))
    else
      ApiFailure(context, MessageText(error.message))
  }

  /** `new Error(...).message` */
  function ErrorText(e: MetaError): string
  {
    match e
    case RateLimited(m) => "RATE_LIMIT: " + m
    case ApiFailure(c, m) => "Meta API Error (" + c + "): " + m
  }

  /**
   * The rendered message starts with `RATE_LIMIT: ` exactly for the
   * rate-limit codes, and with `Meta API Error (<context>): ` for every
   * other code, a missing one included.
   */
  lemma CheckMetaErrorText(error: ApiErrorBody, context: string)
    ensures var text := ErrorText(CheckMetaError(error, context));
      && (StartsWith(text, "RATE_LIMIT: ") <==> error.code.Some? && error.code.value in RateLimitCodes)
      && (!(error.code.Some? && error.code.value in RateLimitCodes) ==>
            StartsWith(text, "Meta API Error (" + context + "): "))
  {
    var e := CheckMetaError(error, context);
    var text := ErrorText(e);
    if e.RateLimited? {
      assert text == "RATE_LIMIT: " + e.message;
      assert text[..|"RATE_LIMIT: "|] == "RATE_LIMIT: ";
    } else {
      var prefix := "Meta API Error (" + context + "): ";
      assert text == prefix + e.message;
      assert text[..|prefix|] == prefix;
      assert text[0] == 'M';
    }
  }
}

=== FILE: middleware.dfy ===
/**
 * The request gate (middleware.ts) as a pure decision: public paths pass,
 * the admin area needs an admin session cookie, and every other path
 * needs a client token the token validator accepts. The validator (a
 * database lookup) is a function parameter.
 */
module Middleware {
  import opened Common
  import opened Text

  /** The client record the validator returns. */
  datatype Client = Client(id: string, name: string)

  /** The parts of a request the gate reads; cookies are name → value. */
  datatype Req = Req(pathname: string, urlToken: Option<string>, cookies: map<string, string>)

  /** The gate's answer. */
  datatype Response =
    | PassThrough
    | RedirectTo(location: string)
    | Unauthorized(status: int, error: string)
    | ClientPass(clientId: string, clientName: string, setCookie: Option<string>)

  const MissingToken: string := "Token de acesso inválido ou ausente"
  const InvalidToken: string := "Token inválido ou expirado"

  /** Paths served without any check; the prefixes match any continuation. */
  predicate PublicPath(pathname: string)
  {
    pathname == "/login" || StartsWith(pathname, "/_next") || StartsWith(pathname, "/api")
  }

  predicate AdminPath(pathname: string)
  {
    StartsWith(pathname, "/admin")
  }

  /** `tokenFromUrl || tokenFromCookie`: an empty URL token falls back to the cookie. */
  function EffectiveToken(req: Req): (t: Option<string>)
    ensures t.Some? ==> t.value != ""
    ensures req.urlToken.Some? && req.urlToken.value != "" ==> t == req.urlToken
    ensures t.None? <==>
      && (req.urlToken.None? || req.urlToken.value == "")
      && ("client_token" !in req.cookies || req.cookies["client_token"] == "")
  {
    if req.urlToken.Some? && req.urlToken.value != "" then req.urlToken
    else if "client_token" in req.cookies && req.cookies["client_token"] != "" then Some(req.cookies["client_token"])
    else None
  }

  /**
   * `middleware`: public paths pass; admin paths pass with an
   * `admin_session` cookie of any value and otherwise redirect to the login;
   * other paths answer 401 without a token or with one the validator
   * rejects, and otherwise pass with the client's id and name, storing the
   * token in the cookie only when it came from the URL.
   */
  function Gate(req: Req, validate: string -> Option<Client>): (r: Response)
    ensures PublicPath(req.pathname) ==> r == PassThrough
    ensures !PublicPath(req.pathname) && AdminPath(req.pathname) ==>
      (r == RedirectTo("/login") <==> "admin_session" !in req.cookies) && (r == PassThrough || r == RedirectTo("/login"))
    ensures r.Unauthorized? ==> r.status == 401
    ensures !PublicPath(req.pathname) && !AdminPath(req.pathname) ==>
      (r.Unauthorized? <==> EffectiveToken(req).None? || validate(EffectiveToken(req).value).None?)
    ensures (!PublicPath(req.pathname) && !AdminPath(req.pathname)
      && EffectiveToken(req).Some? && validate(EffectiveToken(req).value).Some?) ==>
        r.ClientPass? && Client(r.clientId, r.clientName) == validate(EffectiveToken(req).value).value
    ensures r.ClientPass? ==>
      && !PublicPath(req.pathname) && !AdminPath(req.pathname)
      && EffectiveToken(req).Some?
      && validate(EffectiveToken(req).value) == Some(Client(r.clientId, r.clientName))
    ensures r.ClientPass? ==>
      && (r.setCookie.Some? <==> req.urlToken.Some? && req.urlToken.value != "")
      && (r.setCookie.Some? ==> r.setCookie == req.urlToken)
  {
    if PublicPath(req.pathname) then PassThrough
    else if AdminPath(req.pathname) then
      if "admin_session" !in req.cookies then RedirectTo("/login") else PassThrough
    else
      var token := EffectiveToken(req);
      if token.None? then Unauthorized(401, MissingToken)
      else
        var client := validate(token.value);
        if client.None? then Unauthorized(401, InvalidToken)
        else
          var fromUrl := req.urlToken.Some? && req.urlToken.value != "";
          ClientPass(client.value.id, client.value.name, if fromUrl then Some(token.value) else None)
  }

  /** The two 401 answers tell a missing token from a rejected one. */
  lemma UnauthorizedReasons(req: Req, validate: string -> Option<Client>)
    requires Gate(req, validate).Unauthorized?
    ensures Gate(req, validate).error == MissingToken <==> EffectiveToken(req).None?
  {
  }

  /** The browser's cookie jar after a response. */
  function StoreCookie(cookies: map<string, string>, r: Response): (c: map<string, string>)
    ensures r.ClientPass? && r.setCookie.Some? ==> c == cookies["client_token" := r.setCookie.value]
    ensures !(r.ClientPass? && r.setCookie.Some?) ==> c == cookies
  {
    if r.ClientPass? && r.setCookie.Some? then cookies["client_token" := r.setCookie.value] else cookies
  }

  /**
   * A link with a valid token signs the browser in: a later request to any
   * client path without the token in the URL reaches the same client and
   * stores nothing more.
   */
  lemma TokenLinkThenCookie(first: Req, path: string, validate: string -> Option<Client>)
    requires Gate(first, validate).ClientPass? && first.urlToken.Some? && first.urlToken.value != ""
    requires !PublicPath(path) && !AdminPath(path)
    ensures var jar := StoreCookie(first.cookies, Gate(first, validate));
      var r1 := Gate(first, validate);
      var r2 := Gate(Req(path, None, jar), validate);
      r2 == ClientPass(r1.clientId, r1.clientName, None)
  {
    var r1 := Gate(first, validate);
    var jar := StoreCookie(first.cookies, r1);
    assert jar["client_token"] == first.urlToken.value;
  }

  /** The admin cookie is never inspected: any value, even empty, opens the admin area. */
  lemma AdminCookieValueIgnored(req: Req, validate: string -> Option<Client>)
    requires AdminPath(req.pathname) && !PublicPath(req.pathname)
    requires req.cookies == map["admin_session" := ""]
    ensures Gate(req, validate) == PassThrough
  {
  }

  /** The public prefixes are plain prefixes: `/apiary` is served without a check. */
  lemma PublicPrefixIsLoose(validate: string -> Option<Client>)
    ensures Gate(Req("/apiary", None, map[]), validate) == PassThrough
  {
    assert StartsWith("/apiary", "/api");
  }
}

=== FILE: periods.dfy ===
/**
 * The reporting periods (lib/periods.ts) on integer day numbers: `today`
 * is a day number and `monthStart` the day number of the first of its
 * month, both supplied by the caller in place of the clock.
 */
module Periods {
  import opened Common

  /** `PeriodOption` */
  datatype PeriodOption = PeriodOption(value: string, title: string)

  /** `PERIOD_OPTIONS`, in menu order. */
  const PeriodOptions: seq<PeriodOption> := [
    PeriodOption("7d", "Últimos 7 dias"),
    PeriodOption("14d", "Últimos 14 dias"),
    PeriodOption("30d", "Últimos 30 dias"),
    PeriodOption("90d", "Últimos 90 dias"),
    PeriodOption("mtd", "1º do mês até ontem")]

  /** `DEFAULT_PERIOD` */
  const DefaultPeriod: string := "30d"

  /** A `{ from, to }` pair of day numbers, both ends included. */
  datatype DateRange = DateRange(from: int, to: int)

  /** The values `periodToDates` has a case for. */
  predicate Handled(period: string)
  {
    period == "7d" || period == "14d" || period == "30d" || period == "90d" || period == "mtd"
  }

  /**
   * `periodToDates`: the N-day periods end today and start N days earlier;
   * `mtd` runs from the first of the month to yesterday; any other value
   * is treated as `30d`.
   */
  function PeriodToDates(period: string, today: int, monthStart: int): (r: DateRange)
    ensures period == "7d" ==> r == DateRange(today - 7, today)
    ensures period == "14d" ==> r == DateRange(today - 14, today)
    ensures period == "30d" ==> r == DateRange(today - 30, today)
    ensures period == "90d" ==> r == DateRange(today - 90, today)
    ensures period == "mtd" ==> r == DateRange(monthStart, today - 1)
    ensures !Handled(period) ==> r == DateRange(today - 30, today)
  {
    if period == "7d" then DateRange(today - 7, today)
    else if period == "14d" then DateRange(today - 14, today)
    else if period == "30d" then DateRange(today - 30, today)
    else if period == "90d" then DateRange(today - 90, today)
    else if period == "mtd" then DateRange(monthStart, today - 1)
    else DateRange(today - 30, today)
  }

  /**
   * Every range but month-to-date is non-empty; month-to-date is empty
   * (from is one day after to) exactly on the first of the month.
   */
  lemma PeriodRangeOrder(period: string, today: int, monthStart: int)
    requires monthStart <= today
    ensures var r := PeriodToDates(period, today, monthStart);
      && (period != "mtd" ==> r.from < r.to)
      && (period == "mtd" ==> (r.from == r.to + 1 <==> monthStart == today))
      && (period == "mtd" ==> r.from <= r.to + 1)
  {
  }

  /** The options are five distinct values, every one handled, the default among them. */
  lemma PeriodOptionsWellFormed()
    ensures |PeriodOptions| == 5
    ensures forall i, j :: 0 <= i < j < |PeriodOptions| ==> PeriodOptions[i].value != PeriodOptions[j].value
    ensures forall i :: 0 <= i < |PeriodOptions| ==> Handled(PeriodOptions[i].value)
    ensures PeriodOptions[2].value == DefaultPeriod
  {
  }

  /** The first option whose range is `(from, to)`. */
  function FirstMatch(opts: seq<PeriodOption>, from: int, to: int, today: int, monthStart: int): (r: int)
    ensures -1 <= r < |opts|
    ensures r >= 0 ==> PeriodToDates(opts[r].value, today, monthStart) == DateRange(from, to)
    ensures forall j :: 0 <= j < |opts| && (r < 0 || j < r) ==>
      PeriodToDates(opts[j].value, today, monthStart) != DateRange(from, to)
    decreases |opts|
  {
    if |opts| == 0 then -1
    else if PeriodToDates(opts[0].value, today, monthStart) == DateRange(from, to) then 0
    else
      var k := FirstMatch(opts[1..], from, to, today, monthStart);
      if k < 0 then -1 else k + 1
  }

  /**
   * TopBar's `matchPeriod`: without both URL dates the default; otherwise
   * the first option producing exactly those dates, or the default.
   * Missing and empty parameters are both `None`.
   */
  function MatchPeriod(from: Option<int>, to: Option<int>, today: int, monthStart: int): (r: string)
    ensures from.None? || to.None? ==> r == DefaultPeriod
    ensures from.Some? && to.Some? ==>
      var k := FirstMatch(PeriodOptions, from.value, to.value, today, monthStart);
      && (k < 0 ==> r == DefaultPeriod)
      && (k >= 0 ==> r == PeriodOptions[k].value)
    ensures from.Some? && to.Some? && r != DefaultPeriod ==>
      PeriodToDates(r, today, monthStart) == DateRange(from.value, to.value)
    ensures Handled(r)
  {
    if from.None? || to.None? then DefaultPeriod
    else
      var k := FirstMatch(PeriodOptions, from.value, to.value, today, monthStart);
      if k < 0 then DefaultPeriod else PeriodOptions[k].value
  }

  /** Choosing a period and reading the URL back recognises the same period. */
  lemma MatchPeriodRoundTrip(period: string, today: int, monthStart: int)
    requires Handled(period)
    ensures var r := PeriodToDates(period, today, monthStart);
      MatchPeriod(Some(r.from), Some(r.to), today, monthStart) == period
  {
    var r := PeriodToDates(period, today, monthStart);
    var k := FirstMatch(PeriodOptions, r.from, r.to, today, monthStart);
    var i := if period == "7d" then 0 else if period == "14d" then 1 else if period == "30d" then 2 else if period == "90d" then 3 else 4;
    assert PeriodOptions[i].value == period;
    assert k >= 0;
    PeriodOptionsWellFormed();
    PeriodToDatesInjective(PeriodOptions[k].value, period, today, monthStart);
  }

  /** Different handled periods give different ranges on the same day. */
  lemma PeriodToDatesInjective(p: string, q: string, today: int, monthStart: int)
    requires Handled(p) && Handled(q)
    requires PeriodToDates(p, today, monthStart) == PeriodToDates(q, today, monthStart)
    ensures p == q
  {
  }
}

=== FILE: sorting.dfy ===
/**
 * `[...xs].sort((a, b) => key(a) - key(b))` and its descending twin
 * `(a, b) => key(b) - key(a)`: a stable sort on one numeric key, written as
 * an insertion sort over sequences. Elements with equal keys keep their
 * input order, as `Array.prototype.sort` guarantees.
 */
module Sorting {

  /** `a` may come before `b` under the chosen direction. */
  predicate InOrder<T>(a: T, b: T, key: T -> real, asc: bool)
  {
    if asc then key(a) <= key(b) else key(b) <= key(a)
  }

  ghost predicate SortedBy<T>(s: seq<T>, key: T -> real, asc: bool)
  {
    forall i, j :: 0 <= i < j < |s| ==> InOrder(s[i], s[j], key, asc)
  }

  /** Insert `x` in front of the first element it may precede. */
  function Insert<T>(x: T, s: seq<T>, key: T -> real, asc: bool): (r: seq<T>)
    requires SortedBy(s, key, asc)
    ensures SortedBy(r, key, asc)
    ensures multiset(r) == multiset(s) + multiset{x}
    ensures |r| == |s| + 1
    ensures r[0] == x || (|s| > 0 && r[0] == s[0])
    decreases |s|
  {
    if |s| == 0 then [x]
    else if InOrder(x, s[0], key, asc) then
      SortedCons(x, s, key, asc);
      [x] + s
    else
      assert s == [s[0]] + s[1..];
      assert SortedBy(s[1..], key, asc);
      var rest := Insert(x, s[1..], key, asc);
      assert InOrder(s[0], rest[0], key, asc) by {
        if |s| > 1 { assert InOrder(s[0], s[1], key, asc); }
      }
      SortedCons(s[0], rest, key, asc);
      assert multiset([s[0]] + rest) == multiset{s[0]} + multiset(rest);
      [s[0]] + rest
  }

  /** An element that may precede the head of a sorted sequence may precede all of it. */
  lemma SortedCons<T>(y: T, t: seq<T>, key: T -> real, asc: bool)
    requires SortedBy(t, key, asc)
    requires |t| > 0 ==> InOrder(y, t[0], key, asc)
    ensures SortedBy([y] + t, key, asc)
  {
    var r := [y] + t;
    forall i, j | 0 <= i < j < |r| ensures InOrder(r[i], r[j], key, asc) {
      if i == 0 {
        assert r[j] == t[j - 1];
        if j > 1 {
          assert InOrder(t[0], t[j - 1], key, asc);
        }
      } else {
        assert r[i] == t[i - 1] && r[j] == t[j - 1];
      }
    }
  }

  /** The sorted copy of `s`. */
  function Sort<T>(s: seq<T>, key: T -> real, asc: bool): (r: seq<T>)
    ensures SortedBy(r, key, asc)
    ensures multiset(r) == multiset(s)
    ensures |r| == |s|
    decreases |s|
  {
    if |s| == 0 then []
    else
      assert s == [s[0]] + s[1..];
      Insert(s[0], Sort(s[1..], key, asc), key, asc)
  }

  /** Every element of the sorted copy satisfies what every element of the input does. */
  lemma SortKeeps<T>(s: seq<T>, key: T -> real, asc: bool, p: T -> bool)
    requires forall i :: 0 <= i < |s| ==> p(s[i])
    ensures forall i :: 0 <= i < |Sort(s, key, asc)| ==> p(Sort(s, key, asc)[i])
  {
    var r := Sort(s, key, asc);
    forall i | 0 <= i < |r| ensures p(r[i]) {
      assert r[i] in multiset(s);
      var k :| 0 <= k < |s| && s[k] == r[i];
    }
  }

  /**
   * Keeping the first `n` elements of a sorted sequence keeps the best
   * ones: every element left out may follow every element kept.
   */
  lemma PrefixIsBest<T>(sorted: seq<T>, n: nat, key: T -> real, asc: bool)
    requires SortedBy(sorted, key, asc) && n <= |sorted|
    ensures forall x, i :: x in sorted && x !in sorted[..n] && 0 <= i < n ==> InOrder(sorted[i], x, key, asc)
  {
    forall x, i | x in sorted && x !in sorted[..n] && 0 <= i < n
      ensures InOrder(sorted[i], x, key, asc)
    {
      var j :| 0 <= j < |sorted| && sorted[j] == x;
    }
  }

  /** A stable sort leaves an already ordered sequence exactly as it is. */
  lemma {:induction false} SortSorted<T>(s: seq<T>, key: T -> real, asc: bool)
    requires SortedBy(s, key, asc)
    ensures Sort(s, key, asc) == s
    decreases |s|
  {
    if |s| > 0 {
      assert SortedBy(s[1..], key, asc);
      SortSorted(s[1..], key, asc);
      if |s| > 1 {
        assert InOrder(s[0], s[1], key, asc);
      }
      assert s == [s[0]] + s[1..];
    }
  }
}

=== FILE: tab_diagnostico.dfy ===
/**
 * The diagnostics tab (components/dashboard/painel/TabDiagnostico.tsx):
 * Meta statuses folded into four display statuses, the scatter series
 * grouped by that status, the x-axis maximum and the histogram colours.
 */
module TabDiagnostico {
  import opened Common
  import opened Text
  import opened Grouping
  import opened Diagnostico

  /** `STATUS_KEY`: the Meta statuses that have a display status. */
  const StatusKeys: map<string, string> := map[
    "ACTIVE" := "ACTIVE", "PAUSED" := "PAUSED", "IN_PROCESS" := "REVIEW",
    "WITH_ISSUES" := "ERROR", "DELETED" := "ERROR", "ARCHIVED" := "PAUSED",
    "UNKNOWN" := "PAUSED"]

  /** `STATUS_LABEL`, keyed by display status. */
  const StatusLabels: map<string, string> := map[
    "ACTIVE" := "Ativo", "PAUSED" := "Pausado", "REVIEW" := "Em análise", "ERROR" := "Com erro"]

  /** The fills the tab uses. */
  datatype Colour = Success | Amber | Cyan | Red | Teal | Muted

  /** `STATUS_COLOR`, keyed by display status. */
  const StatusColours: map<string, Colour> := map[
    "ACTIVE" := Success, "PAUSED" := Amber, "REVIEW" := Cyan, "ERROR" := Red]

  /**
   * `normalizeStatus`: the upper-cased status looked up in `STATUS_KEY`,
   * `PAUSED` for anything else. The result always has a label and a colour.
   */
  function NormalizeStatus(raw: string): (r: string)
    ensures r in StatusLabels && r in StatusColours
    ensures ToUpper(raw) in StatusKeys ==> r == StatusKeys[ToUpper(raw)]
    ensures ToUpper(raw) !in StatusKeys ==> r == "PAUSED"
  {
    var up := ToUpper(raw);
    if up in StatusKeys then StatusKeys[up] else "PAUSED"
  }

  /** The lookup ignores case: `active` and `Active` are both `ACTIVE`. */
  lemma NormalizeStatusIgnoresCase(raw: string)
    ensures NormalizeStatus(ToLower(raw)) == NormalizeStatus(raw)
  {
    ToUpperIgnoresLower(raw);
  }

  /** Only review and error states leave the paused/active pair, and only as named. */
  lemma NormalizeStatusCases(raw: string)
    ensures NormalizeStatus(raw) == "ACTIVE" <==> ToUpper(raw) == "ACTIVE"
    ensures NormalizeStatus(raw) == "REVIEW" <==> ToUpper(raw) == "IN_PROCESS"
    ensures NormalizeStatus(raw) == "ERROR" <==> ToUpper(raw) == "WITH_ISSUES" || ToUpper(raw) == "DELETED"
  {
  }

  /** The scatter series key of an item. */
  function StatusGroupOf(item: Item): string
  {
    NormalizeStatus(item.status)
  }

  /**
   * `grouped`: one series per display status, in order of first
   * appearance, each holding exactly the items with that status in input
   * order.
   */
  function ScatterGroups(items: seq<Item>): (g: seq<Group<string, Item>>)
    ensures NoDuplicates(Keys(g))
    ensures forall j :: 0 <= j < |g| ==> g[j].key in StatusLabels
    ensures forall j :: 0 <= j < |g| ==> g[j].members == Filter(items, HasKey(StatusGroupOf, g[j].key))
  {
    GroupByCorrect(items, StatusGroupOf);
    DedupProperties(Map(items, StatusGroupOf));
    var g := GroupBy(items, StatusGroupOf);
    var m := Map(items, StatusGroupOf);
    assert forall j :: 0 <= j < |g| ==> g[j].key == Keys(g)[j];
    forall j | 0 <= j < |g| ensures g[j].key in StatusLabels {
      assert Keys(g)[j] in m;
      var i :| 0 <= i < |m| && m[i] == g[j].key;
    }
    g
  }

  /** Every item lies in the series of its own status, and in no other. */
  lemma ScatterGroupsPartition(items: seq<Item>, i: nat)
    requires i < |items|
    ensures var g := ScatterGroups(items);
      && (exists j :: 0 <= j < |g| && g[j].key == StatusGroupOf(items[i]) && items[i] in g[j].members)
      && (forall j :: 0 <= j < |g| && items[i] in g[j].members ==> g[j].key == StatusGroupOf(items[i]))
  {
    var g := ScatterGroups(items);
    GroupByCorrect(items, StatusGroupOf);
    DedupProperties(Map(items, StatusGroupOf));
    assert Map(items, StatusGroupOf)[i] == StatusGroupOf(items[i]);
    var keys := Keys(g);
    assert StatusGroupOf(items[i]) in keys;
    var j :| 0 <= j < |keys| && keys[j] == StatusGroupOf(items[i]);
    assert HasKey(StatusGroupOf, g[j].key)(items[i]);
    assert items[i] in g[j].members;
  }

  function ItemSpend(item: Item): real { item.spend }

  /** `Math.max(...spends, 1)`: at least 1 and at least every spend, and one of them. */
  function MaxSpend(items: seq<Item>): (m: real)
    ensures m >= 1.0
    ensures forall i :: 0 <= i < |items| ==> items[i].spend <= m
    ensures m == 1.0 || exists i :: 0 <= i < |items| && items[i].spend == m
    decreases |items|
  {
    if |items| == 0 then 1.0
    else
      var last := items[|items| - 1];
      var m := MaxSpend(items[..|items| - 1]);
      if last.spend > m then last.spend else m
  }

  /** What the tab renders. */
  datatype View = EmptyState | Charts(showHistogram: bool)

  /** An empty list shows the empty state; the histogram is hidden in client mode or when it has no bins. */
  function ViewOf(items: seq<Item>, histogram: seq<Bin>, clientMode: bool): (v: View)
    ensures v == EmptyState <==> |items| == 0
    ensures v.Charts? ==> (v.showHistogram <==> !clientMode && |histogram| > 0)
  {
    if |items| == 0 then EmptyState else Charts(!clientMode && |histogram| > 0)
  }

  /** `entityLabel`. */
  function EntityLabel(level: Level): (s: string)
    ensures level == AdLevel ==> s == "Anúncio"
    ensures level == CampaignLevel ==> s == "Campanha"
  {
    if level == AdLevel then "Anúncio" else "Campanha"
  }

  /** The fill of a histogram bar, chosen by substrings of its range label. */
  function BinColour(range: string): (c: Colour)
    ensures Contains(range, "≤") || Contains(range, "10–20") ==> c == Success
    ensures !Contains(range, "≤") && !Contains(range, "10–20") && Contains(range, "> R$40") ==> c == Red
    ensures c == Success || c == Red || c == Teal
  {
    if Contains(range, "≤") || Contains(range, "10–20") then Success
    else if Contains(range, "> R$40") then Red
    else Teal
  }

  /** A string that lacks the first character of `sub` does not contain `sub`. */
  lemma NotContainsFirst(s: string, sub: string)
    requires |sub| > 0 && forall i :: 0 <= i < |s| ==> s[i] != sub[0]
    ensures !Contains(s, sub)
  {
    ContainsMeansOccurs(s, sub);
  }

  /** A range label with none of the three markers is teal. */
  lemma TealWithoutMarkers(range: string)
    requires forall i :: 0 <= i < |range| ==> range[i] != '≤' && range[i] != '1' && range[i] != '>'
    ensures BinColour(range) == Teal
  {
    NotContainsFirst(range, "≤");
    NotContainsFirst(range, "10–20");
    NotContainsFirst(range, "> R$40");
  }

  /**
   * Over the five buckets of the diagnostics histogram: up to R$20 is
   * green, above R$40 red, the two buckets in between teal.
   */
  lemma HistogramColours()
    ensures BinColour(Ranges[0]) == Success
    ensures BinColour(Ranges[1]) == Success
    ensures BinColour(Ranges[2]) == Teal
    ensures BinColour(Ranges[3]) == Teal
    ensures BinColour(Ranges[4]) == Red
  {
    FirstBinGreen();
    SecondBinGreen();
    MiddleBinTeal(2);
    MiddleBinTeal(3);
    LastBinRed();
  }

  lemma MiddleBinTeal(k: nat)
    requires k == 2 || k == 3
    ensures BinColour(Ranges[k]) == Teal
  {
    var r := Ranges[k];
    assert r[..2] == "R$" && r[2] != '1' && r[4] == '–';
    TealWithoutMarkers(r);
  }

  lemma FirstBinGreen()
    ensures BinColour(Ranges[0]) == Success
  {
    assert StartsWith(Ranges[0], "≤");
  }

  lemma SecondBinGreen()
    ensures BinColour(Ranges[1]) == Success
  {
    var r := Ranges[1];
    assert r[2..7] == "10–20";
    assert OccursAt(r, "10–20", 2);
    ContainsMeansOccurs(r, "10–20");
  }

  lemma LastBinRed()
    ensures BinColour(Ranges[4]) == Red
  {
    var r := Ranges[4];
    NotContainsFirst(r, "≤");
    NotContainsFirst(r, "10–20");
    assert StartsWith(r, "> R$40");
  }
}

/**
 * The diagnostics block (components/dashboard/DiagnosticoBlock.tsx): its
 * own copy of the status tables, the URL dates, the load guard and its
 * state, and the item drawer's labels.
 */
module DiagnosticoBlock {
  import opened Common
  import opened Text
  import opened Diagnostico
  import TabDiagnostico
  import EntityDetailModal

  /** The block's copy of `STATUS_KEY`. */
  const StatusKeys: map<string, string> := map[
    "ACTIVE" := "ACTIVE", "PAUSED" := "PAUSED", "IN_PROCESS" := "REVIEW",
    "WITH_ISSUES" := "ERROR", "DELETED" := "ERROR", "ARCHIVED" := "PAUSED",
    "UNKNOWN" := "PAUSED"]

  /** The block's copy of `STATUS_LABEL`. */
  const StatusLabels: map<string, string> := map[
    "ACTIVE" := "Ativo", "PAUSED" := "Pausado", "REVIEW" := "Em análise", "ERROR" := "Com erro"]

  /** The block's `normalizeStatus`. */
  function NormalizeStatus(raw: string): (r: string)
    ensures r in StatusLabels
    ensures ToUpper(raw) !in StatusKeys ==> r == "PAUSED"
  {
    var up := ToUpper(raw);
    if up in StatusKeys then StatusKeys[up] else "PAUSED"
  }

  /** The two copies agree on every status, and so do their labels. */
  lemma NormalizeStatusAgrees(raw: string)
    ensures NormalizeStatus(raw) == TabDiagnostico.NormalizeStatus(raw)
    ensures StatusLabels[NormalizeStatus(raw)] == TabDiagnostico.StatusLabels[TabDiagnostico.NormalizeStatus(raw)]
  {
    assert StatusKeys == TabDiagnostico.StatusKeys;
    assert StatusLabels == TabDiagnostico.StatusLabels;
  }

  /** `urlFrom || defaults.from`: a missing or empty parameter takes the default. */
  function BlockDate(param: Option<string>, fallback: string): (d: string)
    ensures param.None? || param.value == "" ==> d == fallback
    ensures param.Some? && param.value != "" ==> d == param.value
  {
    if param.Some? && param.value != "" then param.value else fallback
  }

  /**
   * The block and the detail modal read the same URL dates the same way,
   * except for an empty parameter, which the modal keeps and the block
   * replaces by the default.
   */
  lemma DateDefaultingDiffers(param: Option<string>, fallback: string)
    ensures BlockDate(param, fallback) == EntityDetailModal.ModalDate(param, fallback)
      <==> param.None? || param.value != "" || fallback == ""
  {
  }

  /** The call `load` makes. */
  datatype Request = Request(accountId: string, dateFrom: string, dateTo: string, level: Level)

  /** `load`: nothing without an account id, otherwise a request for the chosen dates and level. */
  function LoadRequest(accountId: string, from: Option<string>, to: Option<string>,
                       defaults: (string, string), level: Level): (r: Option<Request>)
    ensures r.None? <==> accountId == ""
    ensures r.Some? ==> r.value.accountId == accountId && r.value.level == level
    ensures r.Some? ==> r.value.dateFrom == BlockDate(from, defaults.0) && r.value.dateTo == BlockDate(to, defaults.1)
  {
    if accountId == "" then None
    else Some(Request(accountId, BlockDate(from, defaults.0), BlockDate(to, defaults.1), level))
  }

  /** The block's state. */
  datatype State = State(data: DiagnosticoData, isLoading: bool, error: Option<string>)

  /** How a `getDiagnosticoData` call ended. */
  datatype Outcome = Fetched(data: DiagnosticoData) | Threw

  const LoadError: string := "Erro ao carregar dados. Tente novamente."

  /**
   * The state after a load settles: loading is off; a success replaces the
   * data and clears the error, a failure keeps the previous data and sets
   * the fixed message.
   */
  function AfterLoad(prev: State, outcome: Outcome): (s: State)
    ensures !s.isLoading
    ensures s.error.None? <==> outcome.Fetched?
    ensures outcome.Fetched? ==> s.data == outcome.data
    ensures outcome.Threw? ==> s.data == prev.data && s.error == Some(LoadError)
  {
    match outcome
    case Fetched(d) => State(d, false, None)
    case Threw => State(prev.data, false, Some(LoadError))
  }

  /** What the content area shows. */
  datatype Content = Skeleton | ErrorPanel(message: string) | Tab(items: seq<Item>, histogram: seq<Bin>)

  function ContentOf(s: State): (c: Content)
    ensures s.isLoading <==> c == Skeleton
    ensures !s.isLoading && s.error.Some? ==> c == ErrorPanel(s.error.value)
    ensures c.Tab? ==> c.items == s.data.items && c.histogram == s.data.histogram
  {
    if s.isLoading then Skeleton
    else if s.error.Some? then ErrorPanel(s.error.value)
    else Tab(s.data.items, s.data.histogram)
  }

  /** A failed reload shows the error, never stale data. */
  lemma FailedLoadShowsError(prev: State)
    ensures ContentOf(AfterLoad(prev, Threw)) == ErrorPanel(LoadError)
  {
  }

  /** The drawer's `typeLabel`. */
  function TypeLabel(item: Item): (s: string)
    ensures s == "Anúncio" <==> item.level == AdLevel
    ensures s == "Anúncio" || s == "Campanha"
  {
    if item.level == AdLevel then "Anúncio" else "Campanha"
  }

  /** The drawer and the tab name an item's level the same way. */
  lemma TypeLabelAgrees(item: Item)
    ensures TypeLabel(item) == TabDiagnostico.EntityLabel(item.level)
  {
  }

  predicate Truthy(o: Option<string>) { o.Some? && o.value != "" }

  /** The campaign/ad set box: only for ads with at least one non-empty name. */
  function HierarchyShown(item: Item): (b: bool)
    ensures b ==> item.level == AdLevel
    ensures b <==> item.level == AdLevel && (Truthy(item.campaignName) || Truthy(item.adSetName))
  {
    item.level == AdLevel && (Truthy(item.campaignName) || Truthy(item.adSetName))
  }

  /** `CPL_TARGET` */
  const CplTarget: real := 20.0

  /** The over-target warning shows exactly when the item's CPL exceeds the target. */
  function CplWarning(item: Item): (b: bool)
    ensures b <==> item.cpl > CplTarget
  {
    item.cpl > CplTarget
  }
}

=== FILE: tab_distribuicao.dfy ===
/**
 * The distribution tab (components/dashboard/painel/TabDistribuicao.tsx):
 * the top-ten ranking re-sorted by the chosen metric, the bar colour, the
 * name truncation of the axis and the donut-or-bars choice.
 */
module TabDistribuicao {
  import opened Common
  import opened Sorting

  /** `Status` of the demo data. */
  datatype Status = Active | Paused | Review | Rejected | Error

  /** `STATUS_LABEL` */
  function StatusLabel(s: Status): (l: string)
    ensures s == Active ==> l == "Ativo"
    ensures s == Paused ==> l == "Pausado"
    ensures s == Review ==> l == "Em análise"
    ensures s == Rejected ==> l == "Rejeitado"
    ensures s == Error ==> l == "Com erro"
  {
    match s
    case Active => "Ativo"
    case Paused => "Pausado"
    case Review => "Em análise"
    case Rejected => "Rejeitado"
    case Error => "Com erro"
  }

  /** `RankedItem` */
  datatype RankedItem = RankedItem(id: string, name: string, status: Status, spend: real, results: int, cpl: real)

  /** The ranking selector. */
  datatype SortBy = BySpend | ByCpl | ByResults

  function KeyOf(sortBy: SortBy): RankedItem -> real
  {
    match sortBy
    case BySpend => (i: RankedItem) => i.spend
    case ByCpl => (i: RankedItem) => i.cpl
    case ByResults => (i: RankedItem) => i.results as real
  }

  /**
   * `sorted`: a sorted copy of the items, cheapest CPL first when CPL is
   * chosen, largest value first for spend and results; ties keep their order.
   */
  function Ranking(items: seq<RankedItem>, sortBy: SortBy): (r: seq<RankedItem>)
    ensures multiset(r) == multiset(items) && |r| == |items|
    ensures sortBy == ByCpl ==> forall i, j :: 0 <= i < j < |r| ==> r[i].cpl <= r[j].cpl
    ensures sortBy == BySpend ==> forall i, j :: 0 <= i < j < |r| ==> r[i].spend >= r[j].spend
    ensures sortBy == ByResults ==> forall i, j :: 0 <= i < j < |r| ==> r[i].results >= r[j].results
  {
    var r := Sort(items, KeyOf(sortBy), sortBy == ByCpl);
    assert forall i, j :: 0 <= i < j < |r| ==> InOrder(r[i], r[j], KeyOf(sortBy), sortBy == ByCpl);
    r
  }

  /** The first bar is the best item under the chosen metric. */
  lemma RankingHead(items: seq<RankedItem>, sortBy: SortBy, k: nat)
    requires k < |items|
    ensures var r := Ranking(items, sortBy);
      && |r| > 0
      && (sortBy == ByCpl ==> r[0].cpl <= items[k].cpl)
      && (sortBy == BySpend ==> r[0].spend >= items[k].spend)
      && (sortBy == ByResults ==> r[0].results >= items[k].results)
  {
    var r := Ranking(items, sortBy);
    assert items[k] in multiset(items);
    assert items[k] in multiset(r);
    var j :| 0 <= j < |r| && r[j] == items[k];
  }

  /** `top10Items`: the ten largest spends, largest first. */
  function TopTen(all: seq<RankedItem>): (r: seq<RankedItem>)
    ensures |r| == if |all| < 10 then |all| else 10
    ensures multiset(r) <= multiset(all)
    ensures SortedBy(r, KeyOf(BySpend), false)
    ensures forall x, i :: x in all && x !in r && 0 <= i < |r| ==> x.spend <= r[i].spend
  {
    var s := Sort(all, KeyOf(BySpend), false);
    var n := if |s| < 10 then |s| else 10;
    TopPrefix(all, s, n);
    s[..n]
  }

  /** The first `n` items of the spend-sorted copy are sorted, drawn from the items, and the largest. */
  lemma TopPrefix(all: seq<RankedItem>, s: seq<RankedItem>, n: nat)
    requires multiset(s) == multiset(all) && SortedBy(s, KeyOf(BySpend), false) && n <= |s|
    ensures multiset(s[..n]) <= multiset(all)
    ensures SortedBy(s[..n], KeyOf(BySpend), false)
    ensures forall x, i :: x in all && x !in s[..n] && 0 <= i < n ==> x.spend <= s[..n][i].spend
  {
    assert s == s[..n] + s[n..];
    PrefixIsBest(s, n, KeyOf(BySpend), false);
    forall x, i | x in all && x !in s[..n] && 0 <= i < n ensures x.spend <= s[..n][i].spend {
      assert x in multiset(s);
      assert InOrder(s[i], x, KeyOf(BySpend), false);
    }
  }

  /** Ranking the top ten by spend shows them in the order they already have. */
  lemma RankingBySpendKeepsTopTen(all: seq<RankedItem>)
    ensures Ranking(TopTen(all), BySpend) == TopTen(all)
  {
    SortSorted(TopTen(all), KeyOf(BySpend), false);
  }

  /** A bar is red exactly when CPL is the selector and the item's CPL is above 20. */
  function BarRed(sortBy: SortBy, item: RankedItem): (b: bool)
    ensures b <==> sortBy == ByCpl && item.cpl > 20.0
  {
    sortBy == ByCpl && item.cpl > 20.0
  }

  /** The axis label: names longer than 18 characters keep 16 and an ellipsis. */
  function TruncateName(name: string): (r: string)
    ensures |name| <= 18 ==> r == name
    ensures |name| > 18 ==> |r| == 17 && r[..16] == name[..16] && r[16] == '…'
    ensures |r| <= 18
  {
    if |name| > 18 then name[..16] + "…" else name
  }

  /** A slice of the status chart. */
  datatype DonutSlice = DonutSlice(name: string, value: int)

  predicate NonEmptySlice(s: DonutSlice) { s.value > 0 }

  /** `statusDonut`: the statuses with at least one item. */
  function DonutSlices(all: seq<DonutSlice>): (r: seq<DonutSlice>)
    ensures |r| <= |all|
    ensures forall i :: 0 <= i < |r| ==> r[i].value > 0
  {
    Filter(all, NonEmptySlice)
  }

  /** The donut keeps every slice with a positive count, in status order, and no other. */
  lemma DonutSlicesSelects(all: seq<DonutSlice>) returns (idx: seq<nat>)
    ensures Selects(DonutSlices(all), all, NonEmptySlice, idx)
  {
    idx := FilterSelects(all, NonEmptySlice);
  }

  /** The donut is drawn for at most six slices, bars otherwise. */
  function ShowDonut(slices: seq<DonutSlice>): (b: bool)
    ensures b <==> |slices| <= 6
  {
    |slices| <= 6
  }

  /** With the five statuses the chart is always a donut. */
  lemma FiveStatusesGiveDonut(all: seq<DonutSlice>)
    requires |all| == 5
    ensures ShowDonut(DonutSlices(all))
  {
  }
}

=== FILE: tables.dfy ===
/**
 * Paging shared by the two data tables: `sorted.slice(page * size,
 * (page + 1) * size)` and `Math.ceil(sorted.length / size)`.
 */
module TablePaging {
  import opened Common

  /** The rows of page `page` (counting from 0). */
  function Paged<T>(sorted: seq<T>, page: nat, size: nat): (r: seq<T>)
    requires size > 0
    ensures |r| <= size
    ensures page * size <= |sorted| ==> page * size + |r| <= |sorted|
    ensures page * size <= |sorted| ==> forall j :: 0 <= j < |r| ==> r[j] == sorted[page * size + j]
    ensures page * size >= |sorted| ==> r == []
  {
    Slice(sorted, page * size, page * size + size)
  }

  /** `Math.ceil(n / size)`: the fewest pages of `size` rows that hold `n` rows. */
  function TotalPages(n: nat, size: nat): (pages: nat)
    requires size > 0
    ensures pages * size >= n
    ensures pages > 0 ==> (pages - 1) * size < n
  {
    (n + size - 1) / size
  }

  /** Every row sits on exactly one existing page: row `i` is entry `i % size` of page `i / size`. */
  lemma PageOf<T>(sorted: seq<T>, i: nat, size: nat)
    requires size > 0 && i < |sorted|
    ensures i / size < TotalPages(|sorted|, size)
    ensures i % size < |Paged(sorted, i / size, size)|
    ensures Paged(sorted, i / size, size)[i % size] == sorted[i]
  {
    var p, r := i / size, i % size;
    DivMod(i, size);
    PageBelow(p, TotalPages(|sorted|, size), size, i);
    PageEntry(sorted, p, r, size);
  }

  /** Euclidean division by a positive size. */
  lemma DivMod(i: nat, size: nat)
    requires size > 0
    ensures (i / size) * size + i % size == i && i % size < size
  {
  }

  /** Entry `r` of page `p` is row `p * size + r`. */
  lemma PageEntry<T>(sorted: seq<T>, p: nat, r: nat, size: nat)
    requires r < size && p * size + r < |sorted|
    ensures r < |Paged(sorted, p, size)| && Paged(sorted, p, size)[r] == sorted[p * size + r]
  {
    var lo := p * size;
    var hi := if lo + size <= |sorted| then lo + size else |sorted|;
    assert Paged(sorted, p, size) == sorted[lo..hi];
  }

  /** A row below the last page boundary lies on a page below the count. */
  lemma PageBelow(p: nat, pages: nat, size: nat, i: nat)
    requires p * size <= i < pages * size
    ensures p < pages
  {
    if pages <= p {
      MulMono(pages, p, size);
    }
  }

  lemma MulMono(a: nat, b: nat, c: nat)
    requires a <= b
    ensures a * c <= b * c
  {
  }
}

/**
 * The entity table of the manager pages
 * (components/dashboard/EntityManagerTable.tsx): sorting by a column,
 * 15-row pages, row selection, and the choice of what to show.
 */
module EntityManagerTable {
  import opened Common
  import opened Sorting
  import opened TablePaging

  /** `EntityManagerRow`; absent budgets are `None`. */
  datatype Row = Row(
    id: string, name: string, status: string,
    dailyBudget: Option<real>, lifetimeBudget: Option<real>,
    spend: real, results: int, costPerResult: real,
    impressions: int, reach: int, frequency: real, ctr: real, cpm: real)

  /** The numeric columns a header can sort by; `DailyBudget` is the `Orçamento` header. */
  datatype SortKey = DailyBudget | Spend | Results | CostPerResult | Impressions | Reach | Frequency | Ctr | Cpm

  /** The sort value of a column; a missing daily budget sorts as 0. */
  function KeyOf(key: SortKey): Row -> real
  {
    (r: Row) =>
      match key
      case DailyBudget => r.dailyBudget.GetOr(0.0)
      case Spend => r.spend
      case Results => r.results as real
      case CostPerResult => r.costPerResult
      case Impressions => r.impressions as real
      case Reach => r.reach as real
      case Frequency => r.frequency
      case Ctr => r.ctr
      case Cpm => r.cpm
  }

  /** Sort column, direction and page; the table opens on spend, descending, page 0. */
  datatype SortState = SortState(key: SortKey, asc: bool, page: nat)

  const InitialSort := SortState(Spend, false, 0)

  /** `sorted`: the rows ordered by the chosen column, ascending or descending. */
  function SortedRows(rows: seq<Row>, s: SortState): (r: seq<Row>)
    ensures |r| == |rows| && multiset(r) == multiset(rows)
    ensures forall i, j :: 0 <= i < j < |r| ==>
      (if s.asc then KeyOf(s.key)(r[i]) <= KeyOf(s.key)(r[j]) else KeyOf(s.key)(r[i]) >= KeyOf(s.key)(r[j]))
  {
    var r := Sort(rows, KeyOf(s.key), s.asc);
    assert forall i, j :: 0 <= i < j < |r| ==> InOrder(r[i], r[j], KeyOf(s.key), s.asc);
    r
  }

  /** `paged`: at most 15 sorted rows starting at `page * 15`. */
  function PagedRows(rows: seq<Row>, s: SortState): (r: seq<Row>)
    ensures |r| <= 15
    ensures s.page * 15 <= |rows| ==> s.page * 15 + |r| <= |rows|
    ensures s.page * 15 <= |rows| ==> forall j :: 0 <= j < |r| ==> r[j] == SortedRows(rows, s)[s.page * 15 + j]
  {
    Paged(SortedRows(rows, s), s.page, 15)
  }

  /** `toggleSort(key)`: the same column flips direction, a new one sorts descending; back to page 0 either way. */
  function ToggleSort(s: SortState, key: SortKey): (r: SortState)
    ensures r.key == key && r.page == 0
    ensures key == s.key ==> r.asc == !s.asc
    ensures key != s.key ==> !r.asc
  {
    if s.key == key then SortState(key, !s.asc, 0) else SortState(key, false, 0)
  }

  /** Clicking the same header twice restores the direction. */
  lemma ToggleSortTwice(s: SortState)
    ensures ToggleSort(ToggleSort(s, s.key), s.key) == s.(page := 0)
  {
  }

  /** `toggleRow(id)`: only `id`'s membership changes. */
  function ToggleRow(selected: set<string>, id: string): (r: set<string>)
    ensures id in r <==> id !in selected
    ensures forall x :: x != id ==> (x in r <==> x in selected)
  {
    if id in selected then selected - {id} else selected + {id}
  }

  /** Toggling a row twice gives back the selection. */
  lemma ToggleRowTwice(selected: set<string>, id: string)
    ensures ToggleRow(ToggleRow(selected, id), id) == selected
  {
  }

  /** The ids of the rows on the page. */
  function PageIds(paged: seq<Row>): (r: set<string>)
    ensures forall i :: 0 <= i < |paged| ==> paged[i].id in r
    ensures forall x :: x in r ==> exists i :: 0 <= i < |paged| && paged[i].id == x
  {
    set i | 0 <= i < |paged| :: paged[i].id
  }

  /** The header checkbox: ticked when the page is non-empty and every row on it is selected. */
  predicate HeaderChecked(selected: set<string>, paged: seq<Row>)
  {
    |paged| > 0 && forall i :: 0 <= i < |paged| ==> paged[i].id in selected
  }

  /** `toggleAll` as written: compares the selection's size with the page length. */
  function ToggleAllAsWritten(selected: set<string>, paged: seq<Row>): (r: set<string>)
    ensures |selected| == |paged| ==> r == {}
    ensures |selected| != |paged| ==> r == PageIds(paged)
  {
    if |selected| == |paged| then {} else PageIds(paged)
  }

  /**
   * With one row selected on another page and one unselected row on this
   * page, the header is unticked, yet clicking it clears the selection
   * instead of selecting the page.
   */
  lemma ToggleAllAsWrittenMisfires()
    ensures var paged := [Row("b", "", "", None, None, 0.0, 0, 0.0, 0, 0, 0.0, 0.0, 0.0)];
      && !HeaderChecked({"a"}, paged)
      && ToggleAllAsWritten({"a"}, paged) == {}
      && !HeaderChecked(ToggleAllAsWritten({"a"}, paged), paged)
  {
    var paged := [Row("b", "", "", None, None, 0.0, 0, 0.0, 0, 0, 0.0, 0.0, 0.0)];
    assert paged[0].id !in {"a"};
  }

  /** `toggleAll` keyed on the header's own state: a ticked header clears, an unticked one selects the page. */
  function ToggleAll(selected: set<string>, paged: seq<Row>): (r: set<string>)
    ensures HeaderChecked(selected, paged) ==> r == {}
    ensures !HeaderChecked(selected, paged) ==> r == PageIds(paged)
  {
    if HeaderChecked(selected, paged) then {} else PageIds(paged)
  }

  /** Clicking the header checkbox always flips it on a non-empty page. */
  lemma ToggleAllFlipsHeader(selected: set<string>, paged: seq<Row>)
    requires |paged| > 0
    ensures HeaderChecked(ToggleAll(selected, paged), paged) == !HeaderChecked(selected, paged)
  {
    if HeaderChecked(selected, paged) {
      assert paged[0].id !in ToggleAll(selected, paged);
    }
  }

  /** `selectedRows`: the rows whose id is selected, in table order. */
  function SelectedRows(rows: seq<Row>, selected: set<string>): (r: seq<Row>)
    ensures forall i :: 0 <= i < |r| ==> r[i] in rows && r[i].id in selected
    ensures forall i :: 0 <= i < |rows| && rows[i].id in selected ==> rows[i] in r
  {
    Filter(rows, (row: Row) => row.id in selected)
  }

  /**
   * `selectedRows` is `rows.filter(...)`: every row with a selected id,
   * repeats included, in table order, and nothing else, so
   * `selectedRows[0]` is the first selected row of the table.
   */
  lemma SelectedRowsSelects(rows: seq<Row>, selected: set<string>) returns (idx: seq<nat>)
    ensures Selects(SelectedRows(rows, selected), rows, (row: Row) => row.id in selected, idx)
  {
    idx := FilterSelects(rows, (row: Row) => row.id in selected);
  }

  /** The selection banner: singular exactly for one selected item. */
  function SelectionNoun(count: nat): (r: string)
    ensures r == "item selecionado" <==> count == 1
    ensures r == "itens selecionados" <==> count != 1
  {
    if count == 1 then "item selecionado" else "itens selecionados"
  }

  /** What the table renders. */
  datatype View = LoadingView | RateLimitView(countdown: bool) | ErrorView(message: string) | TableView

  /**
   * Loading wins; a non-empty error is the rate-limit view only when it is
   * exactly `RATE_LIMIT`, with a countdown while `retryIn > 0`; otherwise
   * the table.
   */
  function ViewOf(isLoading: bool, error: Option<string>, retryIn: int): (v: View)
    ensures isLoading ==> v == LoadingView
    ensures v.RateLimitView? <==> !isLoading && error == Some("RATE_LIMIT")
    ensures v.RateLimitView? ==> (v.countdown <==> retryIn > 0)
    ensures v.ErrorView? ==> error == Some(v.message) && v.message != "" && v.message != "RATE_LIMIT"
    ensures v == TableView <==> !isLoading && (error.None? || error == Some(""))
  {
    if isLoading then LoadingView
    else match error
      case None => TableView
      case Some(e) =>
        if e == "" then TableView
        else if e == "RATE_LIMIT" then RateLimitView(retryIn > 0)
        else ErrorView(e)
  }

  /** The budget cell: daily budget, else lifetime budget, else a dash. */
  datatype BudgetText = PerDay(amount: real) | Total(amount: real) | NoBudget

  function BudgetTextOf(daily: Option<real>, lifetime: Option<real>): (b: BudgetText)
    ensures daily.GetOr(0.0) > 0.0 ==> b == PerDay(daily.GetOr(0.0))
    ensures daily.GetOr(0.0) <= 0.0 && lifetime.GetOr(0.0) > 0.0 ==> b == Total(lifetime.GetOr(0.0))
    ensures b == NoBudget <==> daily.GetOr(0.0) <= 0.0 && lifetime.GetOr(0.0) <= 0.0
    ensures !b.NoBudget? ==> b.amount > 0.0
  {
    if daily.GetOr(0.0) > 0.0 then PerDay(daily.GetOr(0.0))
    else if lifetime.GetOr(0.0) > 0.0 then Total(lifetime.GetOr(0.0))
    else NoBudget
  }
}

/**
 * The mock-data table (components/dashboard/DataTable.tsx): the same sort
 * and paging as the entity table, but 10 rows per page and a sort change
 * that keeps the current page.
 */
module DataTable {
  import opened Sorting
  import opened TablePaging

  /** `EntityRow` */
  datatype Row = Row(
    id: string, name: string, status: string, objective: string,
    budget: real, spend: real, results: int, costPerResult: real,
    reach: int, frequency: real, impressions: int)

  datatype SortKey = Budget | Spend | Results | CostPerResult | Reach | Frequency | Impressions

  function KeyOf(key: SortKey): Row -> real
  {
    (r: Row) =>
      match key
      case Budget => r.budget
      case Spend => r.spend
      case Results => r.results as real
      case CostPerResult => r.costPerResult
      case Reach => r.reach as real
      case Frequency => r.frequency
      case Impressions => r.impressions as real
  }

  datatype SortState = SortState(key: SortKey, asc: bool, page: nat)

  function SortedRows(rows: seq<Row>, s: SortState): (r: seq<Row>)
    ensures |r| == |rows| && multiset(r) == multiset(rows)
    ensures forall i, j :: 0 <= i < j < |r| ==>
      (if s.asc then KeyOf(s.key)(r[i]) <= KeyOf(s.key)(r[j]) else KeyOf(s.key)(r[i]) >= KeyOf(s.key)(r[j]))
  {
    var r := Sort(rows, KeyOf(s.key), s.asc);
    assert forall i, j :: 0 <= i < j < |r| ==> InOrder(r[i], r[j], KeyOf(s.key), s.asc);
    r
  }

  /** `paged`: at most 10 sorted rows starting at `page * 10`. */
  function PagedRows(rows: seq<Row>, s: SortState): (r: seq<Row>)
    ensures |r| <= 10
    ensures s.page * 10 <= |rows| ==> s.page * 10 + |r| <= |rows|
    ensures s.page * 10 <= |rows| ==> forall j :: 0 <= j < |r| ==> r[j] == SortedRows(rows, s)[s.page * 10 + j]
  {
    Paged(SortedRows(rows, s), s.page, 10)
  }

  /** `toggleSort(key)`: as in the entity table, but the page is left as it is. */
  function ToggleSort(s: SortState, key: SortKey): (r: SortState)
    ensures r.key == key && r.page == s.page
    ensures key == s.key ==> r.asc == !s.asc
    ensures key != s.key ==> !r.asc
  {
    if s.key == key then s.(asc := !s.asc) else s.(key := key, asc := false)
  }
}

=== FILE: tendencia.dfy ===
/**
 * The trend tab (components/dashboard/painel/TabTendencia.tsx): a daily
 * series is rolled up into seven-day weeks, and the summary cards show the
 * totals and the average cost per result of whichever series is shown.
 */
module Tendencia {
  import opened Common
  import opened Text
  import opened MetaActions

  /** `DailyEnriched`: a day (or week) of the series, with the previous period's values. */
  datatype Day = Day(
    date: string, spend: real, results: int, cpl: real,
    prevSpend: real, prevResults: int, prevCpl: real)

  function DaySpend(d: Day): real { d.spend }
  function DayResults(d: Day): int { d.results }

  /** `Math.round(x * 100) / 100` in exact arithmetic: the nearest cent, halves rounded up. */
  function RoundCents(x: real): (r: real)
    ensures (r * 100.0).Floor as real == r * 100.0
    ensures -0.005 < r - x <= 0.005
  {
    var c := (x * 100.0 + 0.5).Floor;
    c as real / 100.0
  }

  /** The label of week `k` (counting from 0): `Sem 1`, `Sem 2`, … */
  function WeekLabel(k: nat): string
  {
    "Sem " + NatToString(k + 1)
  }

  /** Different weeks get different labels. */
  lemma WeekLabelsDistinct(j: nat, k: nat)
    requires j != k
    ensures WeekLabel(j) != WeekLabel(k)
  {
    if WeekLabel(j) == WeekLabel(k) {
      assert WeekLabel(j)[4..] == NatToString(j + 1);
      assert WeekLabel(k)[4..] == NatToString(k + 1);
      NatToStringInjective(j + 1, k + 1);
    }
  }

  /** The days of week `k`: `data.slice(7k, min(7k + 7, n))`. */
  function Chunk(data: seq<Day>, k: nat): (c: seq<Day>)
    requires 7 * k < |data|
    ensures 1 <= |c| <= 7
  {
    var hi := if 7 * k + 7 <= |data| then 7 * k + 7 else |data|;
    data[7 * k..hi]
  }

  /** One week built from its chunk; spend and cpl are rounded to cents, the prev* fields are 0. */
  function Week(chunk: seq<Day>, k: nat): (w: Day)
    ensures w.date == WeekLabel(k)
    ensures w.results == SumInt(chunk, DayResults)
    ensures -0.005 < w.spend - Sum(chunk, DaySpend) <= 0.005
    ensures w.results <= 0 ==> w.cpl == 0.0
    ensures w.prevSpend == 0.0 && w.prevResults == 0 && w.prevCpl == 0.0
  {
    var spend := Sum(chunk, DaySpend);
    var results := SumInt(chunk, DayResults);
    Day(WeekLabel(k), RoundCents(spend), results,
      if results > 0 then RoundCents(spend / results as real) else 0.0, 0.0, 0, 0.0)
  }

  /**
   * `toWeekly`: `ceil(n / 7)` weeks; week `k` sums days `7k` up to
   * `min(7k + 7, n) - 1`, so the last week may be shorter; no result is
   * lost or counted twice.
   */
  method ToWeekly(data: seq<Day>) returns (weeks: seq<Day>)
    ensures |weeks| == 0 <==> |data| == 0
    ensures |weeks| > 0 ==> 7 * (|weeks| - 1) < |data| <= 7 * |weeks|
    ensures forall k :: 0 <= k < |weeks| ==> 7 * k < |data| && weeks[k] == Week(Chunk(data, k), k)
    ensures SumInt(weeks, DayResults) == SumInt(data, DayResults)
  {
    weeks := RollUp(data, Week);
  }

  /**
   * The loop of `toWeekly` for any week builder that keeps the chunk's
   * results: the rounding in `Week` plays no part in the chunking.
   */
  method RollUp(data: seq<Day>, build: (seq<Day>, nat) -> Day) returns (weeks: seq<Day>)
    requires forall c: seq<Day>, k: nat :: build(c, k).results == SumInt(c, DayResults)
    ensures |weeks| == 0 <==> |data| == 0
    ensures |weeks| > 0 ==> 7 * (|weeks| - 1) < |data| <= 7 * |weeks|
    ensures forall k :: 0 <= k < |weeks| ==> 7 * k < |data| && weeks[k] == build(Chunk(data, k), k)
    ensures SumInt(weeks, DayResults) == SumInt(data, DayResults)
  {
    weeks := [];
    var i := 0;
    var covered := 0;
    while i < |data|
      invariant i == 7 * |weeks|
      invariant |weeks| > 0 ==> 7 * (|weeks| - 1) < |data|
      invariant 0 <= covered <= |data|
      invariant covered == i || (covered == |data| && i > |data|)
      invariant forall k :: 0 <= k < |weeks| ==> 7 * k < |data| && weeks[k] == build(Chunk(data, k), k)
      invariant SumInt(weeks, DayResults) == SumInt(data[..covered], DayResults)
    {
      var hi := if i + 7 <= |data| then i + 7 else |data|;
      var chunk := data[i..hi];
      assert chunk == Chunk(data, |weeks|);
      var w := build(chunk, |weeks|);
      AppendWeek(data, weeks, i, hi, w);
      forall k | 0 <= k <= |weeks| ensures 7 * k < |data| && (weeks + [w])[k] == build(Chunk(data, k), k) {
        if k < |weeks| {
          assert (weeks + [w])[k] == weeks[k];
        }
      }
      weeks := weeks + [w];
      i := i + 7;
      covered := hi;
    }
    assert data[..covered] == data;
  }

  /** One step of `toWeekly`: appending the week of days `i..hi` extends the result sum by that chunk. */
  lemma AppendWeek(data: seq<Day>, weeks: seq<Day>, i: nat, hi: nat, w: Day)
    requires i <= hi <= |data|
    requires w.results == SumInt(data[i..hi], DayResults)
    requires SumInt(weeks, DayResults) == SumInt(data[..i], DayResults)
    ensures SumInt(weeks + [w], DayResults) == SumInt(data[..hi], DayResults)
  {
    assert data[..hi] == data[..i] + data[i..hi];
    SumIntConcat(data[..i], data[i..hi], DayResults);
    SumIntConcat(weeks, [w], DayResults);
    assert [w][..0] == [];
  }

  /** The summary cards. */
  datatype Summary = Summary(totalSpend: real, totalResults: int, avgCpl: real)

  /** Totals over the shown series and `avgCpl = totalSpend / totalResults`, or 0 without results. */
  function Summarize(data: seq<Day>): (s: Summary)
    ensures s.totalSpend == Sum(data, DaySpend) && s.totalResults == SumInt(data, DayResults)
    ensures s.totalResults > 0 ==> s.avgCpl * s.totalResults as real == s.totalSpend
    ensures s.totalResults <= 0 ==> s.avgCpl == 0.0
  {
    var spend := Sum(data, DaySpend);
    var results := SumInt(data, DayResults);
    Summary(spend, results, CostPerResult(spend, results))
  }

  /** The results card shows the same total whether the granularity is daily or weekly. */
  method SummaryByGranularity(data: seq<Day>, weekly: bool) returns (s: Summary)
    ensures s.totalResults == SumInt(data, DayResults)
    ensures !weekly ==> s == Summarize(data)
  {
    var shown := data;
    if weekly {
      shown := ToWeekly(data);
    }
    s := Summarize(shown);
  }
}

=== FILE: text.dfy ===
/**
 * String operations the components rely on: `startsWith`, `includes`,
 * `toLowerCase` / `toUpperCase` (ASCII letters), `trim()` emptiness and the
 * decimal rendering of a non-negative integer.
 */
module Text {

  /** `s.startsWith(prefix)` */
  predicate StartsWith(s: string, prefix: string)
  {
    |prefix| <= |s| && s[..|prefix|] == prefix
  }

  /** `s.includes(sub)`, by scanning every start position. */
  predicate Contains(s: string, sub: string)
    decreases |s|
  {
    StartsWith(s, sub) || (|s| > 0 && Contains(s[1..], sub))
  }

  /** `sub` occurs in `s` at some offset. */
  ghost predicate OccursAt(s: string, sub: string, i: int)
  {
    0 <= i && i + |sub| <= |s| && s[i..i + |sub|] == sub
  }

  lemma {:induction false} ContainsMeansOccurs(s: string, sub: string)
    ensures Contains(s, sub) <==> exists i :: OccursAt(s, sub, i)
    decreases |s|
  {
    if StartsWith(s, sub) {
      OccursAtStart(s, sub);
    } else if |s| == 0 {
      forall i | OccursAt(s, sub, i) ensures false {
        OccursAtStart(s, sub);
      }
    } else {
      ContainsMeansOccurs(s[1..], sub);
      if Contains(s[1..], sub) {
        var i :| OccursAt(s[1..], sub, i);
        OccursShift(s, sub, i + 1);
      } else {
        forall i | OccursAt(s, sub, i) ensures false {
          if i == 0 {
            OccursAtStart(s, sub);
          } else {
            OccursShift(s, sub, i);
          }
        }
      }
    }
  }

  /** An occurrence at offset 0 is a prefix. */
  lemma OccursAtStart(s: string, sub: string)
    ensures OccursAt(s, sub, 0) <==> StartsWith(s, sub)
  {
  }

  /** Occurrences in `s[1..]` are those in `s` shifted down by one. */
  lemma OccursShift(s: string, sub: string, i: int)
    requires |s| > 0 && i > 0
    ensures OccursAt(s, sub, i) <==> OccursAt(s[1..], sub, i - 1)
  {
    if i + |sub| <= |s| {
      assert s[1..][i - 1..i - 1 + |sub|] == s[i..i + |sub|];
    }
  }

  /** The empty string occurs in every string. */
  lemma ContainsEmpty(s: string)
    ensures Contains(s, "")
  {
    assert StartsWith(s, "");
  }

  function LowerChar(c: char): (r: char)
    ensures 'A' <= c <= 'Z' ==> 'a' <= r <= 'z'
    ensures !('A' <= c <= 'Z') ==> r == c
  {
    if 'A' <= c <= 'Z' then (c as int + 32) as char else c
  }

  function UpperChar(c: char): (r: char)
    ensures 'a' <= c <= 'z' ==> 'A' <= r <= 'Z'
    ensures !('a' <= c <= 'z') ==> r == c
  {
    if 'a' <= c <= 'z' then (c as int - 32) as char else c
  }

  /** `s.toLowerCase()` on ASCII letters. */
  function ToLower(s: string): (r: string)
    ensures |r| == |s|
    ensures forall i :: 0 <= i < |s| ==> r[i] == LowerChar(s[i])
  {
    seq(|s|, i requires 0 <= i < |s| => LowerChar(s[i]))
  }

  /** `s.toUpperCase()` on ASCII letters. */
  function ToUpper(s: string): (r: string)
    ensures |r| == |s|
    ensures forall i :: 0 <= i < |s| ==> r[i] == UpperChar(s[i])
  {
    seq(|s|, i requires 0 <= i < |s| => UpperChar(s[i]))
  }

  /** Upper-casing a letter undoes lower-casing it. */
  lemma UpperLower(c: char)
    ensures UpperChar(LowerChar(c)) == UpperChar(c)
  {
  }

  /** `s.toLowerCase().toUpperCase()` is `s.toUpperCase()`: an upper-cased lookup ignores letter case. */
  lemma ToUpperIgnoresLower(s: string)
    ensures ToUpper(ToLower(s)) == ToUpper(s)
  {
    forall i | 0 <= i < |s|
      ensures ToUpper(ToLower(s))[i] == ToUpper(s)[i]
    {
      UpperLower(s[i]);
    }
  }

  /** Lower-casing twice is lower-casing once. */
  lemma ToLowerIdempotent(s: string)
    ensures ToLower(ToLower(s)) == ToLower(s)
  {
  }

  /** The characters `String.prototype.trim` removes: WhiteSpace and LineTerminator of ECMA-262. */
  predicate IsJsWhitespace(c: char)
  {
    || c == '\t' || c == '\n' || c == '\U{000B}' || c == '\U{000C}' || c == '\r' || c == ' '
    || c == '\U{00A0}' || c == '\U{1680}' || ('\U{2000}' <= c <= '\U{200A}')
    || c == '\U{2028}' || c == '\U{2029}' || c == '\U{202F}' || c == '\U{205F}'
    || c == '\U{3000}' || c == '\U{FEFF}'
  }

  /** `s.trim()` is the empty string (falsy). */
  predicate IsBlank(s: string)
  {
    forall i :: 0 <= i < |s| ==> IsJsWhitespace(s[i])
  }

  function DigitChar(d: nat): (c: char)
    requires d < 10
    ensures '0' <= c <= '9'
  {
    ('0' as int + d) as char
  }

  /** `String(n)` for a non-negative integer: decimal digits, no leading zero. */
  function NatToString(n: nat): (r: string)
    ensures |r| >= 1
    ensures forall i :: 0 <= i < |r| ==> '0' <= r[i] <= '9'
    ensures |r| > 1 ==> r[0] != '0'
    decreases n
  {
    if n < 10 then [DigitChar(n)] else NatToString(n / 10) + [DigitChar(n % 10)]
  }
  /** Reads a string of decimal digits back as a number. */
  function DigitsValue(s: string): nat
    requires forall i :: 0 <= i < |s| ==> '0' <= s[i] <= '9'
    decreases |s|
  {
    if |s| == 0 then 0 else DigitsValue(s[..|s| - 1]) * 10 + (s[|s| - 1] as int - '0' as int)
  }

  /** Reading the rendering back gives the number: `String(n)` loses nothing. */
  lemma {:induction false} NatToStringRoundTrip(n: nat)
    ensures DigitsValue(NatToString(n)) == n
    decreases n
  {
    if n >= 10 {
      NatToStringRoundTrip(n / 10);
      var r := NatToString(n);
      assert r[..|r| - 1] == NatToString(n / 10);
    }
  }

  /** Distinct numbers render as distinct strings. */
  lemma NatToStringInjective(a: nat, b: nat)
    requires NatToString(a) == NatToString(b)
    ensures a == b
  {
    NatToStringRoundTrip(a);
    NatToStringRoundTrip(b);
  }
}

=== FILE: top_bar.dfy ===
/**
 * The top bar (components/layout/TopBar.tsx): the account search box and
 * the account sync message. Period matching lives with the periods in
 * `Periods.MatchPeriod`.
 */
module TopBar {
  import opened Common
  import opened Text

  /** The fields of `MetaAdAccount` the search reads. */
  datatype Account = Account(accountName: string, metaAccountId: string)

  /** A non-blank query matches when either field, lower-cased, contains the lower-cased query. */
  predicate Matches(query: string, a: Account)
  {
    Contains(ToLower(a.accountName), ToLower(query)) || Contains(ToLower(a.metaAccountId), ToLower(query))
  }

  /**
   * `filteredAccounts`: a blank query (after `trim()`) keeps every account;
   * otherwise the matching accounts in their order. Only the blank test
   * trims: the search itself uses the query as typed.
   */
  function FilterAccounts(accounts: seq<Account>, query: string): (r: seq<Account>)
    ensures IsBlank(query) ==> r == accounts
    ensures !IsBlank(query) ==> forall i :: 0 <= i < |r| ==> r[i] in accounts && Matches(query, r[i])
    ensures !IsBlank(query) ==> forall i :: 0 <= i < |accounts| && Matches(query, accounts[i]) ==> accounts[i] in r
  {
    if IsBlank(query) then accounts else Filter(accounts, (a: Account) => Matches(query, a))
  }

  /** The filtered list never holds an account more often than the full list. */
  lemma FilterAccountsSubMultiset(accounts: seq<Account>, query: string)
    ensures multiset(FilterAccounts(accounts, query)) <= multiset(accounts)
  {
    if !IsBlank(query) {
      FilterSubMultiset(accounts, (a: Account) => Matches(query, a));
    }
  }

  /**
   * With a non-blank query the list is `accounts.filter(...)`: every
   * matching account, repeats included, in the order of the full list, and
   * nothing else.
   */
  lemma FilterAccountsSelects(accounts: seq<Account>, query: string) returns (idx: seq<nat>)
    ensures !IsBlank(query) ==> Selects(FilterAccounts(accounts, query), accounts, (a: Account) => Matches(query, a), idx)
  {
    idx := FilterSelects(accounts, (a: Account) => Matches(query, a));
  }

  /** A query with a leading space is not blank, and the space is searched for. */
  lemma FilterAccountsUntrimmed()
    ensures FilterAccounts([Account("ab", "1")], " ab") == []
  {
    var q := " ab";
    assert !IsJsWhitespace(q[1]);
    var a := Account("ab", "1");
    assert ToLower(q) == " ab";
    assert ToLower(a.accountName) == "ab";
    assert ToLower(a.metaAccountId) == "1";
    assert !Contains("ab", " ab");
    assert !Contains("1", " ab");
    assert !Matches(q, a);
    assert [a][..0] == [];
  }

  /** `${n} conta${n !== 1 ? 's' : ''} sincronizada${n !== 1 ? 's' : ''}` */
  function SyncMessage(count: nat): (r: string)
    ensures count == 1 ==> r == "1 conta sincronizada"
    ensures count != 1 ==> r == NatToString(count) + " contas sincronizadas"
  {
    var plural := if count != 1 then "s" else "";
    NatToString(count) + " conta" + plural + " sincronizada" + plural
  }

  /** The message is in the singular exactly when one account was synced. */
  lemma SyncMessageSingular(count: nat)
    ensures SyncMessage(count)[|SyncMessage(count)| - 1] == 's' <==> count != 1
  {
  }

  /** The outcome of `syncAdAccounts`. */
  datatype SyncResult = SyncFailed(error: Option<string>) | Synced(count: nat)

  datatype SyncStatus = Idle | Success | Failure

  /** The status and message shown after a sync. */
  function SyncFeedback(result: SyncResult): (r: (SyncStatus, string))
    ensures result.SyncFailed? ==> r == (Failure, result.error.GetOr("Erro desconhecido"))
    ensures result.Synced? ==> r == (Success, SyncMessage(result.count))
  {
    match result
    case SyncFailed(e) => (Failure, e.GetOr("Erro desconhecido"))
    case Synced(n) => (Success, SyncMessage(n))
  }
}
